=== FILE: README.md ===
# Identity wallet front end: a verified model of its stateful core

This project models, in Dafny, the parts of a React Native identity wallet
that do more than lay out a screen:

- **The five credential verification screens.** These are Aadhaar, TRAI (mobile number), ICAI (chartered accountant), Doctor and DL (driving licence).
  - Each screen is a small forward-only state machine. Its steps are `input`, then `otp` on the Aadhaar and TRAI screens only, then `verified`, `upload` and `complete`.
  - Its handlers validate the entered strings and then start a timer.
  - The timer later advances the step and stores a fixture record.
  - The record echoes the input in a transformed form: 4-4-4 digit grouping, a `+91-` prefix, or upper case.
- **The home-grown UI kit.** This covers:
  - the pagination window;
  - OTP box editing;
  - the toast queue;
  - accordion and toggle-group selection;
  - carousel wrap-around;
  - the command palette filter;
  - the calendar grid;
  - the open and selected state of dropdown menu, navigation menu, menubar, tabs, select, radio group, toggle and sidebar;
  - the button's disabled, loading and style rules.
- **Two fixture screens.** The professional-identity statistics, and the identity-documents status lookup with its header tallies.

How the JavaScript is represented:

- **Screens.** Each screen is a `class` whose fields are its React state. Each handler is a `method` whose postcondition states the whole new state as an update of the old one: `State() == old(State()).(...)`. The invariant `Valid()` is preserved by every method.
- **Timers.** Every `setTimeout` callback is an explicit `TimerFires` event. It runs with the values its closure captured.
- **Alerts.** `Alert.alert` is a returned `Option<Alert>`.
- **Callbacks.** Callbacks are returned `Option` values or logs.
- **Absent context keys.** A call through a context key that is absent is the `Throws` outcome of `Common.Call`.
- **Optional values.** `undefined` is `None`. `JsValue` keeps `undefined`, `null` and strings apart where `===` or `??` tells them apart.
- **Strings.** Strings are `seq<char>`. `toUpperCase` and `toLowerCase` are ASCII maps, and `includes` is a substring test.

## Model

| member | source | states |
|---|---|---|
| Workflow.RenderOtpFlow | components/AadhaarScreen.jsx:256-271 | `renderCurrentStep` of the OTP flows: the rendered step is the one named, or the input step. |
| Workflow.RenderDirectFlow | components/ICAIScreen.jsx:242-254 | `renderCurrentStep` of the direct flows: never the OTP step; the one named, or the input step. |
| Workflow.ProgressMarkers | components/AadhaarScreen.jsx:286-296 | Marker 1 is lit from `otp` on, marker 2 from `verified` on, and marker 3 only at `complete`. |
| Workflow.RenderStepSwitch | components/AadhaarScreen.jsx:256-271 | The OTP flows render each step by its name. The direct flows render `otp`, and any unknown step name, as the input step. |
| Workflow.MarkersFormPrefix | components/AadhaarScreen.jsx:286-296 | Marker 3 lit implies marker 2, which implies marker 1. The lit count grows with the step and is 0 exactly at `input` and 3 exactly at `complete`. |
| Aadhaar.FormatAadhaar | components/AadhaarScreen.jsx:59 | The replace: without a run of twelve digits the string is unchanged; with one it grows by the two inserted spaces. |
| Aadhaar.FirstDigitRun | components/AadhaarScreen.jsx:59 | Returns the leftmost position of twelve consecutive digits, with no run before it. This is where the regular expression matches. |
| Aadhaar.FormatChangesOnlyDigitRuns | components/AadhaarScreen.jsx:59 | The replacement changes the number iff it holds twelve consecutive digits. When it does, the length grows by exactly 2. |
| Aadhaar.FormatTwelveDigits | components/AadhaarScreen.jsx:59 | A twelve-digit number is stored as three groups of four joined by single spaces. |
| Aadhaar.FormatLeavesNonDigitsAlone | components/AadhaarScreen.jsx:59 | A twelve-character entry containing a non-digit is stored unchanged. |
| Aadhaar.FormatRoundTrip | components/AadhaarScreen.jsx:59 | Grouping and ungrouping are inverse bijections between twelve-digit numbers and "dddd dddd dddd". |
| Aadhaar.FormatExample | components/AadhaarScreen.jsx:59 | "123456789012" is stored as "1234 5678 9012". |
| Aadhaar.CheckAadhaarNumber | components/AadhaarScreen.jsx:32-35 | No alert iff the number has exactly 12 characters. No digit check is made. |
| Aadhaar.CheckOtp | components/AadhaarScreen.jsx:46-49 | No alert iff the OTP has exactly 6 characters. |
| Aadhaar.AadhaarScreen.constructor | components/AadhaarScreen.jsx:23-29 | Starts at `input` with empty fields, not loading, no record and no timer. Fixes the verification-request flag from `context.returnTo`. |
| Aadhaar.AadhaarScreen.EditAadhaarNumber | components/AadhaarScreen.jsx:96 | Only the number field changes. |
| Aadhaar.AadhaarScreen.EditOtp | components/AadhaarScreen.jsx:134 | Only the OTP field changes. |
| Aadhaar.AadhaarScreen.HandleAadhaarSubmit | components/AadhaarScreen.jsx:31-43 | A wrong length gives the alert and leaves the state unchanged. Otherwise loading starts and the submit timer is pending. |
| Aadhaar.AadhaarScreen.PressSendOtp | components/AadhaarScreen.jsx:101-107 | A disabled button does nothing. An enabled one never raises the alert, because the disable predicate equals the rejection condition. |
| Aadhaar.AadhaarScreen.HandleOtpSubmit | components/AadhaarScreen.jsx:45-64 | A wrong OTP length gives the alert with the state unchanged. Otherwise loading starts and a timer capturing the number is pending. |
| Aadhaar.AadhaarScreen.PressVerifyOtp | components/AadhaarScreen.jsx:139-145 | A disabled button does nothing. An enabled one starts the OTP timer. |
| Aadhaar.AadhaarScreen.HandleUploadDocument | components/AadhaarScreen.jsx:66-75 | `verified` moves to `upload` with the upload timer pending. It is callable only outside the verification-request context. |
| Aadhaar.AadhaarScreen.PressUpload | components/AadhaarScreen.jsx:200-204 | The upload button is absent in the verification-request context, so nothing happens there. |
| Aadhaar.AadhaarScreen.TimerFires | components/AadhaarScreen.jsx:37-42 | The step never moves back. The submit timer clears loading and moves to `otp`. The OTP timer stores the grouped record and moves to `verified`. The upload timer moves to `complete` and calls `onValidationComplete` once if given. |
| Aadhaar.Scenario | components/AadhaarScreen.jsx:31-64 | Entering 123456789012 and 123456, with both timers run, stores "1234 5678 9012". |
| Trai.TraiFixture | components/TRAIScreen.jsx:54-63 | The stored mobile number is "+91-" followed by the entered string verbatim. |
| Trai.CheckMobileNumber | components/TRAIScreen.jsx:32-35 | No alert iff the number has exactly 10 characters. |
| Trai.CheckOtp | components/TRAIScreen.jsx:46-49 | No alert iff the OTP has exactly 6 characters. |
| Trai.TraiScreen.constructor | components/TRAIScreen.jsx:23-29 | Same initial state as the Aadhaar screen. |
| Trai.TraiScreen.EditMobileNumber | components/TRAIScreen.jsx:99 | Only the number field changes. |
| Trai.TraiScreen.EditOtp | components/TRAIScreen.jsx:137 | Only the OTP field changes. |
| Trai.TraiScreen.HandleMobileSubmit | components/TRAIScreen.jsx:31-43 | A wrong length gives the alert with the state unchanged. Otherwise loading starts and the submit timer is pending. |
| Trai.TraiScreen.PressSendOtp | components/TRAIScreen.jsx:104-107 | A disabled button does nothing. An enabled one starts the submit timer. |
| Trai.TraiScreen.HandleOtpSubmit | components/TRAIScreen.jsx:45-67 | A wrong OTP length gives the alert with the state unchanged. Otherwise the OTP timer, capturing the number, is pending. |
| Trai.TraiScreen.PressVerifyOtp | components/TRAIScreen.jsx:142-145 | A disabled button does nothing. An enabled one starts the OTP timer. |
| Trai.TraiScreen.HandleUploadDocument | components/TRAIScreen.jsx:69-78 | `verified` moves to `upload` with the upload timer pending. |
| Trai.TraiScreen.PressUpload | components/TRAIScreen.jsx:218-222 | In the verification-request context there is no save button, so upload and complete are unreachable. |
| Trai.TraiScreen.TimerFires | components/TRAIScreen.jsx:37-42 | Works like the Aadhaar timer, with the "+91-" record. The invariant keeps the record present iff the step is past `otp`. |
| Trai.Scenario | components/TRAIScreen.jsx:31-67 | Entering 9876543210 stores "+91-9876543210". |
| Icai.IcaiFixture | components/ICAIScreen.jsx:44-55 | The stored membership number is upper case, has the entered length and equals an already upper-case entry. The year is echoed. |
| Icai.CheckIcai | components/ICAIScreen.jsx:31-39 | No alert iff the number has at least 6 characters and the year exactly 4. The number is checked first, and the year has no numeric check. |
| Icai.IcaiScreen.constructor | components/ICAIScreen.jsx:22-28 | Starts at `input` with empty fields, no record and no timer. |
| Icai.IcaiScreen.EditMembershipNumber | components/ICAIScreen.jsx:91 | The field stores the upper-cased text. |
| Icai.IcaiScreen.EditYear | components/ICAIScreen.jsx:99 | Only the year changes. |
| Icai.IcaiScreen.HandleIcaiSubmit | components/ICAIScreen.jsx:30-59 | On rejection the state is unchanged. Otherwise loading starts and a timer capturing number and year is pending. There is no OTP step. |
| Icai.IcaiScreen.PressVerify | components/ICAIScreen.jsx:107 | The disable predicate equals the rejection condition, so an enabled press always starts the timer. |
| Icai.IcaiScreen.HandleUploadDocument | components/ICAIScreen.jsx:61-70 | `verified` moves to `upload` with the upload timer pending. |
| Icai.IcaiScreen.PressUpload | components/ICAIScreen.jsx:186-190 | The upload button is hidden in the verification-request context. |
| Icai.IcaiScreen.TimerFires | components/ICAIScreen.jsx:43-58 | The submit timer goes directly from `input` to `verified` with the record. Because the field is already upper case, the stored number equals the field. The upload timer completes and calls the callback. |
| Icai.Scenario | components/ICAIScreen.jsx:30-59 | Typing "abc123" and "2015" stores "ABC123" and "2015". |
| Doctor.DoctorFixture | components/DoctorScreen.jsx:44-54 | The stored registration number is upper case, as long as the entry, and equal to it when the entry is already upper case; the year is echoed. |
| Doctor.CheckDoctor | components/DoctorScreen.jsx:31-39 | No alert iff the registration number has at least 5 characters and the year exactly 4. The number is checked first. |
| Doctor.DoctorScreen.constructor | components/DoctorScreen.jsx:22-28 | Starts at `input` with empty fields, no record and no timer. |
| Doctor.DoctorScreen.EditRegistrationNumber | components/DoctorScreen.jsx:90 | The field stores the upper-cased text. |
| Doctor.DoctorScreen.EditYear | components/DoctorScreen.jsx:98 | Only the year changes. |
| Doctor.DoctorScreen.HandleDoctorSubmit | components/DoctorScreen.jsx:30-58 | On rejection the state is unchanged. Otherwise loading starts and the submit timer is pending. |
| Doctor.DoctorScreen.PressVerify | components/DoctorScreen.jsx:106 | The disable predicate equals the rejection condition. |
| Doctor.DoctorScreen.HandleUploadDocument | components/DoctorScreen.jsx:60-69 | `verified` moves to `upload` with the upload timer pending. |
| Doctor.DoctorScreen.PressUpload | components/DoctorScreen.jsx:180-184 | The upload button is hidden in the verification-request context. |
| Doctor.DoctorScreen.TimerFires | components/DoctorScreen.jsx:43-57 | `input` moves to `verified` with the record. Upload moves to `complete` and calls the callback. The step never moves back. |
| Doctor.Scenario | components/DoctorScreen.jsx:30-58 | Typing "mh123" and "2010" stores "MH123". |
| Dl.DlFixture | components/DLScreen.jsx:45-55 | The stored DL number is upper case, as long as the entry, and equal to it when the entry is already upper case; the stored date of birth is the one entered. |
| Dl.CheckDl | components/DLScreen.jsx:32-40 | No alert iff the number has at least 10 characters and the date of birth is non-empty. The DD/MM/YYYY format is not checked. |
| Dl.DlScreen.constructor | components/DLScreen.jsx:23-29 | Starts at `input` with empty fields, no record and no timer. |
| Dl.DlScreen.EditDlNumber | components/DLScreen.jsx:91 | The field stores the upper-cased text. |
| Dl.DlScreen.EditDateOfBirth | components/DLScreen.jsx:99 | Only the date of birth changes. |
| Dl.DlScreen.HandleDlSubmit | components/DLScreen.jsx:31-59 | On rejection the state is unchanged. Otherwise loading starts and the submit timer is pending. |
| Dl.DlScreen.PressVerify | components/DLScreen.jsx:106 | The disable predicate (number shorter than 10 or no date of birth) equals the rejection condition. |
| Dl.DlScreen.HandleUploadDocument | components/DLScreen.jsx:61-70 | `verified` moves to `upload` with the upload timer pending. |
| Dl.DlScreen.PressUpload | components/DLScreen.jsx:180-184 | The upload button is absent in the verification-request context. |
| Dl.DlScreen.TimerFires | components/DLScreen.jsx:56-57 | `input` moves to `verified` with the record. Upload moves to `complete` and calls the callback. |
| Dl.Scenario | components/DLScreen.jsx:31-59 | Typing "mh0120200001" and "15/03/1990" stores "MH0120200001". |
| Button.IsDisabled | components/ui/button.jsx:76 | A loading button is always disabled, whatever `disabled` says. |
| Button.VariantStyle | components/ui/button.jsx:18-33 | The variant maps to a container key that is never a size key. It is the default key exactly for an unknown variant. |
| Button.SizeStyleAsWritten | components/ui/button.jsx:35-46 | As written, the size maps to sm, lg or icon, and every other size maps to the default VARIANT key. |
| Button.Render | components/ui/button.jsx:76-97 | The rendered button takes presses iff it is not disabled, and shows a spinner iff it is loading. |
| Button.DefaultSizeOverridesVariant | components/ui/button.jsx:35-46 | As written, every variant at the default size renders with background #111827 and a white label. |
| Button.SizeStyle | components/ui/button.jsx:35-46 | As intended, no size key carries a colour. |
| Button.TextSizeStyle | components/ui/button.jsx:65-74 | As intended, no text-size key carries a colour. |
| Button.VariantDecidesColours | components/ui/button.jsx:18-33 | Corrected: the variant alone decides both colours at every size. |
| Button.UnknownKeysFallBack | components/ui/button.jsx:30-31 | An unknown variant maps to the default container and text keys. Unknown sizes map to the default keys. |
| Button.LoadingShowsSpinner | components/ui/button.jsx:76-97 | Pressable iff neither disabled nor loading. A spinner shows iff loading. It is dark (#374151) exactly for outline and ghost, and white for every other variant, including the transparent link and unknown variants. |
| Pagination.Generated | components/ui/pagination.jsx:20-46 | The reference list: head, window, tail. It starts at page 1 and ends at the last page. |
| Pagination.PageNumbers | components/ui/pagination.jsx:48 | The list shown: it starts at page 1, and is only [1] when there is at most one page. |
| Pagination.PrevDisabled | components/ui/pagination.jsx:62 | Previous is disabled on page 1, where no earlier page exists. |
| Pagination.NextDisabled | components/ui/pagination.jsx:121 | Next is disabled on the last page, where no later page exists. |
| Pagination.PressPrev | components/ui/pagination.jsx:61-62 | A press on Previous forwards only the page before, and only when it lies in 1..T. |
| Pagination.PressNext | components/ui/pagination.jsx:120-121 | A press on Next forwards only the page after, and only when it lies in 1..T. |
| Pagination.GeneratePageNumbers | components/ui/pagination.jsx:20-46 | The loop and the pushes build exactly 1, the optional dots1, the window, the optional dots2, then T. |
| Pagination.MiddlePages | components/ui/pagination.jsx:23-29 | The window holds exactly max(2,c-d)..min(T-1,c+d), ascending, with no dots. |
| Pagination.PageListOrdered | components/ui/pagination.jsx:31-43 | For T > 1 the list starts at 1 and ends at T. Its page numbers strictly increase and lie in 1..T. |
| Pagination.PageListMembers | components/ui/pagination.jsx:23-43 | For T > 1 a page is listed iff it is 1, T or in the sibling window. |
| Pagination.EllipsisPlacement | components/ui/pagination.jsx:31-43 | dots1 appears iff c-d > 2, and then only at position 1. dots2 appears iff c+d < T-1, and then only second to last. |
| Pagination.CurrentPageListed | components/ui/pagination.jsx:23-43 | For 1 <= c <= T and d >= 0 the current page is listed and the list has at most 2d+5 entries. |
| Pagination.SinglePage | components/ui/pagination.jsx:48 | T <= 1 gives exactly [1]. |
| Pagination.HandlePageChange | components/ui/pagination.jsx:50-54 | Whatever is forwarded is the requested page. |
| Pagination.PageChangeRules | components/ui/pagination.jsx:50-54 | A page is forwarded iff 1 <= page <= T and page != c. Previous and Next are silent exactly when disabled (c = 1, c = T); otherwise they move by one. |
| InputOtp.ChangeText | components/ui/input-otp.jsx:25-28 | The string an edit stores. Inside the string, the box's character is replaced by the text. At or past the end, the text is appended. |
| InputOtp.EditInside | components/ui/input-otp.jsx:25-28 | Split, assign and join replace the character at an index inside the string by the text. |
| InputOtp.ReplaceCharacter | components/ui/input-otp.jsx:25-28 | A one-character edit keeps the length and changes only that position. |
| InputOtp.ClearCharacter | components/ui/input-otp.jsx:26-28 | An empty edit removes the character, shifts the rest left and shortens the code by one. |
| InputOtp.EditPastEnd | components/ui/input-otp.jsx:26-28 | Split, assign and join append the text at or past the end, because holes join as empty. |
| InputOtp.JoinSplit | components/ui/input-otp.jsx:26-28 | Splitting and joining give the code back. |
| InputOtp.LastChar | components/ui/input-otp.jsx:56 | Each edit stores at most one character, the last one typed. |
| InputOtp.FocusAfterChange | components/ui/input-otp.jsx:36-38 | Focus moves to index+1 iff the text is non-empty and index < maxLength-1. |
| InputOtp.FocusAfterKey | components/ui/input-otp.jsx:41-46 | Backspace moves focus to index-1 iff that box is empty and index > 0. |
| InputOtp.BoxText | components/ui/input-otp.jsx:55 | Box i shows the i-th character, or '' past the end. |
| InputOtp.InputOtp.constructor | components/ui/input-otp.jsx:9-16 | Starts from `value`, or '' when it is absent; `maxLength` defaults to 6 and `disabled` to false. |
| InputOtp.InputOtp.ValueChanged | components/ui/input-otp.jsx:19-23 | A defined `value` prop replaces the code. |
| InputOtp.InputOtp.HandleChangeText | components/ui/input-otp.jsx:25-39 | The new code is the edit rule applied to the old one. `onChange` receives exactly the new code, and focus follows the advance rule. |
| InputOtp.InputOtp.TypeInBox | components/ui/input-otp.jsx:56-61 | A disabled input ignores typing: the code, the emitted value and the focus are untouched. Otherwise typing stores the last character through the edit rule, grows the code by at most one, and hands the new code to `onChange` exactly when one was given. |
| InputOtp.InputOtp.RenderInputs | components/ui/input-otp.jsx:48-72 | Exactly maxLength boxes are rendered, none for a non-positive maxLength, and box i shows its character; the boxes are editable iff the input is not disabled. |
| Sonner.Delay | components/ui/sonner.jsx:24-28 | `duration or 4000`: a non-zero duration is kept, and an absent one gives 4000. |
| Sonner.WithoutId | components/ui/sonner.jsx:33-35 | The filter: no longer than the list, and every survivor is from the list and has another id. |
| Sonner.MakeToast | components/ui/sonner.jsx:193-201 | A string message always yields a title, and keeps the options' type, id and duration. |
| Sonner.Typed | components/ui/sonner.jsx:204-207 | The helpers force their type onto a string message. |
| Sonner.Stored | components/ui/sonner.jsx:21 | The stored toast carries the generated id unless the options bring their own. All other keys are the options'. |
| Sonner.WithoutIdKeeps | components/ui/sonner.jsx:33-35 | After removal, exactly the toasts with another id remain. |
| Sonner.WithoutIdAppend | components/ui/sonner.jsx:33-35 | Removal keeps the survivors in order. |
| Sonner.ToastCounter.constructor | components/ui/sonner.jsx:14 | The module counter starts at 0. |
| Sonner.ToastProvider.constructor | components/ui/sonner.jsx:17 | A provider starts with no toasts and no timers. |
| Sonner.WithoutIdAbsent | components/ui/sonner.jsx:33-35 | Removing an id no toast carries changes nothing. |
| Sonner.ToastProvider.AddToast | components/ui/sonner.jsx:19-31 | Takes the counter's next id and advances the counter. Appends the toast. Schedules exactly one removal by the generated id unless the duration is 0, after the duration or 4000. No pending removal already carries the generated id. |
| Sonner.ToastProvider.RemoveToast | components/ui/sonner.jsx:33-35 | Every toast with the id goes; the others stay in order. |
| Sonner.ToastProvider.ClearToasts | components/ui/sonner.jsx:37-39 | The list becomes empty. |
| Sonner.ToastProvider.RemovalFires | components/ui/sonner.jsx:25-27 | A fired timer removes by the id it captured and is no longer pending. |
| Sonner.AddTwice | components/ui/sonner.jsx:14-22 | Ids strictly increase, and later toasts are appended after earlier ones. |
| Sonner.OverriddenIdSurvivesTimer | components/ui/sonner.jsx:21-27 | A toast whose options carry another id is not removed by its own timer. |
| Sonner.OwnTimerRemoves | components/ui/sonner.jsx:21-35 | A toast with its generated id is removed by its own timer, and nothing else is. |
| Sonner.MakeToastRules | components/ui/sonner.jsx:193-201 | A string message becomes the title unless the options carry one, and the rest comes from the options. An object message is returned unchanged. |
| Sonner.TypedHelpers | components/ui/sonner.jsx:204-207 | The helpers force the type of a string message. For an object message the forced type is lost. |
| Sonner.BackgroundColor | components/ui/sonner.jsx:119-132 | White iff the type is unknown. |
| Sonner.IconColor | components/ui/sonner.jsx:104-117 | No icon iff the background is the unknown-type white. |
| Accordion.NextValue | components/ui/accordion.jsx:74-82 | The new value is a list exactly in multiple mode. |
| Accordion.Press | components/ui/accordion.jsx:74-84 | Throws iff no change handler is in the context. |
| Accordion.PressToggles | components/ui/accordion.jsx:62-64 | A press flips the pressed item. In multiple mode no other item changes; in single mode every other item closes. Trigger and content share the open predicate. |
| Accordion.PressTwiceRestoresMembers | components/ui/accordion.jsx:75-79 | Two presses in multiple mode restore which items are open. |
| Accordion.PressTwiceReorders | components/ui/accordion.jsx:75-79 | The order can change: ["a","b"] becomes ["b","a"]. |
| Accordion.SingleOpenItemCloses | components/ui/accordion.jsx:80-82 | Pressing the open item gives '', whatever `collapsible` says. |
| Accordion.ItemContextShadowsParent | components/ui/accordion.jsx:49 | As written, an item's trigger and content are open iff the item has no value, and every press throws; the accordion's own context would reach its handler. |
| Accordion.AccordionRoot.constructor | components/ui/accordion.jsx:21-22 | The internal value starts at [] for 'multiple' and '' otherwise. |
| Accordion.AccordionRoot.RootContext | components/ui/accordion.jsx:22-36 | The provided context matches the accordion's type: an array in multiple mode, a string otherwise. |
| Accordion.AccordionRoot.HandleValueChange | components/ui/accordion.jsx:24-30 | Delegates to `onValueChange` and then leaves the internal value alone, or else stores the value. |
| Accordion.AccordionRoot.PressTrigger | components/ui/accordion.jsx:74-84 | Corrected: the next value, computed from the root's current value, is emitted or stored. |
| Accordion.OpenThenClose | components/ui/accordion.jsx:21-30 | Corrected: an uncontrolled multiple accordion opens an item on the first press and closes it on the second. |
| ToggleGroup.IsPressed | components/ui/toggle-group.jsx:57-59 | Only a value of the mode's kind presses anything: a string in single mode, an array otherwise. |
| ToggleGroup.HandlePress | components/ui/toggle-group.jsx:61-74 | A press is a no-op iff the item is disabled or no handler is given. |
| ToggleGroup.PressToggles | components/ui/toggle-group.jsx:57-72 | The pressed item flips. Multiple mode changes no other item and always emits an array; single mode leaves the others unpressed. |
| ToggleGroup.SingleModeEmits | components/ui/toggle-group.jsx:64-65 | A pressed item emits undefined, an unpressed one its value. |
| ToggleGroup.NonArrayCountsAsEmpty | components/ui/toggle-group.jsx:67 | A non-array group value counts as []. |
| Carousel.PrevIndex | components/ui/carousel.jsx:34-37 | From a slide in range, the previous target is a slide in range. |
| Carousel.NextIndex | components/ui/carousel.jsx:39-42 | From a slide in range, the next target is a slide in range. |
| Carousel.ArrowsWrapAround | components/ui/carousel.jsx:34-42 | For c in [0,n) both targets lie in [0,n) and are inverse to each other. Next gives 0 iff c is last. |
| Carousel.EmptyCarouselTargets | components/ui/carousel.jsx:35 | With no children, Previous targets -1. |
| Carousel.Dots | components/ui/carousel.jsx:74-83 | One dot per child. |
| Carousel.OneActiveDot | components/ui/carousel.jsx:74-83 | At most one dot is active, and exactly one when the index is in range. |
| Carousel.CarouselView.constructor | components/ui/carousel.jsx:18 | The index starts at 0. |
| Carousel.CarouselView.ScrollSettled | components/ui/carousel.jsx:22-26 | A settled scroll sets the index. |
| Carousel.CarouselView.GoToPrevious | components/ui/carousel.jsx:34-37 | Scrolls to the wrapped previous index. |
| Carousel.CarouselView.GoToNext | components/ui/carousel.jsx:39-42 | Scrolls to the wrapped next index. |
| Carousel.CarouselView.PressDot | components/ui/carousel.jsx:28-32 | Scrolls to the dot's index. |
| Command.ShouldShow | components/ui/command.jsx:114-116 | With no term every item shows. An element child with no truthy value shows only then. |
| Command.LowerKeepsOccurrence | components/ui/command.jsx:115-116 | Lower-casing keeps a substring occurrence in place. |
| Command.FilterRules | components/ui/command.jsx:114-116 | An empty term shows everything. A label or value containing the term is shown. A non-string label matches only through its value. |
| Command.FilterIgnoresCase | components/ui/command.jsx:115-116 | Upper-casing term, label or value shows the same items. |
| Command.HandleSelect | components/ui/command.jsx:103-111 | A disabled item makes no call. Otherwise `onSelect(value)` comes first, when given, and `onValueChange(value)` last. |
| Command.CommandRoot.constructor | components/ui/command.jsx:15-16 | The value and the search term start as ''. |
| Command.CommandRoot.SetSearchTerm | components/ui/command.jsx:51 | Only the term changes. |
| Command.CommandRoot.SelectItem | components/ui/command.jsx:17-25 | A change reaches the handler or the internal value, never both. A controlled value wins. |
| Calendar.GetDaysInMonth | components/ui/calendar.jsx:27-48 | The grid has start+days cells. The first `start` are null, and cell start+k-1 holds day k. |
| Calendar.IsSelected | components/ui/calendar.jsx:50-57 | Only a day cell equal to the selected date is selected, and nothing is outside single mode. |
| Calendar.IsDisabled | components/ui/calendar.jsx:59-65 | A `disabled` prop that is not a function disables exactly the blank cells. |
| Calendar.CellRules | components/ui/calendar.jsx:50-65 | A null cell is disabled and never selected. A non-function `disabled`, even true, disables nothing, while a function decides. Only 'single' mode selects, by date. |
| Calendar.HandleDateSelect | components/ui/calendar.jsx:67-72 | `onSelect` gets the date iff the cell is a date, not disabled, and a handler exists. |
| Calendar.PressCell | components/ui/calendar.jsx:38-72 | A leading blank never selects. Day k's cell hands day k to `onSelect` unless it is disabled. |
| DropdownMenu.DropdownMenuRoot.constructor | components/ui/dropdown-menu.jsx:15 | The internal flag starts false. |
| DropdownMenu.DropdownMenuRoot.HandleOpenChange | components/ui/dropdown-menu.jsx:16-24 | Delegates or sets the internal flag, never both. A defined `open` prop decides `isOpen`. |
| DropdownMenu.DropdownMenuRoot.PressTrigger | components/ui/dropdown-menu.jsx:36-38 | The trigger always requests true. |
| DropdownMenu.DropdownMenuRoot.Dismiss | components/ui/dropdown-menu.jsx:65-71 | A close request or overlay press requests false. |
| DropdownMenu.DropdownMenuRoot.SelectItem | components/ui/dropdown-menu.jsx:92-98 | A disabled item is a no-op. Otherwise `onSelect` runs and the menu closes. |
| DropdownMenu.CheckboxToggle | components/ui/dropdown-menu.jsx:133-138 | Emits the negation of `checked` iff enabled with a handler. |
| DropdownMenu.RadioSelect | components/ui/dropdown-menu.jsx:176-181 | Emits the item value iff enabled with a handler. |
| DropdownMenu.CheckboxTwice | components/ui/dropdown-menu.jsx:133-138 | Feeding the emitted value back and pressing again emits the original state. |
| DropdownMenu.OpenPickClose | components/ui/dropdown-menu.jsx:15-98 | Uncontrolled: closed, open after the trigger, still open after a disabled item, closed after an enabled one. |
| DropdownMenu.ControlledIgnoresPresses | components/ui/dropdown-menu.jsx:16-24 | A controlled menu keeps its prop and forwards true, then false. |
| NavigationMenu.Press | components/ui/navigation-menu.jsx:57-61 | Throws iff no handler is in the context. Otherwise it emits '' for the active item and the item value for an inactive one. |
| NavigationMenu.ItemContext | components/ui/navigation-menu.jsx:46 | Corrected: the item context keeps the menu's value and handler and adds the item value. |
| NavigationMenu.ItemContextShadowsParent | components/ui/navigation-menu.jsx:46 | As written, an item is active iff it has no value, and every press throws. |
| NavigationMenu.AtMostOneOpen | components/ui/navigation-menu.jsx:95-98 | Two different items are never open together. |
| NavigationMenu.PressToggles | components/ui/navigation-menu.jsx:57-61 | Corrected: a press flips its item and leaves every other item closed. |
| NavigationMenu.NavigationMenuRoot.constructor | components/ui/navigation-menu.jsx:14 | The internal value starts as ''. |
| NavigationMenu.NavigationMenuRoot.CurrentValue | components/ui/navigation-menu.jsx:15 | A `value` prop other than undefined wins. |
| NavigationMenu.NavigationMenuRoot.HandleValueChange | components/ui/navigation-menu.jsx:17-23 | Delegates or stores, never both. |
| NavigationMenu.NavigationMenuRoot.PressTrigger | components/ui/navigation-menu.jsx:56-61 | Corrected: the trigger's next value, from the menu's state, is emitted or stored. |
| NavigationMenu.OpenSwitchClose | components/ui/navigation-menu.jsx:14-98 | Corrected: opening a, then b, moves the open item. Pressing b again closes all. |
| Menubar.TriggerPress | components/ui/menubar.jsx:36-40 | Throws iff the setter is absent. Otherwise it sets null for the active menu and the menu value otherwise. |
| Menubar.CloseRequest | components/ui/menubar.jsx:80-86 | A close request or overlay press sets null. |
| Menubar.ItemSelect | components/ui/menubar.jsx:105-111 | A disabled item is a no-op. Otherwise `onSelect` runs, then the close. |
| Menubar.MenuContextOf | components/ui/menubar.jsx:28 | Corrected: the menu context keeps the bar's active menu and setter and adds the menu value. |
| Menubar.MenuContextShadowsParent | components/ui/menubar.jsx:28 | As written: a menu is active iff it has no value; triggers and closes throw; an item runs `onSelect` and then throws. |
| Menubar.MenubarRoot.constructor | components/ui/menubar.jsx:14 | `activeMenu` starts as null. |
| Menubar.MenubarRoot.ContentVisible | components/ui/menubar.jsx:72 | Corrected: visible iff `activeMenu` equals the menu value. |
| Menubar.MenubarRoot.PressTrigger | components/ui/menubar.jsx:35-40 | Corrected: the active menu closes; any other menu becomes the active one. |
| Menubar.MenubarRoot.RequestClose | components/ui/menubar.jsx:80-86 | Corrected: `activeMenu` becomes null. |
| Menubar.MenubarRoot.SelectItem | components/ui/menubar.jsx:105-111 | Corrected: a disabled item changes nothing. Otherwise `onSelect` runs and `activeMenu` becomes null. |
| Menubar.AtMostOneOpen | components/ui/menubar.jsx:72 | Two different menus are never visible together. |
| Menubar.SwitchAndClose | components/ui/menubar.jsx:14-111 | Corrected: presses switch menus, a second press closes, and an item closes. |
| Tabs.Coalesce | components/ui/tabs.jsx:13 | A null or undefined `value` falls back to the internal value. |
| Tabs.TabsRoot.constructor | components/ui/tabs.jsx:12 | The internal value starts at `defaultValue`. |
| Tabs.TabsRoot.IsSelected | components/ui/tabs.jsx:47 | A trigger is selected, and its content renders, iff its value is the current value. |
| Tabs.TabsRoot.HandleValueChange | components/ui/tabs.jsx:15-21 | Delegates or stores, never both. |
| Tabs.TabsRoot.PressTrigger | components/ui/tabs.jsx:52 | Always emits the trigger's value, even when it is selected. Uncontrolled, the tab then shows as selected. |
| Tabs.OnePanelVisible | components/ui/tabs.jsx:75-77 | Two different tab values are never both shown. |
| Tabs.SwitchTabs | components/ui/tabs.jsx:12-52 | Starts on `defaultValue` and follows presses. A null prop behaves as an absent one. |
| Tabs.ControlledTabs | components/ui/tabs.jsx:13-21 | A controlled value decides the selection, and presses only reach the handler. |
| Select.TriggerText | components/ui/select.jsx:68 | Shows children, else the placeholder, else 'Select...'. It is never empty and ignores the value. |
| Select.ValueText | components/ui/select.jsx:94 | Shows a truthy value, else the placeholder. |
| Select.SelectRoot.constructor | components/ui/select.jsx:21 | The list starts closed. |
| Select.SelectRoot.PressTrigger | components/ui/select.jsx:42-46 | Opens only when not disabled. |
| Select.SelectRoot.Dismiss | components/ui/select.jsx:109-115 | Closes. |
| Select.SelectRoot.SelectItem | components/ui/select.jsx:135-142 | A disabled item does nothing. Otherwise the value is emitted if a handler exists, and the list closes. |
| Select.OpenAndChoose | components/ui/select.jsx:21-142 | A disabled select never opens. The item mark follows the prop, not the choice. |
| RadioGroup.IsChecked | components/ui/radio-group.jsx:34 | Pressing the checked item of an enabled group with a handler re-emits the group value. |
| RadioGroup.IsDisabled | components/ui/radio-group.jsx:35 | A disabled group disables every item. |
| RadioGroup.HandlePress | components/ui/radio-group.jsx:37-41 | Emits the item value iff neither group nor item is disabled and a handler exists. |
| RadioGroup.PressChecks | components/ui/radio-group.jsx:34-41 | The pressed item becomes the only checked one. Re-pressing the checked item re-emits its value, so there is no deselect. |
| Toggle.SizeStyles | components/ui/toggle.jsx:30-51 | 'sm' and 'lg' get their own box; every other size gets the default box. |
| Toggle.FontSize | components/ui/toggle.jsx:69 | 12 for 'sm', 16 for 'lg' and 14 for every other size. |
| Toggle.SizesAreOrdered | components/ui/toggle.jsx:30-69 | Box heights and font sizes are ordered alike. |
| Toggle.ToggleButton.constructor | components/ui/toggle.jsx:17 | The internal flag starts false. |
| Toggle.ToggleButton.HandlePress | components/ui/toggle.jsx:20-28 | Disabled: a no-op. Otherwise the negation of the shown state goes to the handler or into the internal flag. |
| Toggle.PressTwice | components/ui/toggle.jsx:17-28 | An uncontrolled toggle flips on each press. A controlled one keeps showing its prop. |
| Sidebar.UseSidebar | components/ui/sidebar.jsx:41-47 | Throws only for a falsy context. |
| Sidebar.UseSidebarOutsideProvider | components/ui/sidebar.jsx:11 | The default `{}` is returned, not thrown on. |
| Sidebar.SidebarProvider.constructor | components/ui/sidebar.jsx:13-16 | The internal flag starts at `defaultOpen`, which defaults to true. |
| Sidebar.SidebarProvider.Value | components/ui/sidebar.jsx:27-35 | `state` is 'expanded' iff open, else 'collapsed'. `openMobile` is always false. |
| Sidebar.SidebarProvider.HandleOpenChange | components/ui/sidebar.jsx:18-24 | Delegates or stores, never both. |
| Sidebar.SidebarProvider.ToggleSidebar | components/ui/sidebar.jsx:34 | Requests the negation of the shown state. Uncontrolled without a handler, the state string flips. |
| Sidebar.ToggleTwice | components/ui/sidebar.jsx:13-34 | expanded, then collapsed, then expanded; never open on mobile. |
| ProfessionalIdentity.CountVerified | components/ProfessionalIdentityScreen.jsx:55-56 | The filter count is at most the length; StatsAddUp relates the two counts. |
| ProfessionalIdentity.ComputeStats | components/ProfessionalIdentityScreen.jsx:53-57 | `total` is the list length. |
| ProfessionalIdentity.StatsAddUp | components/ProfessionalIdentityScreen.jsx:53-57 | verified + pending = total. |
| ProfessionalIdentity.VerifyingMovesOne | components/ProfessionalIdentityScreen.jsx:55-56 | Verifying one entry moves one count from pending to verified. |
| ProfessionalIdentity.FixtureStats | components/ProfessionalIdentityScreen.jsx:20-57 | The fixture gives 3 in total, 0 verified and 3 pending. |
| ProfessionalIdentity.StatusText | components/ProfessionalIdentityScreen.jsx:92 | 'Verified' iff verified, else 'Not Verified'. |
| ProfessionalIdentity.LastUpdatedLine | components/ProfessionalIdentityScreen.jsx:94-98 | The line appears iff `lastUpdated` is truthy. |
| ProfessionalIdentity.FixtureCards | components/ProfessionalIdentityScreen.jsx:63-65 | The cards navigate to distinct ids, and none shows a date. |
| IdentityDocuments.GetStatusInfo | components/IdentityDocumentsScreen.jsx:66-93 | Total: verified, pending and rejected get their own text, and every other string gives 'Not Uploaded'. |
| IdentityDocuments.StatusColoursDistinguish | components/IdentityDocumentsScreen.jsx:66-93 | Different texts come with different colours. |
| IdentityDocuments.CountBadge | components/IdentityDocumentsScreen.jsx:99-112 | The number of documents with a given badge text, at most the length. |
| IdentityDocuments.CountRemaining | components/IdentityDocumentsScreen.jsx:99-112 | The number of documents neither verified nor pending, at most the length. |
| IdentityDocuments.TalliesPartition | components/IdentityDocumentsScreen.jsx:99-112 | Verified, pending and remaining counts add up to the list length. |
| IdentityDocuments.HeaderMatchesFixture | components/IdentityDocumentsScreen.jsx:101-110 | The hard-coded 2 / 1 / 2 equal the fixture's counts. |
| IdentityDocuments.FixtureKeysAndRoutes | components/IdentityDocumentsScreen.jsx:124-126 | Ids are pairwise distinct, and each card opens its own, distinct screen. |
| Common.ToUpperIdempotent | components/ICAIScreen.jsx:46 | Upper-casing keeps the length, yields upper case and is idempotent. |
| Common.Without | components/ui/accordion.jsx:77 | The filter removes every occurrence of the value and never lengthens the list. |
| Common.WithoutMembers | components/ui/accordion.jsx:77 | `filter(v => v !== x)` keeps exactly the elements other than x. |

## Left out

- Alerts are values, and `Alert.alert` itself is not modelled. `handleViewDocument` on every screen only shows an alert and is not modelled.
- The 2000 ms and 4000 ms delays are not modelled. A timer is an event that the model fires explicitly, so timing and interleaving with other events are not modelled.
- `TextInput` `maxLength` and `keyboardType` caps on the screens' fields are not modelled. The handlers check the lengths themselves.
- The handlers' `requires` says they are called only from the step that renders their button, and not while loading (a button is disabled while loading). The `Press*` methods model the button's own disable check.
- `useToast`'s fallback branch is not modelled. It is dead code because the context default is `{}`. The close button of a `Toast` calls `onDismiss`, which is `removeToast` (`Sonner.ToastProvider.RemoveToast`); only the 300 ms entry and 200 ms exit animations are presentational and left out.
- Calendar: JavaScript `Date` is not modelled. The weekday of the 1st and the month length are inputs. `navigateMonth` is not modelled.
- Carousel: the `handleScroll` division and rounding of scroll offsets are floating point. `ScrollSettled` takes the resulting index.
- React context lookup is not modelled. Each trigger is a function of an explicit context value.
- Animation, layout and `StyleSheet` tables are not modelled, except the colour and size keys stated above.
- Toggle: the variant colour switch is presentational and not modelled.
- Select.TriggerText: children are modelled as strings only. Any other truthy child element, which the trigger renders too, is not modelled.
- InputOtp.InputOtp.constructor: the `value`, `pressed` and `open` props of InputOtp, Toggle and Sidebar, the `value` props of Accordion and Command and the `open` prop of DropdownMenu are `Option`s, which cannot express `null`. The `!== undefined` tests in those components treat `null` as defined; the model does not.
- Pagination.HandlePageChange: the result is the page that would be forwarded. Whether `onPageChange` is present (`onPageChange?.`) is not modelled, so an absent handler still yields `Some(page)`.
- Sonner.Stored: toast options keep five keys (id, title, description, type, duration). The arbitrary further keys the spread copies are not modelled.
- InputOtp.InputOtp.ValueChanged: the effect is modelled as running after every change of `value`. React's dependency comparison is not modelled.
- Sonner.ToastProvider.AddToast: ids are unbounded naturals. The JavaScript number counter's loss of precision past 2^53 is not modelled.

## Findings

| source | as written | input that shows it | evidently intended | confidence | as-written member | corrected member |
|---|---|---|---|---|---|---|
| components/ui/button.jsx:35-46 | `getSizeStyle` returns `styles.buttonDefault` for the default size. That entry holds the default variant's dark background and comes after the variant style, so it overrides it; the same holds for `buttonTextDefault` in the label. | variant 'outline', size 'default': background #111827, white label | the default size adds no colour, so the variant decides both colours | not executed | Button.DefaultSizeOverridesVariant | Button.VariantDecidesColours |
| components/ui/accordion.jsx:49 | `AccordionItem` provides a fresh context with only `itemValue`. Its trigger then reads no `type`, `value` or `onValueChange`. | any accordion with an item; pressing its trigger calls an undefined handler | the item context extends the accordion's context with `itemValue` | not executed | Accordion.ItemContextShadowsParent | Accordion.PressToggles |
| components/ui/navigation-menu.jsx:46 | `NavigationMenuItem` provides only `itemValue`. The trigger's `value` and `onValueChange` are undefined. | an item with value 'a': never active, and a press calls an undefined handler | the item context extends the menu's context | not executed | NavigationMenu.ItemContextShadowsParent | NavigationMenu.PressToggles |
| components/ui/menubar.jsx:28 | `MenubarMenu` provides only `menuValue`. Triggers, close requests and items then call an undefined `setActiveMenu`. | a menu with value 'file': pressing its trigger throws; an item runs `onSelect` and then throws | the menu context extends the bar's context | not executed | Menubar.MenuContextShadowsParent | Menubar.MenubarRoot.PressTrigger |

=== FILE: aadhaar.dfy ===
/** The Aadhaar verification screen: number -> OTP -> verified record ->
    upload -> complete. Handlers and timer callbacks overwrite the screen's
    state fields; each `setTimeout` callback is the explicit `TimerFires` event. */
module Aadhaar {
  import opened Common
  import opened Workflow
  import Button

  predicate IsDigit(c: char)
  {
    '0' <= c <= '9'
  }

  /** Twelve digits start at position `i`: where `(\d{4})(\d{4})(\d{4})` matches. */
  predicate DigitRunAt(s: string, i: int)
  {
    0 <= i && i + 12 <= |s| && forall k :: i <= k < i + 12 ==> IsDigit(s[k])
  }

  /** The leftmost match position at or after `from`, as the regular-expression
      engine finds it. */
  function FirstDigitRun(s: string, from: nat): (r: Option<nat>)
    decreases |s| - from
    ensures r.Some? ==> from <= r.value && DigitRunAt(s, r.value)
    ensures forall j :: from <= j && (r.None? || j < r.value) ==> !DigitRunAt(s, j)
  {
    if from + 12 > |s| then None
    else if DigitRunAt(s, from) then Some(from)
    else FirstDigitRun(s, from + 1)
  }

  /** `aadhaarNumber.replace(/(\d{4})(\d{4})(\d{4})/, '$1 $2 $3')`: the first
      run of twelve digits gets a space after its 4th and 8th digit. */
  function FormatAadhaar(s: string): (r: string)
    ensures FirstDigitRun(s, 0).None? ==> r == s
    ensures FirstDigitRun(s, 0).Some? ==> |r| == |s| + 2
  {
    match FirstDigitRun(s, 0)
    case None => s
    case Some(i) => s[..i] + s[i..i + 4] + " " + s[i + 4..i + 8] + " " + s[i + 8..i + 12] + s[i + 12..]
  }

  /** The replacement changes the string exactly when it holds twelve
      consecutive digits, and then only inserts two characters. */
  lemma FormatChangesOnlyDigitRuns(s: string)
    ensures FormatAadhaar(s) != s <==> exists i :: DigitRunAt(s, i)
    ensures |FormatAadhaar(s)| == if exists i :: DigitRunAt(s, i) then |s| + 2 else |s|
  {
    match FirstDigitRun(s, 0)
    case None =>
      assert forall i :: !DigitRunAt(s, i);
    case Some(i) =>
      assert DigitRunAt(s, i);
      assert |FormatAadhaar(s)| == |s| + 2;
  }

  /** A twelve-digit number is grouped 4-4-4. */
  lemma FormatTwelveDigits(s: string)
    requires |s| == 12 && forall k :: 0 <= k < 12 ==> IsDigit(s[k])
    ensures FormatAadhaar(s) == s[..4] + " " + s[4..8] + " " + s[8..]
  {
    assert DigitRunAt(s, 0);
    assert s[..0] == [] && s[0..4] == s[..4] && s[12..] == [];
  }

  /** A twelve-character entry with a non-digit is stored unchanged. */
  lemma FormatLeavesNonDigitsAlone(s: string, k: nat)
    requires |s| == 12 && k < 12 && !IsDigit(s[k])
    ensures FormatAadhaar(s) == s
  {
    assert !DigitRunAt(s, 0);
  }

  /** Removes the two group separators of a 14-character grouped number. */
  function Ungroup(g: string): string
    requires |g| == 14
  {
    g[..4] + g[5..9] + g[10..]
  }

  /** The grouped shape "dddd dddd dddd". */
  predicate IsGrouped(g: string)
  {
    |g| == 14 && g[4] == ' ' && g[9] == ' ' &&
    forall k :: 0 <= k < 14 && k != 4 && k != 9 ==> IsDigit(g[k])
  }

  /** Grouping is a bijection between twelve-digit numbers and grouped numbers. */
  lemma FormatRoundTrip(s: string, g: string)
    ensures |s| == 12 && (forall k :: 0 <= k < 12 ==> IsDigit(s[k])) ==>
              IsGrouped(FormatAadhaar(s)) && Ungroup(FormatAadhaar(s)) == s
    ensures IsGrouped(g) ==> FormatAadhaar(Ungroup(g)) == g
  {
    if |s| == 12 && (forall k :: 0 <= k < 12 ==> IsDigit(s[k])) {
      FormatTwelveDigits(s);
      var f := FormatAadhaar(s);
      assert f[..4] == s[..4] && f[5..9] == s[4..8] && f[10..] == s[8..];
      assert s == s[..4] + s[4..8] + s[8..];
    }
    if IsGrouped(g) {
      var u := Ungroup(g);
      assert |u| == 12;
      forall k | 0 <= k < 12 ensures IsDigit(u[k]) {
        if k < 4 { assert u[k] == g[k]; }
        else if k < 8 { assert u[k] == g[k + 1]; }
        else { assert u[k] == g[k + 2]; }
      }
      FormatTwelveDigits(u);
      assert u[..4] == g[..4] && u[4..8] == g[5..9] && u[8..] == g[10..];
      assert g == g[..4] + " " + g[5..9] + " " + g[10..];
    }
  }

  /** The fixture record. */
  datatype AadhaarRecord = AadhaarRecord(
    name: string, dateOfBirth: string, gender: string, address: string, aadhaarNumber: string)

  /** The record the OTP timer stores: constants, plus the entered number grouped. */
  function AadhaarFixture(number: string): AadhaarRecord
  {
    AadhaarRecord("John Doe", "15/03/1990", "Male",
                  "123 Main Street, Mumbai, Maharashtra - 400001", FormatAadhaar(number))
  }

  /** The check at the top of `handleAadhaarSubmit`. */
  function CheckAadhaarNumber(number: string): (alert: Option<Alert>)
    ensures alert.None? <==> |number| == 12
  {
    if |number| != 12 then Some(Alert("Error", "Please enter a valid 12-digit Aadhaar number"))
    else None
  }

  /** The check at the top of `handleOtpSubmit`. */
  function CheckOtp(otp: string): (alert: Option<Alert>)
    ensures alert.None? <==> |otp| == 6
  {
    if |otp| != 6 then Some(Alert("Error", "Please enter a valid 6-digit OTP")) else None
  }

  /** A pending `setTimeout` callback, with what its closure captured. */
  datatype Timer = NoTimer | SubmitTimer | OtpTimer(number: string) | UploadTimer

  /** All state fields of the screen at once. */
  datatype Snapshot = Snapshot(
    step: Step, aadhaarNumber: string, otp: string, isLoading: bool,
    verifiedData: Option<AadhaarRecord>, pending: Timer, completions: nat)

  class AadhaarScreen {
    var step: Step
    var aadhaarNumber: string
    var otp: string
    var isLoading: bool
    var verifiedData: Option<AadhaarRecord>
    /** The callback scheduled and not yet run. */
    var pending: Timer
    /** How many times `onValidationComplete` has been called. */
    var completions: nat
    const fromVerificationRequest: bool
    const hasCallback: bool

    ghost function State(): Snapshot
      reads this
    {
      Snapshot(step, aadhaarNumber, otp, isLoading, verifiedData, pending, completions)
    }

    /** The invariant of every reachable state: the spinner runs exactly while a
        verification timer is pending; a record is present iff the step is past
        `otp`; in the verification-request context the flow stops at
        `verified`; the callback ran once if and only if the flow is complete. */
    ghost predicate Valid()
      reads this
    {
      && (isLoading <==> pending.SubmitTimer? || pending.OtpTimer?)
      && (pending.SubmitTimer? ==> step == Input)
      && (pending.OtpTimer? ==> step == Otp && pending.number == aadhaarNumber)
      && (pending.UploadTimer? <==> step == Upload)
      && (verifiedData.Some? <==> PastOtp(step))
      && (verifiedData.Some? ==> verifiedData.value == AadhaarFixture(aadhaarNumber))
      && (fromVerificationRequest ==> step != Upload && step != Complete)
      && completions == (if step == Complete && hasCallback then 1 else 0)
    }

    constructor (context: Option<ScreenContext>, onValidationComplete: bool)
      ensures Valid()
      ensures State() == Snapshot(Input, "", "", false, None, NoTimer, 0)
      ensures fromVerificationRequest == IsFromVerificationRequest(context)
      ensures hasCallback == onValidationComplete
    {
      step, aadhaarNumber, otp, isLoading := Input, "", "", false;
      verifiedData, pending, completions := None, NoTimer, 0;
      fromVerificationRequest := IsFromVerificationRequest(context);
      hasCallback := onValidationComplete;
    }

    /** `onChangeText` of the number field, which only the input step renders. */
    method EditAadhaarNumber(text: string)
      requires Valid() && step == Input
      modifies this
      ensures Valid()
      ensures State() == old(State()).(aadhaarNumber := text)
    {
      aadhaarNumber := text;
    }

    /** `onChangeText` of the OTP field, which only the OTP step renders. */
    method EditOtp(text: string)
      requires Valid() && step == Otp
      modifies this
      ensures Valid()
      ensures State() == old(State()).(otp := text)
    {
      otp := text;
    }

    /** `handleAadhaarSubmit`. Its only caller is the "Send OTP" button, which
        is rendered at the input step and disabled while loading. */
    method HandleAadhaarSubmit() returns (alert: Option<Alert>)
      requires Valid() && step == Input && !isLoading
      modifies this
      ensures Valid()
      ensures alert == CheckAadhaarNumber(aadhaarNumber)
      ensures alert.Some? ==> State() == old(State())
      ensures alert.None? ==> State() == old(State()).(isLoading := true, pending := SubmitTimer)
    {
      alert := CheckAadhaarNumber(aadhaarNumber);
      if alert.Some? {
        return;
      }
      isLoading := true;
      pending := SubmitTimer;
    }

    /** A press on "Send OTP": the button is disabled while loading or while
        the number is not twelve characters long, so no alert can be raised. */
    method PressSendOtp()
      requires Valid() && step == Input
      modifies this
      ensures Valid()
      ensures if Button.IsDisabled(|old(aadhaarNumber)| != 12, old(isLoading))
              then State() == old(State())
              else State() == old(State()).(isLoading := true, pending := SubmitTimer)
    {
      if !Button.IsDisabled(|aadhaarNumber| != 12, isLoading) {
        var alert := HandleAadhaarSubmit();
        assert alert.None?;
      }
    }

    /** `handleOtpSubmit`. Its only caller is the "Verify OTP" button. */
    method HandleOtpSubmit() returns (alert: Option<Alert>)
      requires Valid() && step == Otp && !isLoading
      modifies this
      ensures Valid()
      ensures alert == CheckOtp(otp)
      ensures alert.Some? ==> State() == old(State())
      ensures alert.None? ==> State() == old(State()).(isLoading := true, pending := OtpTimer(aadhaarNumber))
    {
      alert := CheckOtp(otp);
      if alert.Some? {
        return;
      }
      isLoading := true;
      pending := OtpTimer(aadhaarNumber);
    }

    /** A press on "Verify OTP", disabled while loading or unless six characters are entered. */
    method PressVerifyOtp()
      requires Valid() && step == Otp
      modifies this
      ensures Valid()
      ensures if Button.IsDisabled(|old(otp)| != 6, old(isLoading))
              then State() == old(State())
              else State() == old(State()).(isLoading := true, pending := OtpTimer(aadhaarNumber))
    {
      if !Button.IsDisabled(|otp| != 6, isLoading) {
        var alert := HandleOtpSubmit();
        assert alert.None?;
      }
    }

    /** `handleUploadDocument`, behind the upload button of the verified step. */
    method HandleUploadDocument()
      requires Valid() && step == Verified && !fromVerificationRequest
      modifies this
      ensures Valid()
      ensures State() == old(State()).(step := Upload, pending := UploadTimer)
    {
      step := Upload;
      pending := UploadTimer;
    }

    /** A press where the upload button would be: it is not rendered in the
        verification-request context. */
    method PressUpload()
      requires Valid() && step == Verified
      modifies this
      ensures Valid()
      ensures if fromVerificationRequest then State() == old(State())
              else State() == old(State()).(step := Upload, pending := UploadTimer)
    {
      if !fromVerificationRequest {
        HandleUploadDocument();
      }
    }

    /** The pending `setTimeout` callback runs. */
    method TimerFires()
      requires Valid()
      modifies this
      ensures Valid()
      ensures Rank(old(step)) <= Rank(step)
      ensures old(pending).NoTimer? ==> State() == old(State())
      ensures old(pending).SubmitTimer? ==>
                State() == old(State()).(isLoading := false, step := Otp, pending := NoTimer)
      ensures old(pending).OtpTimer? ==>
                State() == old(State()).(verifiedData := Some(AadhaarFixture(old(pending).number)),
                                         isLoading := false, step := Verified, pending := NoTimer)
      ensures old(pending).UploadTimer? ==>
                State() == old(State()).(step := Complete, pending := NoTimer,
                                         completions := if hasCallback then 1 else 0)
    {
      match pending
      case NoTimer =>
      case SubmitTimer =>
        isLoading := false;
        step := Otp;
        pending := NoTimer;
      case OtpTimer(number) =>
        verifiedData := Some(AadhaarFixture(number));
        isLoading := false;
        step := Verified;
        pending := NoTimer;
      case UploadTimer =>
        step := Complete;
        if hasCallback {
          completions := completions + 1;
        }
        pending := NoTimer;
    }
  }

  /** The documented scenario: entering 123456789012, then the OTP 123456,
      and letting both timers run ends at `verified` with the number grouped. */
  method Scenario() returns (record: AadhaarRecord)
    ensures record.aadhaarNumber == "1234 5678 9012"
  {
    var screen := new AadhaarScreen(None, true);
    screen.EditAadhaarNumber("123456789012");
    screen.PressSendOtp();
    screen.TimerFires();
    screen.EditOtp("123456");
    screen.PressVerifyOtp();
    screen.TimerFires();
    record := screen.verifiedData.value;
    FormatExample();
  }

  /** The example number of the flow is displayed as "1234 5678 9012". */
  lemma FormatExample()
    ensures FormatAadhaar("123456789012") == "1234 5678 9012"
  {
    var s := "123456789012";
    assert forall k :: 0 <= k < 12 ==> IsDigit(s[k]);
    FormatTwelveDigits(s);
    assert s[..4] == "1234" && s[4..8] == "5678" && s[8..] == "9012";
  }
}

=== FILE: accordion.dfy ===
/** The kit's `Accordion`: which items are open ('single': one item value,
    'multiple': a list of item values), how a trigger press changes that, and
    the controlled-versus-internal value of the root. */
module Accordion {
  import opened Common

  /** The accordion value: a string in single mode, a list in multiple mode. */
  datatype AccValue = One(s: string) | Many(items: seq<string>)

  /** The context a trigger or content reads: `type === 'multiple'`, the
      `value` key (`None` when absent) and whether `onValueChange` is present. */
  datatype Context = Context(multiple: bool, value: Option<AccValue>, hasHandler: bool)

  /** A value of the right kind for the mode, as the source assumes. */
  predicate WellFormed(ctx: Context)
  {
    ctx.multiple ==> ctx.value.Some? && ctx.value.value.Many?
  }

  /** `isOpen` of trigger and content for any item value, `undefined`
      included: list membership, or `value === itemValue`, where an absent
      `value` equals only an absent item value and a list equals nothing. */
  predicate IsOpenAt(ctx: Context, itemValue: JsValue)
    requires WellFormed(ctx)
  {
    if ctx.multiple then itemValue.Str? && itemValue.s in ctx.value.value.items
    else match ctx.value
      case None => itemValue == Undefined
      case Some(One(s)) => itemValue == Str(s)
      case Some(Many(_)) => false
  }

  /** `isOpen` of an item that has a string value. */
  predicate IsOpen(ctx: Context, itemValue: string)
    requires WellFormed(ctx)
  {
    IsOpenAt(ctx, Str(itemValue))
  }

  /** The `newValue` of `handlePress`. `collapsible` is never consulted. */
  function NextValue(ctx: Context, itemValue: string): (v: AccValue)
    requires WellFormed(ctx)
    ensures v.Many? <==> ctx.multiple
  {
    if ctx.multiple then
      var items := ctx.value.value.items;
      if itemValue in items then Many(Without(items, itemValue)) else Many(items + [itemValue])
    else if ctx.value == Some(One(itemValue)) then One("")
    else One(itemValue)
  }

  /** `handlePress`: computes the new value and calls `onValueChange` with it. */
  function Press(ctx: Context, itemValue: string): (r: Call<AccValue>)
    requires WellFormed(ctx)
    ensures r.Throws? <==> !ctx.hasHandler
  {
    if ctx.hasHandler then Calls(NextValue(ctx, itemValue)) else Throws
  }

  /** A press flips the pressed item between open and closed (in single
      mode, for item values other than the empty string, which means "none").
      In multiple mode no other item changes; in single mode every other
      item ends closed. */
  lemma PressToggles(ctx: Context, itemValue: string, other: string)
    requires WellFormed(ctx) && (!ctx.multiple ==> itemValue != "" && other != "")
    requires other != itemValue
    ensures var next := ctx.(value := Some(NextValue(ctx, itemValue)));
      && WellFormed(next)
      && (IsOpen(next, itemValue) <==> !IsOpen(ctx, itemValue))
      && (ctx.multiple ==> (IsOpen(next, other) <==> IsOpen(ctx, other)))
      && (!ctx.multiple ==> !IsOpen(next, other))
  {
    if ctx.multiple {
      var items := ctx.value.value.items;
      WithoutMembers(items, itemValue, itemValue);
      WithoutMembers(items, itemValue, other);
    }
  }

  /** In multiple mode, pressing an item twice restores which items are open. */
  lemma PressTwiceRestoresMembers(items: seq<string>, itemValue: string, other: string)
    ensures var ctx := Context(true, Some(Many(items)), true);
      var once := ctx.(value := Some(NextValue(ctx, itemValue)));
      var twice := NextValue(once, itemValue);
      other in twice.items <==> other in items
  {
    WithoutMembers(items, itemValue, other);
    WithoutMembers(items + [itemValue], itemValue, other);
  }

  /** ... but not their order: closing and reopening an item moves it last. */
  lemma PressTwiceReorders()
    ensures var ctx := Context(true, Some(Many(["a", "b"])), true);
      var once := ctx.(value := Some(NextValue(ctx, "a")));
      NextValue(once, "a") == Many(["b", "a"])
  {
    assert ["a", "b"][1..] == ["b"];
    assert Without(["b"], "a") == ["b"] + Without([], "a");
  }

  /** Single mode: pressing the open item closes everything, whether or not
      the accordion was declared collapsible. */
  lemma SingleOpenItemCloses(value: string)
    ensures NextValue(Context(false, Some(One(value)), true), value) == One("")
  {
  }

  /** The context `AccordionItem` provides as written: it holds only the item
      value, so the trigger and content below it read no `type`, no `value`
      and no `onValueChange`. */
  function ItemContextAsWritten(parent: Context): Context
  {
    Context(false, None, false)
  }

  /** As written, whatever the accordion's state, an item's trigger and
      content are open exactly when the item has no `value` (`undefined ===
      undefined`), and every trigger press throws, where the same press
      reading the accordion's own context would reach its handler. */
  lemma ItemContextShadowsParent(parent: Context, itemValue: JsValue)
    requires WellFormed(parent) && parent.hasHandler
    ensures IsOpenAt(ItemContextAsWritten(parent), itemValue) <==> itemValue == Undefined
    ensures forall s :: Press(ItemContextAsWritten(parent), s).Throws?
    ensures forall s :: Press(parent, s).Calls?
  {
  }

  /** The `Accordion` root: the internal value, the `value` prop and whether
      `onValueChange` was given. Its trigger press is the CORRECTED one: it
      reads the root's context with the item value added. As written, a
      trigger inside an `AccordionItem` reads only `{ itemValue }` and throws
      (`ItemContextShadowsParent`). */
  class AccordionRoot {
    var internalValue: AccValue
    const multiple: bool
    const controlled: Option<AccValue>
    const hasOnValueChange: bool

    ghost predicate Valid()
      reads this
    {
      multiple ==> internalValue.Many? && (controlled.Some? ==> controlled.value.Many?)
    }

    /** `useState(type === 'multiple' ? [] : '')`. */
    constructor (kind: string, value: Option<AccValue>, hasOnValueChange: bool)
      requires kind == "multiple" && value.Some? ==> value.value.Many?
      ensures Valid()
      ensures multiple == (kind == "multiple")
      ensures internalValue == if multiple then Many([]) else One("")
      ensures controlled == value && this.hasOnValueChange == hasOnValueChange
    {
      multiple := kind == "multiple";
      internalValue := if kind == "multiple" then Many([]) else One("");
      controlled := value;
      this.hasOnValueChange := hasOnValueChange;
    }

    /** `currentValue`: the `value` prop whenever it is defined. */
    function CurrentValue(): AccValue
      reads this
    {
      if controlled.Some? then controlled.value else internalValue
    }

    /** The context the root provides; its change handler always exists. */
    function RootContext(): (ctx: Context)
      reads this
      ensures Valid() ==> WellFormed(ctx)
    {
      Context(multiple, Some(CurrentValue()), true)
    }

    /** `handleValueChange`: delegates to `onValueChange` when given (and
        then never touches the internal value), else stores the value. */
    method HandleValueChange(newValue: AccValue) returns (emitted: Option<AccValue>)
      requires Valid() && (multiple ==> newValue.Many?)
      modifies this
      ensures Valid()
      ensures hasOnValueChange ==> emitted == Some(newValue) && internalValue == old(internalValue)
      ensures !hasOnValueChange ==> emitted.None? && internalValue == newValue
    {
      if hasOnValueChange {
        emitted := Some(newValue);
      } else {
        emitted := None;
        internalValue := newValue;
      }
    }

    /** A press on the trigger of item `itemValue`, reading the root's state. */
    method PressTrigger(itemValue: string) returns (emitted: Option<AccValue>)
      requires Valid()
      modifies this
      ensures Valid()
      ensures var next := NextValue(old(RootContext()), itemValue);
        if hasOnValueChange then emitted == Some(next) && internalValue == old(internalValue)
        else emitted.None? && internalValue == next
    {
      var newValue := NextValue(RootContext(), itemValue);
      emitted := HandleValueChange(newValue);
    }
  }

  /** An uncontrolled multiple accordion opens an item on the first press
      and closes it on the second. */
  method OpenThenClose() returns (openAfterFirst: bool, openAfterSecond: bool)
    ensures openAfterFirst && !openAfterSecond
  {
    var root := new AccordionRoot("multiple", None, false);
    var _ := root.PressTrigger("faq-1");
    openAfterFirst := "faq-1" in root.internalValue.items;
    var _ := root.PressTrigger("faq-1");
    openAfterSecond := "faq-1" in root.internalValue.items;
  }
}

=== FILE: button.dfy ===
/** The kit's `Button`: the disabled/loading rule, the loading spinner, and
    the switches that map `variant` and `size` to style-sheet keys, with the
    colours those keys carry so that the flattened style can be computed. */
module Button {
  import opened Common

  /** `disabled || loading`: a loading button cannot be pressed. */
  predicate IsDisabled(disabled: bool, loading: bool)
    ensures loading ==> IsDisabled(disabled, loading)
  {
    disabled || loading
  }

  /** Container style keys of the style sheet. */
  datatype StyleKey =
    | ButtonDefault | ButtonDestructive | ButtonOutline | ButtonSecondary
    | ButtonGhost | ButtonLink | ButtonSm | ButtonLg | ButtonIcon

  /** Text style keys of the style sheet. */
  datatype TextStyleKey =
    | TextDefault | TextDestructive | TextOutline | TextSecondary
    | TextGhost | TextLink | TextSm | TextLg

  /** `getVariantStyle`. */
  function VariantStyle(variant: string): (k: StyleKey)
    ensures k != ButtonSm && k != ButtonLg && k != ButtonIcon
    ensures variant !in {"destructive", "outline", "secondary", "ghost", "link"} <==> k == ButtonDefault
  {
    if variant == "destructive" then ButtonDestructive
    else if variant == "outline" then ButtonOutline
    else if variant == "secondary" then ButtonSecondary
    else if variant == "ghost" then ButtonGhost
    else if variant == "link" then ButtonLink
    else ButtonDefault
  }

  /** `getSizeStyle` as written: the default case returns `buttonDefault`,
      the key of the default VARIANT. */
  function SizeStyleAsWritten(size: string): (k: StyleKey)
    ensures k in {ButtonSm, ButtonLg, ButtonIcon, ButtonDefault}
    ensures size !in {"sm", "lg", "icon"} <==> k == ButtonDefault
  {
    if size == "sm" then ButtonSm
    else if size == "lg" then ButtonLg
    else if size == "icon" then ButtonIcon
    else ButtonDefault
  }

  /** `getTextVariantStyle`. */
  function TextVariantStyle(variant: string): TextStyleKey
  {
    if variant == "destructive" then TextDestructive
    else if variant == "outline" then TextOutline
    else if variant == "secondary" then TextSecondary
    else if variant == "ghost" then TextGhost
    else if variant == "link" then TextLink
    else TextDefault
  }

  /** `getTextSizeStyle` as written: the default case (and `icon`) returns
      `buttonTextDefault`, the key of the default variant's text colour. */
  function TextSizeStyleAsWritten(size: string): TextStyleKey
  {
    if size == "sm" then TextSm
    else if size == "lg" then TextLg
    else TextDefault
  }

  /** The `backgroundColor` a container key sets, if any. */
  function Background(k: StyleKey): Option<string>
  {
    match k
    case ButtonDefault => Some("#111827")
    case ButtonDestructive => Some("#DC2626")
    case ButtonOutline => Some("transparent")
    case ButtonSecondary => Some("#F3F4F6")
    case ButtonGhost => Some("transparent")
    case ButtonLink => Some("transparent")
    case _ => None
  }

  /** The `color` a text key sets, if any. */
  function TextColor(k: TextStyleKey): Option<string>
  {
    match k
    case TextDefault => Some("#ffffff")
    case TextDestructive => Some("#ffffff")
    case TextOutline => Some("#374151")
    case TextSecondary => Some("#374151")
    case TextGhost => Some("#374151")
    case TextLink => Some("#4F7CFF")
    case _ => None
  }

  /** Flattening `[styles.button, variantStyle, sizeStyle, ...]`: a later
      entry's `backgroundColor` wins, and `styles.button` sets none. */
  function LastSet(earlier: Option<string>, later: Option<string>): Option<string>
  {
    if later.Some? then later else earlier
  }

  /** The background colour the button renders with, as written. */
  function ResolvedBackgroundAsWritten(variant: string, size: string): Option<string>
  {
    LastSet(Background(VariantStyle(variant)), Background(SizeStyleAsWritten(size)))
  }

  /** The label colour the button renders with, as written. */
  function ResolvedTextColorAsWritten(variant: string, size: string): Option<string>
  {
    LastSet(TextColor(TextVariantStyle(variant)), TextColor(TextSizeStyleAsWritten(size)))
  }

  /** With the default size every variant renders with the default variant's
      dark background and white label: an `outline` button (the kind the
      credential screens use for "View Document") is not transparent. */
  lemma DefaultSizeOverridesVariant(variant: string)
    ensures ResolvedBackgroundAsWritten(variant, "default") == Some("#111827")
    ensures ResolvedTextColorAsWritten(variant, "default") == Some("#ffffff")
    ensures ResolvedBackgroundAsWritten("outline", "default") != Background(ButtonOutline)
    ensures ResolvedTextColorAsWritten("outline", "default") != TextColor(TextOutline)
  {
  }

  /** Size keys as evidently intended: the default size adds no style of its
      own (`None`), and no size key carries a colour. */
  function SizeStyle(size: string): (k: Option<StyleKey>)
    ensures k.Some? ==> Background(k.value).None?
  {
    if size == "sm" then Some(ButtonSm)
    else if size == "lg" then Some(ButtonLg)
    else if size == "icon" then Some(ButtonIcon)
    else None
  }

  function TextSizeStyle(size: string): (k: Option<TextStyleKey>)
    ensures k.Some? ==> TextColor(k.value).None?
  {
    if size == "sm" then Some(TextSm)
    else if size == "lg" then Some(TextLg)
    else None
  }

  function ResolvedBackground(variant: string, size: string): Option<string>
  {
    var s := SizeStyle(size);
    LastSet(Background(VariantStyle(variant)), if s.Some? then Background(s.value) else None)
  }

  function ResolvedTextColor(variant: string, size: string): Option<string>
  {
    var s := TextSizeStyle(size);
    LastSet(TextColor(TextVariantStyle(variant)), if s.Some? then TextColor(s.value) else None)
  }

  /** With the corrected size keys the colours are the variant's, whatever the size. */
  lemma VariantDecidesColours(variant: string, size: string)
    ensures ResolvedBackground(variant, size) == Background(VariantStyle(variant))
    ensures ResolvedTextColor(variant, size) == TextColor(TextVariantStyle(variant))
    ensures ResolvedBackground(variant, size).Some? && ResolvedTextColor(variant, size).Some?
  {
    match VariantStyle(variant)
    case _ =>
  }

  /** An unknown variant gets the default container and text keys; an unknown
      size gets the default text size, as does `icon`, whose box key is its own. */
  lemma UnknownKeysFallBack(variant: string, size: string)
    requires variant !in {"destructive", "outline", "secondary", "ghost", "link"}
    requires size !in {"sm", "lg", "icon"}
    ensures VariantStyle(variant) == ButtonDefault && TextVariantStyle(variant) == TextDefault
    ensures SizeStyleAsWritten(size) == ButtonDefault == VariantStyle("default")
    ensures TextSizeStyleAsWritten(size) == TextDefault == TextSizeStyleAsWritten("icon")
    ensures SizeStyleAsWritten("icon") == ButtonIcon
  {
  }

  /** What the button shows: a spinner while loading, otherwise its label. */
  datatype Content = Spinner(color: string) | Label

  /** The rendered button: whether presses reach `onPress`, and its content. */
  datatype View = View(pressable: bool, content: Content)

  function Render(variant: string, disabled: bool, loading: bool): (v: View)
    ensures v.pressable <==> !IsDisabled(disabled, loading)
    ensures v.content.Spinner? <==> loading
  {
    View(!IsDisabled(disabled, loading),
         if loading
         then Spinner(if variant == "outline" || variant == "ghost" then "#374151" else "#ffffff")
         else Label)
  }

  /** A loading button never takes presses and shows a spinner instead of its
      label. The spinner is dark exactly for the outline and ghost variants
      and white for every other one, unknown variants included; the link
      variant, although its background is transparent too, gets white. */
  lemma LoadingShowsSpinner(variant: string, disabled: bool, loading: bool)
    ensures Render(variant, disabled, loading).pressable <==> !disabled && !loading
    ensures Render(variant, disabled, loading).content.Spinner? <==> loading
    ensures loading && (variant == "outline" || variant == "ghost") ==>
              Render(variant, disabled, loading).content == Spinner("#374151")
    ensures loading && variant != "outline" && variant != "ghost" ==>
              Render(variant, disabled, loading).content == Spinner("#ffffff")
    ensures loading && variant == "link" ==>
              Background(VariantStyle(variant)) == Some("transparent") &&
              Render(variant, disabled, loading).content == Spinner("#ffffff")
  {
  }
}

=== FILE: calendar.dfy ===
/** The kit's `Calendar`: the month grid (blank cells before the first day,
    then one cell per day), and the selected, disabled and select rules of a
    cell. The weekday of the 1st and the month length come from JavaScript's
    `Date` and are inputs here. */
module Calendar {
  import opened Common

  /** A calendar day; `toDateString` equality is equality of these. */
  datatype Date = Date(year: int, month: int, day: int)

  /** The `disabled` prop: a predicate over dates, or any other value
      (absent, `true`, ...), which disables nothing. */
  datatype DisabledProp = NotAFunction | Predicate(f: Date -> bool)

  /** `getDaysInMonth`: `startingDayOfWeek` blank cells, then the days
      `1 .. daysInMonth` of the month in order. */
  method GetDaysInMonth(year: int, month: int, startingDayOfWeek: nat, daysInMonth: nat)
    returns (days: seq<Option<Date>>)
    ensures |days| == startingDayOfWeek + daysInMonth
    ensures forall i :: 0 <= i < startingDayOfWeek ==> days[i].None?
    ensures forall k :: 1 <= k <= daysInMonth ==> days[startingDayOfWeek + k - 1] == Some(Date(year, month, k))
  {
    days := [];
    var i := 0;
    while i < startingDayOfWeek
      invariant 0 <= i <= startingDayOfWeek && |days| == i
      invariant forall j :: 0 <= j < i ==> days[j].None?
    {
      days := days + [None];
      i := i + 1;
    }
    var day := 1;
    while day <= daysInMonth
      invariant 1 <= day <= daysInMonth + 1
      invariant |days| == startingDayOfWeek + day - 1
      invariant forall j :: 0 <= j < startingDayOfWeek ==> days[j].None?
      invariant forall k :: 1 <= k < day ==> days[startingDayOfWeek + k - 1] == Some(Date(year, month, k))
    {
      days := days + [Some(Date(year, month, day))];
      day := day + 1;
    }
  }

  /** `isSelected`: only in 'single' mode, only for a day cell, and only when
      a date is selected on the same day. */
  predicate IsSelected(mode: string, selected: Option<Date>, cell: Option<Date>)
    ensures IsSelected(mode, selected, cell) ==> cell.Some? && cell == selected
    ensures mode != "single" ==> !IsSelected(mode, selected, cell)
  {
    selected.Some? && cell.Some? && mode == "single" && selected.value == cell.value
  }

  /** `isDisabled`: a blank cell is disabled; a function prop decides for a day. */
  predicate IsDisabled(disabled: DisabledProp, cell: Option<Date>)
    ensures disabled.NotAFunction? ==> (IsDisabled(disabled, cell) <==> cell.None?)
  {
    cell.None? || (disabled.Predicate? && disabled.f(cell.value))
  }

  /** `handleDateSelect`: the date passed to `onSelect`, if any. */
  function HandleDateSelect(disabled: DisabledProp, hasOnSelect: bool, cell: Option<Date>): (r: Option<Date>)
    ensures r.Some? <==> cell.Some? && !IsDisabled(disabled, cell) && hasOnSelect
    ensures r.Some? ==> r == cell
  {
    if cell.None? || IsDisabled(disabled, cell) then None
    else if hasOnSelect then cell
    else None
  }

  /** Blank cells are disabled and never selected; a prop that is not a
      function (even `true`) disables no day; a function decides per day;
      any mode but 'single' selects nothing. */
  lemma CellRules(mode: string, selected: Option<Date>, disabled: DisabledProp, d: Date)
    ensures IsDisabled(disabled, None) && !IsSelected(mode, selected, None)
    ensures disabled.NotAFunction? ==> !IsDisabled(disabled, Some(d))
    ensures disabled.Predicate? ==> (IsDisabled(disabled, Some(d)) <==> disabled.f(d))
    ensures mode != "single" ==> !IsSelected(mode, selected, Some(d))
    ensures IsSelected("single", selected, Some(d)) <==> selected == Some(d)
  {
  }

  /** In a month grid, pressing a leading blank cell never calls `onSelect`,
      and pressing day `k` calls it with that day unless the prop disables it. */
  method PressCell(year: int, month: int, startingDayOfWeek: nat, daysInMonth: nat,
                   disabled: DisabledProp, hasOnSelect: bool, index: nat)
    returns (selectedDay: Option<Date>)
    requires index < startingDayOfWeek + daysInMonth
    ensures index < startingDayOfWeek ==> selectedDay.None?
    ensures index >= startingDayOfWeek ==>
              var d := Date(year, month, index - startingDayOfWeek + 1);
              selectedDay == (if hasOnSelect && !(disabled.Predicate? && disabled.f(d)) then Some(d) else None)
  {
    var days := GetDaysInMonth(year, month, startingDayOfWeek, daysInMonth);
    if index >= startingDayOfWeek {
      assert days[startingDayOfWeek + (index - startingDayOfWeek + 1) - 1] ==
             Some(Date(year, month, index - startingDayOfWeek + 1));
    }
    selectedDay := HandleDateSelect(disabled, hasOnSelect, days[index]);
  }
}

=== FILE: carousel.dfy ===
/** The kit's `Carousel`: the index of the slide in view, the wrap-around
    targets of the arrow buttons, and the dots indicator. Scrolling itself is
    the scroll view's; the model records the indices scrolled to. */
module Carousel {

  /** `goToPrevious`'s target: one back, or the last slide from the first. */
  function PrevIndex(currentIndex: int, count: nat): (i: int)
    ensures 0 <= currentIndex < count ==> 0 <= i < count
  {
    if currentIndex > 0 then currentIndex - 1 else count - 1
  }

  /** `goToNext`'s target: one on, or the first slide from the last. */
  function NextIndex(currentIndex: int, count: nat): (i: int)
    ensures 0 <= currentIndex < count ==> 0 <= i < count
  {
    if currentIndex < count - 1 then currentIndex + 1 else 0
  }

  /** On a slide in range, both targets are slides in range and undo each other. */
  lemma ArrowsWrapAround(currentIndex: int, count: nat)
    requires 0 <= currentIndex < count
    ensures 0 <= PrevIndex(currentIndex, count) < count
    ensures 0 <= NextIndex(currentIndex, count) < count
    ensures PrevIndex(NextIndex(currentIndex, count), count) == currentIndex
    ensures NextIndex(PrevIndex(currentIndex, count), count) == currentIndex
    ensures currentIndex == count - 1 <==> NextIndex(currentIndex, count) == 0
  {
  }

  /** With no slides, from the initial index the previous arrow targets the
      index -1 and the next arrow the index 0: neither is a slide. */
  lemma EmptyCarouselTargets()
    ensures PrevIndex(0, 0) == -1
    ensures NextIndex(0, 0) == 0
    ensures NextIndex(-1, 0) == 0 && PrevIndex(-1, 0) == -1
  {
  }

  /** The dots indicator: dot `i` is active when `i === currentIndex`. */
  function Dots(currentIndex: int, count: nat): (dots: seq<bool>)
    ensures |dots| == count
  {
    seq(count, i => i == currentIndex)
  }

  /** Exactly one dot is active when the index is in range, none otherwise. */
  lemma OneActiveDot(currentIndex: int, count: nat)
    ensures forall i :: 0 <= i < count && Dots(currentIndex, count)[i] ==> i == currentIndex
    ensures 0 <= currentIndex < count ==> Dots(currentIndex, count)[currentIndex]
    ensures !(0 <= currentIndex < count) ==> true !in Dots(currentIndex, count)
  {
  }

  class CarouselView {
    var currentIndex: int
    /** The indices handed to `scrollTo`, oldest first. */
    var scrolledTo: seq<int>
    /** `React.Children.count(children)`. */
    const count: nat

    /** `useState(0)`. */
    constructor (count: nat)
      ensures currentIndex == 0 && scrolledTo == [] && this.count == count
    {
      currentIndex := 0;
      scrolledTo := [];
      this.count := count;
    }

    /** `handleScroll`: the slide index the scroll position rounds to becomes current. */
    method ScrollSettled(index: int)
      modifies this
      ensures currentIndex == index && scrolledTo == old(scrolledTo)
    {
      currentIndex := index;
    }

    /** `goToPrevious`: asks for a scroll; the index changes only when the scroll settles. */
    method GoToPrevious()
      modifies this
      ensures scrolledTo == old(scrolledTo) + [PrevIndex(currentIndex, count)]
      ensures currentIndex == old(currentIndex)
    {
      var newIndex := if currentIndex > 0 then currentIndex - 1 else count - 1;
      scrolledTo := scrolledTo + [newIndex];
    }

    /** `goToNext`. */
    method GoToNext()
      modifies this
      ensures scrolledTo == old(scrolledTo) + [NextIndex(currentIndex, count)]
      ensures currentIndex == old(currentIndex)
    {
      var newIndex := if currentIndex < count - 1 then currentIndex + 1 else 0;
      scrolledTo := scrolledTo + [newIndex];
    }

    /** A press on dot `index`. */
    method PressDot(index: nat)
      requires index < count
      modifies this
      ensures scrolledTo == old(scrolledTo) + [index] && currentIndex == old(currentIndex)
    {
      scrolledTo := scrolledTo + [index];
    }
  }
}

=== FILE: command.dfy ===
/** The kit's `Command` palette: the search term and selected value of the
    root, the case-insensitive filter each item applies, and item selection. */
module Command {
  import opened Common

  /** An item's `children`: a plain string, or anything else. */
  datatype Children = Label(s: string) | Element

  /** `value.toLowerCase().includes(term.toLowerCase())`. */
  predicate MatchesIgnoringCase(text: string, term: string)
  {
    Contains(ToLower(text), ToLower(term))
  }

  /** `shouldShow`: no search term, or a string label that matches, or a
      truthy `value` that matches. */
  predicate ShouldShow(searchTerm: string, children: Children, value: Option<string>)
    ensures searchTerm == "" ==> ShouldShow(searchTerm, children, value)
    ensures children.Element? && (value.None? || value == Some("")) ==>
              (ShouldShow(searchTerm, children, value) <==> searchTerm == "")
  {
    || searchTerm == ""
    || (children.Label? && MatchesIgnoringCase(children.s, searchTerm))
    || (value.Some? && value.value != "" && MatchesIgnoringCase(value.value, searchTerm))
  }

  /** Lower-casing keeps an occurrence where it is. */
  lemma LowerKeepsOccurrence(hay: string, needle: string, i: int)
    requires OccursAt(hay, needle, i)
    ensures OccursAt(ToLower(hay), ToLower(needle), i)
  {
    var h, n := ToLower(hay), ToLower(needle);
    forall k | 0 <= k < |n| ensures h[i + k] == n[k] {
      assert hay[i + k] == hay[i..i + |needle|][k];
    }
    assert h[i..i + |n|] == n;
  }

  /** An empty term shows every item; an item whose label or value contains
      the term verbatim is shown; a non-string label shows only through the
      value. */
  lemma FilterRules(searchTerm: string, children: Children, value: Option<string>, i: int)
    ensures searchTerm == "" ==> ShouldShow(searchTerm, children, value)
    ensures children.Label? && OccursAt(children.s, searchTerm, i) ==> ShouldShow(searchTerm, children, value)
    ensures value.Some? && value.value != "" && OccursAt(value.value, searchTerm, i) ==>
              ShouldShow(searchTerm, children, value)
    ensures children.Element? && (value.None? || value.value == "") ==>
              (ShouldShow(searchTerm, children, value) <==> searchTerm == "")
  {
    if children.Label? && OccursAt(children.s, searchTerm, i) {
      LowerKeepsOccurrence(children.s, searchTerm, i);
    }
    if value.Some? && OccursAt(value.value, searchTerm, i) {
      LowerKeepsOccurrence(value.value, searchTerm, i);
    }
  }

  /** Filtering ignores case: upper-casing the term, the label or the value
      shows and hides the same items. */
  lemma FilterIgnoresCase(searchTerm: string, text: string, value: string)
    ensures ShouldShow(ToUpper(searchTerm), Label(ToUpper(text)), Some(ToUpper(value))) ==
            ShouldShow(searchTerm, Label(text), Some(value))
  {
    LowerOfUpper(searchTerm);
    LowerOfUpper(text);
    LowerOfUpper(value);
    ToUpperIdempotent(searchTerm);
    ToUpperIdempotent(value);
  }

  /** A callback the palette calls. */
  datatype Callback = OnSelect(selected: Option<string>) | OnValueChange(changed: Option<string>)

  /** `handleSelect` of an item: nothing when disabled; otherwise `onSelect`
      (when given) and then the root's change handler, both with the item's value. */
  function HandleSelect(disabled: bool, hasOnSelect: bool, value: Option<string>): (calls: seq<Callback>)
    ensures disabled <==> calls == []
    ensures !disabled ==> calls[|calls| - 1] == OnValueChange(value)
    ensures OnSelect(value) in calls <==> !disabled && hasOnSelect
    ensures |calls| <= 2
  {
    if disabled then []
    else (if hasOnSelect then [OnSelect(value)] else []) + [OnValueChange(value)]
  }

  /** The `Command` root. */
  class CommandRoot {
    var internalValue: Option<string>
    var searchTerm: string
    const controlled: Option<string>
    const hasOnValueChange: bool

    /** `useState('')` for both the value and the search term. */
    constructor (value: Option<string>, hasOnValueChange: bool)
      ensures internalValue == Some("") && searchTerm == ""
      ensures controlled == value && this.hasOnValueChange == hasOnValueChange
    {
      internalValue := Some("");
      searchTerm := "";
      controlled := value;
      this.hasOnValueChange := hasOnValueChange;
    }

    /** `currentValue`: the `value` prop whenever it is defined. */
    function CurrentValue(): Option<string>
      reads this
    {
      if controlled.Some? then controlled else internalValue
    }

    /** `onChangeText` of `CommandInput`. */
    method SetSearchTerm(text: string)
      modifies this
      ensures searchTerm == text && internalValue == old(internalValue)
    {
      searchTerm := text;
    }

    /** A press on an item: the calls it makes, of which the change reaches
        `onValueChange` when given, or else the internal value. */
    method SelectItem(disabled: bool, hasOnSelect: bool, value: Option<string>)
      returns (calls: seq<Callback>, delegated: Option<Option<string>>)
      modifies this
      ensures calls == HandleSelect(disabled, hasOnSelect, value)
      ensures searchTerm == old(searchTerm)
      ensures disabled ==> delegated.None? && internalValue == old(internalValue)
      ensures !disabled && hasOnValueChange ==> delegated == Some(value) && internalValue == old(internalValue)
      ensures !disabled && !hasOnValueChange ==> delegated.None? && internalValue == value
      ensures !disabled && !hasOnValueChange && controlled.None? ==> CurrentValue() == value
    {
      calls := HandleSelect(disabled, hasOnSelect, value);
      delegated := None;
      if !disabled {
        if hasOnValueChange {
          delegated := Some(value);
        } else {
          internalValue := value;
        }
      }
    }
  }
}

=== FILE: common.dfy ===
/** Shared vocabulary of the model: optional values (JavaScript `undefined`),
    the ASCII case maps that stand for `toUpperCase`/`toLowerCase`, the
    substring test behind `String.prototype.includes`, and `Array.prototype.filter`
    with a `!==` predicate. */
module Common {

  /** `None` is JavaScript's `undefined` (an absent prop or key). */
  datatype Option<T> = None | Some(value: T)

  /** What a press handler ends in: it hands `value` to a callback, or it
      calls a context key that is absent and throws a `TypeError`. */
  datatype Call<T> = Calls(value: T) | Throws

  /** A prop or state slot that may hold `undefined`, `null` or a string;
      `===` on these is datatype equality. */
  datatype JsValue = Undefined | Null | Str(s: string)

  function UpperChar(c: char): char
  {
    if 'a' <= c <= 'z' then (c as int - 32) as char else c
  }

  function LowerChar(c: char): char
  {
    if 'A' <= c <= 'Z' then (c as int + 32) as char else c
  }

  /** `toUpperCase`, restricted to ASCII letters. */
  function ToUpper(s: string): string
  {
    seq(|s|, i requires 0 <= i < |s| => UpperChar(s[i]))
  }

  /** `toLowerCase`, restricted to ASCII letters. */
  function ToLower(s: string): string
  {
    seq(|s|, i requires 0 <= i < |s| => LowerChar(s[i]))
  }

  /** No lower-case ASCII letter occurs in `s`. */
  predicate IsUpperCase(s: string)
  {
    forall i :: 0 <= i < |s| ==> !('a' <= s[i] <= 'z')
  }

  /** Upper-casing yields an upper-case string of the same length, and is
      therefore the identity on a second application. */
  lemma ToUpperIdempotent(s: string)
    ensures |ToUpper(s)| == |s| && IsUpperCase(ToUpper(s))
    ensures ToUpper(ToUpper(s)) == ToUpper(s)
  {
    var u := ToUpper(s);
    forall i | 0 <= i < |u| ensures UpperChar(u[i]) == u[i] {
    }
  }

  /** A string that is already upper case is its own upper-casing. */
  lemma ToUpperOfUpperCase(s: string)
    ensures IsUpperCase(s) ==> ToUpper(s) == s
  {
    if IsUpperCase(s) {
      forall i | 0 <= i < |s| ensures ToUpper(s)[i] == s[i] {
      }
    }
  }

  /** Lower-casing forgets any earlier upper-casing: the basis of every
      case-insensitive comparison in the model. */
  lemma LowerOfUpper(s: string)
    ensures ToLower(ToUpper(s)) == ToLower(s)
  {
    forall i | 0 <= i < |s| ensures ToLower(ToUpper(s))[i] == ToLower(s)[i] {
      var c := s[i];
      if 'a' <= c <= 'z' {
        assert UpperChar(c) == (c as int - 32) as char;
      }
    }
  }

  /** `needle` occurs in `hay` starting at position `i`. */
  predicate OccursAt(hay: string, needle: string, i: int)
  {
    0 <= i && i + |needle| <= |hay| && hay[i..i + |needle|] == needle
  }

  /** `hay.includes(needle)`. */
  predicate Contains(hay: string, needle: string)
  {
    exists i :: 0 <= i <= |hay| - |needle| && OccursAt(hay, needle, i)
  }

  /** `s.filter(v => v !== x)`: the elements different from `x`, in order. */
  function Without<T(==)>(s: seq<T>, x: T): (r: seq<T>)
    ensures |r| <= |s|
    ensures x !in r
  {
    if s == [] then []
    else if s[0] == x then Without(s[1..], x)
    else [s[0]] + Without(s[1..], x)
  }

  /** Filtering keeps exactly the elements other than `x`. */
  lemma {:induction false} WithoutMembers<T>(s: seq<T>, x: T, y: T)
    ensures y in Without(s, x) <==> y in s && y != x
  {
    if s != [] {
      WithoutMembers(s[1..], x, y);
      assert s == [s[0]] + s[1..];
    }
  }

  /** Filtering out a value that does not occur changes nothing. */
  lemma {:induction false} WithoutAbsent<T>(s: seq<T>, x: T)
    requires x !in s
    ensures Without(s, x) == s
  {
    if s != [] {
      WithoutAbsent(s[1..], x);
    }
  }

  /** Filtering distributes over concatenation, so the survivors keep their order. */
  lemma {:induction false} WithoutAppend<T>(a: seq<T>, b: seq<T>, x: T)
    ensures Without(a + b, x) == Without(a, x) + Without(b, x)
  {
    if a == [] {
      assert a + b == b;
    } else {
      assert (a + b)[1..] == a[1..] + b;
      WithoutAppend(a[1..], b, x);
    }
  }
}

=== FILE: dl.dfy ===
/** The driving-licence verification screen: licence number and date of
    birth -> verified record -> upload -> complete, with no OTP step. */
module Dl {
  import opened Common
  import opened Workflow
  import Button

  /** The fixture record. */
  datatype DlRecord = DlRecord(
    name: string, dlNumber: string, dateOfBirth: string, issueDate: string,
    validUpto: string, vehicleClass: string, rto: string, address: string, status: string)

  /** The record the verify timer stores: constants, plus the captured number
      upper-cased and the captured date of birth. A number typed into the
      field is already upper case, so the record shows it exactly as entered. */
  function DlFixture(number: string, dateOfBirth: string): (r: DlRecord)
    ensures IsUpperCase(r.dlNumber) && |r.dlNumber| == |number|
    ensures IsUpperCase(number) ==> r.dlNumber == number
    ensures r.dateOfBirth == dateOfBirth
  {
    ToUpperIdempotent(number);
    ToUpperOfUpperCase(number);
    DlRecord("John Doe", ToUpper(number), dateOfBirth, "15/01/2020", "14/01/2040",
             "LMV, MCWG", "MH-01 (Mumbai Central)",
             "123 Main Street, Mumbai, Maharashtra - 400001", "Active")
  }

  /** The checks at the top of `handleDlSubmit`, the number first; the date
      of birth only has to be non-empty. The handler accepts exactly what the
      button's `disabled` rule lets through. */
  function CheckDl(number: string, dateOfBirth: string): (alert: Option<Alert>)
    ensures alert.None? <==> |number| >= 10 && dateOfBirth != ""
    ensures |number| < 10 ==> alert == Some(Alert("Error", "Please enter a valid driving license number"))
    ensures |number| >= 10 && dateOfBirth == "" ==>
              alert == Some(Alert("Error", "Please enter your date of birth"))
  {
    if |number| < 10 then Some(Alert("Error", "Please enter a valid driving license number"))
    else if dateOfBirth == "" then Some(Alert("Error", "Please enter your date of birth"))
    else None
  }

  /** A pending `setTimeout` callback, with what its closure captured. */
  datatype Timer = NoTimer | SubmitTimer(number: string, dateOfBirth: string) | UploadTimer

  /** All state fields of the screen at once. */
  datatype Snapshot = Snapshot(
    step: Step, dlNumber: string, dateOfBirth: string, isLoading: bool,
    verifiedData: Option<DlRecord>, pending: Timer, completions: nat)

  /** Input that passed the handler's checks, as the field holds it. */
  predicate Accepted(number: string, dateOfBirth: string)
  {
    CheckDl(number, dateOfBirth).None? && IsUpperCase(number)
  }

  class DlScreen {
    var step: Step
    var dlNumber: string
    var dateOfBirth: string
    var isLoading: bool
    var verifiedData: Option<DlRecord>
    /** The callback scheduled and not yet run. */
    var pending: Timer
    /** How many times `onValidationComplete` has been called. */
    var completions: nat
    const fromVerificationRequest: bool
    const hasCallback: bool

    ghost function State(): Snapshot
      reads this
    {
      Snapshot(step, dlNumber, dateOfBirth, isLoading, verifiedData, pending, completions)
    }

    /** The invariant of every reachable state: the flow never visits `otp`;
        the field holds an upper-case number; the spinner runs exactly while
        the verify timer is pending; a record is present iff the step is past
        input, and it shows a number and date that passed the checks; in the
        verification-request context the flow stops at `verified`; the
        callback ran once if and only if the flow is complete. */
    ghost predicate Valid()
      reads this
    {
      && step != Otp
      && IsUpperCase(dlNumber)
      && (isLoading <==> pending.SubmitTimer?)
      && (pending.SubmitTimer? ==> step == Input && Accepted(pending.number, pending.dateOfBirth))
      && (pending.UploadTimer? <==> step == Upload)
      && (verifiedData.Some? <==> PastOtp(step))
      && (verifiedData.Some? ==>
            var r := verifiedData.value;
            Accepted(r.dlNumber, r.dateOfBirth) &&
            r == DlFixture(r.dlNumber, r.dateOfBirth))
      && (fromVerificationRequest ==> step != Upload && step != Complete)
      && completions == (if step == Complete && hasCallback then 1 else 0)
    }

    constructor (context: Option<ScreenContext>, onValidationComplete: bool)
      ensures Valid()
      ensures State() == Snapshot(Input, "", "", false, None, NoTimer, 0)
      ensures fromVerificationRequest == IsFromVerificationRequest(context)
      ensures hasCallback == onValidationComplete
    {
      step, dlNumber, dateOfBirth, isLoading := Input, "", "", false;
      verifiedData, pending, completions := None, NoTimer, 0;
      fromVerificationRequest := IsFromVerificationRequest(context);
      hasCallback := onValidationComplete;
    }

    /** `onChangeText` of the number field stores the text upper-cased. */
    method EditDlNumber(text: string)
      requires Valid() && step == Input
      modifies this
      ensures Valid()
      ensures State() == old(State()).(dlNumber := ToUpper(text))
    {
      ToUpperIdempotent(text);
      dlNumber := ToUpper(text);
    }

    /** `onChangeText` of the date-of-birth field. */
    method EditDateOfBirth(text: string)
      requires Valid() && step == Input
      modifies this
      ensures Valid()
      ensures State() == old(State()).(dateOfBirth := text)
    {
      dateOfBirth := text;
    }

    /** `handleDlSubmit`. Its only caller is the verify button, which is
        disabled while loading. The timer captures the number and date of birth. */
    method HandleDlSubmit() returns (alert: Option<Alert>)
      requires Valid() && step == Input && !isLoading
      modifies this
      ensures Valid()
      ensures alert == CheckDl(dlNumber, dateOfBirth)
      ensures alert.Some? ==> State() == old(State())
      ensures alert.None? ==>
                State() == old(State()).(isLoading := true,
                                         pending := SubmitTimer(dlNumber, dateOfBirth))
    {
      alert := CheckDl(dlNumber, dateOfBirth);
      if alert.Some? {
        return;
      }
      isLoading := true;
      pending := SubmitTimer(dlNumber, dateOfBirth);
    }

    /** A press on the verify button, disabled while loading, when the number
        is shorter than ten characters or the date of birth is empty; so no
        alert can be raised. */
    method PressVerify()
      requires Valid() && step == Input
      modifies this
      ensures Valid()
      ensures if Button.IsDisabled(|old(dlNumber)| < 10 || old(dateOfBirth) == "", old(isLoading))
              then State() == old(State())
              else State() == old(State()).(isLoading := true,
                                            pending := SubmitTimer(dlNumber, dateOfBirth))
    {
      if !Button.IsDisabled(|dlNumber| < 10 || dateOfBirth == "", isLoading) {
        var alert := HandleDlSubmit();
        assert alert.None?;
      }
    }

    /** `handleUploadDocument`, behind the upload button of the verified step. */
    method HandleUploadDocument()
      requires Valid() && step == Verified && !fromVerificationRequest
      modifies this
      ensures Valid()
      ensures State() == old(State()).(step := Upload, pending := UploadTimer)
    {
      step := Upload;
      pending := UploadTimer;
    }

    /** A press where the upload button would be: it is not rendered in the
        verification-request context. */
    method PressUpload()
      requires Valid() && step == Verified
      modifies this
      ensures Valid()
      ensures if fromVerificationRequest then State() == old(State())
              else State() == old(State()).(step := Upload, pending := UploadTimer)
    {
      if !fromVerificationRequest {
        HandleUploadDocument();
      }
    }

    /** The pending `setTimeout` callback runs. */
    method TimerFires()
      requires Valid()
      modifies this
      ensures Valid()
      ensures Rank(old(step)) <= Rank(step)
      ensures old(pending).NoTimer? ==> State() == old(State())
      ensures old(pending).SubmitTimer? ==>
                State() == old(State()).(verifiedData := Some(DlFixture(old(pending).number, old(pending).dateOfBirth)),
                                         isLoading := false, step := Verified, pending := NoTimer)
      ensures old(pending).UploadTimer? ==>
                State() == old(State()).(step := Complete, pending := NoTimer,
                                         completions := if hasCallback then 1 else 0)
    {
      match pending
      case NoTimer =>
      case SubmitTimer(number, dateOfBirth) =>
        verifiedData := Some(DlFixture(number, dateOfBirth));
        isLoading := false;
        step := Verified;
        pending := NoTimer;
      case UploadTimer =>
        step := Complete;
        if hasCallback {
          completions := completions + 1;
        }
        pending := NoTimer;
    }
  }

  /** Typing "mh0120200001" and a date of birth and letting the timer run
      shows the number upper-cased in the record. */
  method Scenario() returns (record: DlRecord)
    ensures record.dlNumber == "MH0120200001" && record.dateOfBirth == "15/03/1990"
  {
    var screen := new DlScreen(None, true);
    screen.EditDlNumber("mh0120200001");
    assert screen.dlNumber == "MH0120200001";
    screen.EditDateOfBirth("15/03/1990");
    screen.PressVerify();
    screen.TimerFires();
    record := screen.verifiedData.value;
  }
}

=== FILE: doctor.dfy ===
/** The doctor (medical registration) verification screen: registration
    number and year -> verified record -> upload -> complete, with no OTP step. */
module Doctor {
  import opened Common
  import opened Workflow
  import Button

  /** The fixture record. */
  datatype DoctorRecord = DoctorRecord(
    name: string, registrationNumber: string, yearOfRegistration: string,
    qualification: string, council: string, validity: string,
    specialization: string, hospitalAffiliation: string, status: string)

  /** The record the verify timer stores: constants, plus the captured number
      upper-cased and the captured year. A number typed into the field is
      already upper case, so the record shows it exactly as entered. */
  function DoctorFixture(number: string, year: string): (r: DoctorRecord)
    ensures IsUpperCase(r.registrationNumber) && |r.registrationNumber| == |number|
    ensures IsUpperCase(number) ==> r.registrationNumber == number
    ensures r.yearOfRegistration == year
  {
    ToUpperIdempotent(number);
    ToUpperOfUpperCase(number);
    DoctorRecord("Dr. John Doe", ToUpper(number), year, "MBBS, MD (Internal Medicine)",
                 "Maharashtra Medical Council", "Valid till 2025", "Internal Medicine",
                 "City General Hospital", "Active")
  }

  /** The checks at the top of `handleDoctorSubmit`, the number first. The
      handler accepts exactly what the button's `disabled` rule lets through. */
  function CheckDoctor(number: string, year: string): (alert: Option<Alert>)
    ensures alert.None? <==> |number| >= 5 && |year| == 4
    ensures |number| < 5 ==> alert == Some(Alert("Error", "Please enter a valid registration number"))
    ensures |number| >= 5 && |year| != 4 ==>
              alert == Some(Alert("Error", "Please enter a valid year of registration"))
  {
    if |number| < 5 then Some(Alert("Error", "Please enter a valid registration number"))
    else if year == "" || |year| != 4 then Some(Alert("Error", "Please enter a valid year of registration"))
    else None
  }

  /** A pending `setTimeout` callback, with what its closure captured. */
  datatype Timer = NoTimer | SubmitTimer(number: string, year: string) | UploadTimer

  /** All state fields of the screen at once. */
  datatype Snapshot = Snapshot(
    step: Step, registrationNumber: string, yearOfRegistration: string, isLoading: bool,
    verifiedData: Option<DoctorRecord>, pending: Timer, completions: nat)

  /** Input that passed the handler's checks, as the field holds it. */
  predicate Accepted(number: string, year: string)
  {
    CheckDoctor(number, year).None? && IsUpperCase(number)
  }

  class DoctorScreen {
    var step: Step
    var registrationNumber: string
    var yearOfRegistration: string
    var isLoading: bool
    var verifiedData: Option<DoctorRecord>
    /** The callback scheduled and not yet run. */
    var pending: Timer
    /** How many times `onValidationComplete` has been called. */
    var completions: nat
    const fromVerificationRequest: bool
    const hasCallback: bool

    ghost function State(): Snapshot
      reads this
    {
      Snapshot(step, registrationNumber, yearOfRegistration, isLoading, verifiedData, pending, completions)
    }

    /** The invariant of every reachable state: the flow never visits `otp`;
        the field holds an upper-case number; the spinner runs exactly while
        the verify timer is pending; a record is present iff the step is past
        input, and it shows a number and year that passed the checks; in the
        verification-request context the flow stops at `verified`; the
        callback ran once if and only if the flow is complete. */
    ghost predicate Valid()
      reads this
    {
      && step != Otp
      && IsUpperCase(registrationNumber)
      && (isLoading <==> pending.SubmitTimer?)
      && (pending.SubmitTimer? ==> step == Input && Accepted(pending.number, pending.year))
      && (pending.UploadTimer? <==> step == Upload)
      && (verifiedData.Some? <==> PastOtp(step))
      && (verifiedData.Some? ==>
            var r := verifiedData.value;
            Accepted(r.registrationNumber, r.yearOfRegistration) &&
            r == DoctorFixture(r.registrationNumber, r.yearOfRegistration))
      && (fromVerificationRequest ==> step != Upload && step != Complete)
      && completions == (if step == Complete && hasCallback then 1 else 0)
    }

    constructor (context: Option<ScreenContext>, onValidationComplete: bool)
      ensures Valid()
      ensures State() == Snapshot(Input, "", "", false, None, NoTimer, 0)
      ensures fromVerificationRequest == IsFromVerificationRequest(context)
      ensures hasCallback == onValidationComplete
    {
      step, registrationNumber, yearOfRegistration, isLoading := Input, "", "", false;
      verifiedData, pending, completions := None, NoTimer, 0;
      fromVerificationRequest := IsFromVerificationRequest(context);
      hasCallback := onValidationComplete;
    }

    /** `onChangeText` of the number field stores the text upper-cased. */
    method EditRegistrationNumber(text: string)
      requires Valid() && step == Input
      modifies this
      ensures Valid()
      ensures State() == old(State()).(registrationNumber := ToUpper(text))
    {
      ToUpperIdempotent(text);
      registrationNumber := ToUpper(text);
    }

    /** `onChangeText` of the year field. */
    method EditYear(text: string)
      requires Valid() && step == Input
      modifies this
      ensures Valid()
      ensures State() == old(State()).(yearOfRegistration := text)
    {
      yearOfRegistration := text;
    }

    /** `handleDoctorSubmit`. Its only caller is the verify button, which is
        disabled while loading. The timer captures the number and year. */
    method HandleDoctorSubmit() returns (alert: Option<Alert>)
      requires Valid() && step == Input && !isLoading
      modifies this
      ensures Valid()
      ensures alert == CheckDoctor(registrationNumber, yearOfRegistration)
      ensures alert.Some? ==> State() == old(State())
      ensures alert.None? ==>
                State() == old(State()).(isLoading := true,
                                         pending := SubmitTimer(registrationNumber, yearOfRegistration))
    {
      alert := CheckDoctor(registrationNumber, yearOfRegistration);
      if alert.Some? {
        return;
      }
      isLoading := true;
      pending := SubmitTimer(registrationNumber, yearOfRegistration);
    }

    /** A press on the verify button, disabled while loading, when the number
        is shorter than five characters or the year is not four long; so no
        alert can be raised. */
    method PressVerify()
      requires Valid() && step == Input
      modifies this
      ensures Valid()
      ensures if Button.IsDisabled(|old(registrationNumber)| < 5 || |old(yearOfRegistration)| != 4, old(isLoading))
              then State() == old(State())
              else State() == old(State()).(isLoading := true,
                                            pending := SubmitTimer(registrationNumber, yearOfRegistration))
    {
      if !Button.IsDisabled(|registrationNumber| < 5 || |yearOfRegistration| != 4, isLoading) {
        var alert := HandleDoctorSubmit();
        assert alert.None?;
      }
    }

    /** `handleUploadDocument`, behind the upload button of the verified step. */
    method HandleUploadDocument()
      requires Valid() && step == Verified && !fromVerificationRequest
      modifies this
      ensures Valid()
      ensures State() == old(State()).(step := Upload, pending := UploadTimer)
    {
      step := Upload;
      pending := UploadTimer;
    }

    /** A press where the upload button would be: it is not rendered in the
        verification-request context. */
    method PressUpload()
      requires Valid() && step == Verified
      modifies this
      ensures Valid()
      ensures if fromVerificationRequest then State() == old(State())
              else State() == old(State()).(step := Upload, pending := UploadTimer)
    {
      if !fromVerificationRequest {
        HandleUploadDocument();
      }
    }

    /** The pending `setTimeout` callback runs. */
    method TimerFires()
      requires Valid()
      modifies this
      ensures Valid()
      ensures Rank(old(step)) <= Rank(step)
      ensures old(pending).NoTimer? ==> State() == old(State())
      ensures old(pending).SubmitTimer? ==>
                State() == old(State()).(verifiedData := Some(DoctorFixture(old(pending).number, old(pending).year)),
                                         isLoading := false, step := Verified, pending := NoTimer)
      ensures old(pending).UploadTimer? ==>
                State() == old(State()).(step := Complete, pending := NoTimer,
                                         completions := if hasCallback then 1 else 0)
    {
      match pending
      case NoTimer =>
      case SubmitTimer(number, year) =>
        verifiedData := Some(DoctorFixture(number, year));
        isLoading := false;
        step := Verified;
        pending := NoTimer;
      case UploadTimer =>
        step := Complete;
        if hasCallback {
          completions := completions + 1;
        }
        pending := NoTimer;
    }
  }

  /** Typing "mh123" and 2010 and letting the timer run shows the number
      upper-cased in the record. */
  method Scenario() returns (record: DoctorRecord)
    ensures record.registrationNumber == "MH123" && record.yearOfRegistration == "2010"
  {
    var screen := new DoctorScreen(None, true);
    screen.EditRegistrationNumber("mh123");
    assert screen.registrationNumber == "MH123";
    screen.EditYear("2010");
    screen.PressVerify();
    screen.TimerFires();
    record := screen.verifiedData.value;
  }
}

=== FILE: dropdown_menu.dfy ===
/** The kit's `DropdownMenu`: an open flag that is either controlled by the
    `open` prop or held internally, the change handler that delegates to
    `onOpenChange` or sets the internal flag, and the handlers of the
    trigger, the overlay and the three kinds of item. */
module DropdownMenu {
  import opened Common

  /** The root: the internal flag, the `open` prop and whether `onOpenChange`
      was given. `requested` logs every value handed to `onOpenChange`. */
  class DropdownMenuRoot {
    var internalOpen: bool
    var requested: seq<bool>
    const controlled: Option<bool>
    const hasOnOpenChange: bool

    /** `useState(false)`. */
    constructor (open: Option<bool>, hasOnOpenChange: bool)
      ensures !internalOpen && requested == []
      ensures controlled == open && this.hasOnOpenChange == hasOnOpenChange
    {
      internalOpen := false;
      requested := [];
      controlled := open;
      this.hasOnOpenChange := hasOnOpenChange;
    }

    /** `isOpen`: the `open` prop whenever it is defined. */
    function IsOpen(): bool
      reads this
    {
      if controlled.Some? then controlled.value else internalOpen
    }

    /** `handleOpenChange`: delegates or sets the internal flag, never both. */
    method HandleOpenChange(newOpen: bool)
      modifies this
      ensures hasOnOpenChange ==> requested == old(requested) + [newOpen] && internalOpen == old(internalOpen)
      ensures !hasOnOpenChange ==> requested == old(requested) && internalOpen == newOpen
      ensures controlled.Some? ==> IsOpen() == controlled.value
      ensures controlled.None? && !hasOnOpenChange ==> IsOpen() == newOpen
    {
      if hasOnOpenChange {
        requested := requested + [newOpen];
      } else {
        internalOpen := newOpen;
      }
    }

    /** The trigger always asks for `true`. */
    method PressTrigger()
      modifies this
      ensures hasOnOpenChange ==> requested == old(requested) + [true] && internalOpen == old(internalOpen)
      ensures !hasOnOpenChange ==> requested == old(requested) && internalOpen
    {
      HandleOpenChange(true);
    }

    /** A press on the overlay, or a close request of the modal. */
    method Dismiss()
      modifies this
      ensures hasOnOpenChange ==> requested == old(requested) + [false] && internalOpen == old(internalOpen)
      ensures !hasOnOpenChange ==> requested == old(requested) && !internalOpen
    {
      HandleOpenChange(false);
    }

    /** `DropdownMenuItem.handleSelect`: nothing when disabled; otherwise
        `onSelect` (reported in `selected`) and then a request to close. */
    method SelectItem(disabled: bool, hasOnSelect: bool) returns (selected: bool)
      modifies this
      ensures selected <==> !disabled && hasOnSelect
      ensures disabled ==> requested == old(requested) && internalOpen == old(internalOpen)
      ensures !disabled && hasOnOpenChange ==> requested == old(requested) + [false] && internalOpen == old(internalOpen)
      ensures !disabled && !hasOnOpenChange ==> requested == old(requested) && !internalOpen
    {
      selected := false;
      if disabled {
        return;
      }
      if hasOnSelect {
        selected := true;
      }
      HandleOpenChange(false);
    }
  }

  /** `DropdownMenuCheckboxItem.handleToggle`: the value handed to
      `onCheckedChange`. The open flag is never touched. */
  function CheckboxToggle(disabled: bool, hasOnCheckedChange: bool, checked: bool): (r: Option<bool>)
    ensures r.Some? <==> !disabled && hasOnCheckedChange
    ensures r.Some? ==> r.value != checked
  {
    if disabled || !hasOnCheckedChange then None else Some(!checked)
  }

  /** `DropdownMenuRadioItem.handleSelect`: the value handed to `onSelect`.
      The open flag is never touched. */
  function RadioSelect<T>(disabled: bool, hasOnSelect: bool, value: T): (r: Option<T>)
    ensures r.Some? <==> !disabled && hasOnSelect
    ensures r.Some? ==> r.value == value
  {
    if disabled || !hasOnSelect then None else Some(value)
  }

  /** Toggling a checkbox item twice, feeding each emitted value back in as
      `checked`, returns to where it started. */
  lemma CheckboxTwice(checked: bool)
    ensures CheckboxToggle(false, true, CheckboxToggle(false, true, checked).value) == Some(checked)
  {
  }

  /** An uncontrolled menu without `onOpenChange`: closed at first, open
      after the trigger, still open after a disabled item, closed after an
      enabled one, which also runs `onSelect`. */
  method OpenPickClose() returns (initially: bool, afterTrigger: bool, afterDisabled: bool,
                                  afterItem: bool, selected: bool)
    ensures !initially && afterTrigger && afterDisabled && !afterItem && selected
  {
    var menu := new DropdownMenuRoot(None, false);
    initially := menu.IsOpen();
    menu.PressTrigger();
    afterTrigger := menu.IsOpen();
    var _ := menu.SelectItem(true, true);
    afterDisabled := menu.IsOpen();
    selected := menu.SelectItem(false, true);
    afterItem := menu.IsOpen();
  }

  /** A controlled menu stays as its prop says, whatever is pressed; the
      requests go to `onOpenChange` in order. */
  method ControlledIgnoresPresses(open: bool) returns (afterTrigger: bool, afterItem: bool, requests: seq<bool>)
    ensures afterTrigger == open && afterItem == open
    ensures requests == [true, false]
  {
    var menu := new DropdownMenuRoot(Some(open), true);
    menu.PressTrigger();
    afterTrigger := menu.IsOpen();
    var _ := menu.SelectItem(false, false);
    afterItem := menu.IsOpen();
    requests := menu.requested;
  }
}

=== FILE: icai.dfy ===
/** The ICAI (chartered accountant) verification screen: membership number
    and year -> verified record -> upload -> complete, with no OTP step. */
module Icai {
  import opened Common
  import opened Workflow
  import Button

  /** The fixture record. */
  datatype IcaiRecord = IcaiRecord(
    name: string, membershipNumber: string, yearOfMembership: string,
    qualification: string, institute: string, validity: string,
    specialization: string, firmAffiliation: string, status: string, cpeCertificate: string)

  /** The record the verify timer stores: constants, plus the captured number
      upper-cased and the captured year. A number typed into the field is
      already upper case, so the record shows it exactly as entered. */
  function IcaiFixture(number: string, year: string): (r: IcaiRecord)
    ensures IsUpperCase(r.membershipNumber) && |r.membershipNumber| == |number|
    ensures IsUpperCase(number) ==> r.membershipNumber == number
    ensures r.yearOfMembership == year
  {
    ToUpperIdempotent(number);
    ToUpperOfUpperCase(number);
    IcaiRecord("CA John Doe", ToUpper(number), year, "Chartered Accountant (CA)",
               "Institute of Chartered Accountants of India", "Lifetime Valid",
               "Taxation & Audit", "John Doe & Associates", "Active", "Up to Date")
  }

  /** The checks at the top of `handleICAISubmit`, the number first. The
      handler accepts exactly what the button's `disabled` rule lets through. */
  function CheckIcai(number: string, year: string): (alert: Option<Alert>)
    ensures alert.None? <==> |number| >= 6 && |year| == 4
    ensures |number| < 6 ==> alert == Some(Alert("Error", "Please enter a valid membership number"))
    ensures |number| >= 6 && |year| != 4 ==>
              alert == Some(Alert("Error", "Please enter a valid year of membership"))
  {
    if |number| < 6 then Some(Alert("Error", "Please enter a valid membership number"))
    else if year == "" || |year| != 4 then Some(Alert("Error", "Please enter a valid year of membership"))
    else None
  }

  /** A pending `setTimeout` callback, with what its closure captured. */
  datatype Timer = NoTimer | SubmitTimer(number: string, year: string) | UploadTimer

  /** All state fields of the screen at once. */
  datatype Snapshot = Snapshot(
    step: Step, membershipNumber: string, yearOfMembership: string, isLoading: bool,
    verifiedData: Option<IcaiRecord>, pending: Timer, completions: nat)

  /** Input that passed the handler's checks, as the field holds it. */
  predicate Accepted(number: string, year: string)
  {
    CheckIcai(number, year).None? && IsUpperCase(number)
  }

  class IcaiScreen {
    var step: Step
    var membershipNumber: string
    var yearOfMembership: string
    var isLoading: bool
    var verifiedData: Option<IcaiRecord>
    /** The callback scheduled and not yet run. */
    var pending: Timer
    /** How many times `onValidationComplete` has been called. */
    var completions: nat
    const fromVerificationRequest: bool
    const hasCallback: bool

    ghost function State(): Snapshot
      reads this
    {
      Snapshot(step, membershipNumber, yearOfMembership, isLoading, verifiedData, pending, completions)
    }

    /** The invariant of every reachable state: the flow never visits `otp`;
        the field holds an upper-case number; the spinner runs exactly while
        the verify timer is pending; a record is present iff the step is past
        input, and it shows a number and year that passed the checks; in the
        verification-request context the flow stops at `verified`; the
        callback ran once if and only if the flow is complete. */
    ghost predicate Valid()
      reads this
    {
      && step != Otp
      && IsUpperCase(membershipNumber)
      && (isLoading <==> pending.SubmitTimer?)
      && (pending.SubmitTimer? ==> step == Input && Accepted(pending.number, pending.year))
      && (pending.UploadTimer? <==> step == Upload)
      && (verifiedData.Some? <==> PastOtp(step))
      && (verifiedData.Some? ==>
            var r := verifiedData.value;
            Accepted(r.membershipNumber, r.yearOfMembership) &&
            r == IcaiFixture(r.membershipNumber, r.yearOfMembership))
      && (fromVerificationRequest ==> step != Upload && step != Complete)
      && completions == (if step == Complete && hasCallback then 1 else 0)
    }

    constructor (context: Option<ScreenContext>, onValidationComplete: bool)
      ensures Valid()
      ensures State() == Snapshot(Input, "", "", false, None, NoTimer, 0)
      ensures fromVerificationRequest == IsFromVerificationRequest(context)
      ensures hasCallback == onValidationComplete
    {
      step, membershipNumber, yearOfMembership, isLoading := Input, "", "", false;
      verifiedData, pending, completions := None, NoTimer, 0;
      fromVerificationRequest := IsFromVerificationRequest(context);
      hasCallback := onValidationComplete;
    }

    /** `onChangeText` of the number field stores the text upper-cased. */
    method EditMembershipNumber(text: string)
      requires Valid() && step == Input
      modifies this
      ensures Valid()
      ensures State() == old(State()).(membershipNumber := ToUpper(text))
    {
      ToUpperIdempotent(text);
      membershipNumber := ToUpper(text);
    }

    /** `onChangeText` of the year field. */
    method EditYear(text: string)
      requires Valid() && step == Input
      modifies this
      ensures Valid()
      ensures State() == old(State()).(yearOfMembership := text)
    {
      yearOfMembership := text;
    }

    /** `handleICAISubmit`. Its only caller is the verify button, which is
        disabled while loading. The timer captures the number and year. */
    method HandleIcaiSubmit() returns (alert: Option<Alert>)
      requires Valid() && step == Input && !isLoading
      modifies this
      ensures Valid()
      ensures alert == CheckIcai(membershipNumber, yearOfMembership)
      ensures alert.Some? ==> State() == old(State())
      ensures alert.None? ==>
                State() == old(State()).(isLoading := true,
                                         pending := SubmitTimer(membershipNumber, yearOfMembership))
    {
      alert := CheckIcai(membershipNumber, yearOfMembership);
      if alert.Some? {
        return;
      }
      isLoading := true;
      pending := SubmitTimer(membershipNumber, yearOfMembership);
    }

    /** A press on the verify button, disabled while loading, when the number
        is shorter than six characters or the year is not four long; so no
        alert can be raised. */
    method PressVerify()
      requires Valid() && step == Input
      modifies this
      ensures Valid()
      ensures if Button.IsDisabled(|old(membershipNumber)| < 6 || |old(yearOfMembership)| != 4, old(isLoading))
              then State() == old(State())
              else State() == old(State()).(isLoading := true,
                                            pending := SubmitTimer(membershipNumber, yearOfMembership))
    {
      if !Button.IsDisabled(|membershipNumber| < 6 || |yearOfMembership| != 4, isLoading) {
        var alert := HandleIcaiSubmit();
        assert alert.None?;
      }
    }

    /** `handleUploadDocument`, behind the upload button of the verified step. */
    method HandleUploadDocument()
      requires Valid() && step == Verified && !fromVerificationRequest
      modifies this
      ensures Valid()
      ensures State() == old(State()).(step := Upload, pending := UploadTimer)
    {
      step := Upload;
      pending := UploadTimer;
    }

    /** A press where the upload button would be: it is not rendered in the
        verification-request context. */
    method PressUpload()
      requires Valid() && step == Verified
      modifies this
      ensures Valid()
      ensures if fromVerificationRequest then State() == old(State())
              else State() == old(State()).(step := Upload, pending := UploadTimer)
    {
      if !fromVerificationRequest {
        HandleUploadDocument();
      }
    }

    /** The pending `setTimeout` callback runs. */
    method TimerFires()
      requires Valid()
      modifies this
      ensures Valid()
      ensures Rank(old(step)) <= Rank(step)
      ensures old(pending).NoTimer? ==> State() == old(State())
      ensures old(pending).SubmitTimer? ==>
                State() == old(State()).(verifiedData := Some(IcaiFixture(old(pending).number, old(pending).year)),
                                         isLoading := false, step := Verified, pending := NoTimer)
      ensures old(pending).UploadTimer? ==>
                State() == old(State()).(step := Complete, pending := NoTimer,
                                         completions := if hasCallback then 1 else 0)
    {
      match pending
      case NoTimer =>
      case SubmitTimer(number, year) =>
        verifiedData := Some(IcaiFixture(number, year));
        isLoading := false;
        step := Verified;
        pending := NoTimer;
      case UploadTimer =>
        step := Complete;
        if hasCallback {
          completions := completions + 1;
        }
        pending := NoTimer;
    }
  }

  /** Typing "abc123" and 2015 and letting the timer run shows the number
      upper-cased in the record. */
  method Scenario() returns (record: IcaiRecord)
    ensures record.membershipNumber == "ABC123" && record.yearOfMembership == "2015"
  {
    var screen := new IcaiScreen(None, true);
    screen.EditMembershipNumber("abc123");
    assert screen.membershipNumber == "ABC123";
    screen.EditYear("2015");
    screen.PressVerify();
    screen.TimerFires();
    record := screen.verifiedData.value;
  }
}

=== FILE: identity_documents.dfy ===
/** `IdentityDocumentsScreen`: the fixed list of identity documents, the
    status lookup each card uses, and the tallies in the header. */
module IdentityDocuments {

  /** One document card: its list key, title, status string and the screen
      a press navigates to. */
  datatype Document = Document(id: string, title: string, status: string, screen: string)

  /** The screen's hard-coded list. */
  function Documents(): seq<Document>
  {
    [ Document("aadhaar", "Aadhaar Card", "verified", "Aadhaar"),
      Document("pan", "PAN Card", "verified", "PAN"),
      Document("dl", "Driving License", "pending", "DL"),
      Document("passport", "Passport", "notUploaded", "Passport"),
      Document("voterId", "Voter ID", "notUploaded", "VoterID") ]
  }

  /** The badge of a status: its theme colour and its text. */
  datatype StatusInfo = StatusInfo(color: string, text: string)

  predicate KnownStatus(status: string)
  {
    status == "verified" || status == "pending" || status == "rejected"
  }

  /** `getStatusInfo`: three known statuses, and a default for every other
      string (including 'notUploaded' and any typo). */
  function GetStatusInfo(status: string): (info: StatusInfo)
    ensures info.text == "Not Uploaded" <==> !KnownStatus(status)
    ensures !KnownStatus(status) ==> info == StatusInfo("#DDD", "Not Uploaded")
    ensures status == "verified" <==> info.text == "Verified"
    ensures status == "pending" <==> info.text == "Pending"
    ensures status == "rejected" <==> info.text == "Rejected"
  {
    match status
    case "verified" => StatusInfo("#00B894", "Verified")
    case "pending" => StatusInfo("#FDCB6E", "Pending")
    case "rejected" => StatusInfo("#E17055", "Rejected")
    case _ => StatusInfo("#DDD", "Not Uploaded")
  }

  /** Different badge texts always come with different colours. */
  lemma StatusColoursDistinguish(a: string, b: string)
    ensures GetStatusInfo(a).text != GetStatusInfo(b).text ==> GetStatusInfo(a).color != GetStatusInfo(b).color
  {
  }

  /** The number of documents whose badge reads `text`. */
  function CountBadge(docs: seq<Document>, text: string): (n: nat)
    ensures n <= |docs|
  {
    if docs == [] then 0
    else (if GetStatusInfo(docs[0].status).text == text then 1 else 0) + CountBadge(docs[1..], text)
  }

  /** The "Remaining" tally: documents neither verified nor pending. */
  function CountRemaining(docs: seq<Document>): (n: nat)
    ensures n <= |docs|
  {
    if docs == [] then 0
    else (if docs[0].status != "verified" && docs[0].status != "pending" then 1 else 0) + CountRemaining(docs[1..])
  }

  /** The three tallies split the list: every document is in exactly one. */
  lemma {:induction false} TalliesPartition(docs: seq<Document>)
    ensures CountBadge(docs, "Verified") + CountBadge(docs, "Pending") + CountRemaining(docs) == |docs|
  {
    if docs != [] {
      TalliesPartition(docs[1..]);
    }
  }

  /** The header's hard-coded 2 / 1 / 2 are the counts of the fixture. */
  lemma HeaderMatchesFixture()
    ensures CountBadge(Documents(), "Verified") == 2
    ensures CountBadge(Documents(), "Pending") == 1
    ensures CountRemaining(Documents()) == 2
  {
  }

  /** List keys are pairwise distinct. */
  predicate DistinctIds(docs: seq<Document>)
  {
    forall i, j :: 0 <= i < j < |docs| ==> docs[i].id != docs[j].id
  }

  /** The fixture's keys are distinct and every card opens its own screen
      (a press calls `navigation.navigate(doc.screen)`), different from every
      other card's. */
  lemma FixtureKeysAndRoutes()
    ensures DistinctIds(Documents())
    ensures forall i, j :: 0 <= i < j < |Documents()| ==> Documents()[i].screen != Documents()[j].screen
  {
  }
}

=== FILE: input_otp.dfy ===
/** The kit's `InputOTP`: one single-character box per OTP position over one
    `otp` string. An edit splits the string into an array, writes the box's
    text at the box index (leaving holes when the index is past the end),
    joins the array back and reports the new string. */
module InputOtp {
  import opened Common

  /** An array slot after `split('')` and an index assignment: a hole joins
      as the empty string. */
  datatype Cell = Hole | Text(s: string)

  function CellText(c: Cell): string
  {
    match c
    case Hole => ""
    case Text(s) => s
  }

  /** `otp.split('')`. */
  function Split(otp: string): (cells: seq<Cell>)
    ensures |cells| == |otp|
  {
    seq(|otp|, i requires 0 <= i < |otp| => Text([otp[i]]))
  }

  /** `newOtp[index] = text`: past the end the array grows, with holes. */
  function Assign(cells: seq<Cell>, index: nat, text: string): (r: seq<Cell>)
    ensures |r| == if index < |cells| then |cells| else index + 1
  {
    if index < |cells| then cells[index := Text(text)]
    else cells + seq(index - |cells|, _ => Hole) + [Text(text)]
  }

  /** `newOtp.join('')`. */
  function Join(cells: seq<Cell>): string
  {
    if cells == [] then "" else CellText(cells[0]) + Join(cells[1..])
  }


  lemma {:induction false} JoinAppend(a: seq<Cell>, b: seq<Cell>)
    ensures Join(a + b) == Join(a) + Join(b)
  {
    if a == [] {
      assert a + b == b;
    } else {
      assert (a + b)[1..] == a[1..] + b;
      JoinAppend(a[1..], b);
    }
  }

  /** Joining the split of a string gives the string back. */
  lemma {:induction false} JoinSplit(otp: string)
    ensures Join(Split(otp)) == otp
  {
    if otp != [] {
      assert Split(otp)[1..] == Split(otp[1..]);
      JoinSplit(otp[1..]);
      assert otp == [otp[0]] + otp[1..];
    }
  }

  /** Holes join to nothing. */
  lemma {:induction false} JoinHoles(n: nat)
    ensures Join(seq(n, _ => Hole)) == ""
  {
    if n > 0 {
      assert seq(n, _ => Hole)[1..] == seq(n - 1, _ => Hole);
      JoinHoles(n - 1);
    }
  }

  /** An edit inside the string: the box's character is replaced by `text`,
      the rest is kept. */
  lemma EditInside(otp: string, index: nat, text: string)
    requires index < |otp|
    ensures Join(Assign(Split(otp), index, text)) == otp[..index] + text + otp[index + 1..]
  {
    var cells := Split(otp);
    var r := Assign(cells, index, text);
    assert r == cells[..index] + [Text(text)] + cells[index + 1..];
    assert cells[..index] == Split(otp[..index]);
    assert cells[index + 1..] == Split(otp[index + 1..]);
    JoinAppend(cells[..index] + [Text(text)], cells[index + 1..]);
    JoinAppend(cells[..index], [Text(text)]);
    JoinSplit(otp[..index]);
    JoinSplit(otp[index + 1..]);
    assert Join([Text(text)]) == text + Join([]);
  }

  /** The string `handleChangeText(text, index)` stores and reports: the box's
      character replaced by `text` inside the string, `text` appended past
      its end. */
  function ChangeText(otp: string, index: nat, text: string): (r: string)
    ensures index < |otp| ==> r == otp[..index] + text + otp[index + 1..]
    ensures index >= |otp| ==> r == otp + text
  {
    var joined := Join(Assign(Split(otp), index, text));
    if index < |otp| then EditInside(otp, index, text); joined
    else EditPastEnd(otp, index, text); joined
  }

  /** Typing one character into a filled box replaces that character, and
      the length stays the same. */
  lemma ReplaceCharacter(otp: string, index: nat, text: string)
    requires index < |otp| && |text| == 1
    ensures |ChangeText(otp, index, text)| == |otp|
    ensures ChangeText(otp, index, text)[index] == text[0]
    ensures forall k :: 0 <= k < |otp| && k != index ==> ChangeText(otp, index, text)[k] == otp[k]
  {
  }

  /** Clearing a filled box deletes its character: the later characters
      shift left and the string gets one shorter. */
  lemma ClearCharacter(otp: string, index: nat)
    requires index < |otp|
    ensures |ChangeText(otp, index, "")| == |otp| - 1
    ensures ChangeText(otp, index, "") == otp[..index] + otp[index + 1..]
  {
  }

  /** Typing into a box at or past the end appends the text to the end of
      the string, whatever the box index: the holes in between join as empty. */
  lemma EditPastEnd(otp: string, index: nat, text: string)
    requires index >= |otp|
    ensures Join(Assign(Split(otp), index, text)) == otp + text
  {
    var cells := Split(otp);
    var holes := seq(index - |cells|, _ => Hole);
    assert Assign(cells, index, text) == cells + holes + [Text(text)];
    calc {
      Join(cells + holes + [Text(text)]);
    == { JoinAppend(cells + holes, [Text(text)]); }
      Join(cells + holes) + Join([Text(text)]);
    == { JoinAppend(cells, holes); }
      Join(cells) + Join(holes) + Join([Text(text)]);
    == { JoinSplit(otp); JoinHoles(index - |cells|); }
      otp + "" + Join([Text(text)]);
    == { assert Join([Text(text)]) == text + Join([]); }
      otp + text;
    }
  }

  /** `text.slice(-1)`: a box passes on only the last character typed. */
  function LastChar(typed: string): (r: string)
    ensures |r| <= 1
    ensures typed != "" ==> r == [typed[|typed| - 1]]
    ensures typed == "" <==> r == ""
  {
    if typed == "" then "" else typed[|typed| - 1..]
  }

  /** The box `handleChangeText` focuses afterwards: the next one when text
      was entered and a next box exists. */
  function FocusAfterChange(text: string, index: nat, maxLength: int): (focus: Option<int>)
    ensures focus.Some? <==> text != "" && index < maxLength - 1
    ensures focus.Some? ==> focus.value == index + 1
  {
    if text != "" && index < maxLength - 1 then Some(index + 1) else None
  }

  /** `otp[index] || ''`: the character a box shows, or nothing. */
  function BoxText(otp: string, index: nat): (r: string)
    ensures index < |otp| ==> r == [otp[index]]
    ensures index >= |otp| ==> r == ""
  {
    if index < |otp| then [otp[index]] else ""
  }

  /** `handleKeyPress`: Backspace on an empty box moves focus to the previous
      box, when there is one. A box inside the string is never empty. */
  function FocusAfterKey(otp: string, key: string, index: nat): (focus: Option<int>)
    ensures focus.Some? <==> key == "Backspace" && index >= |otp| && index > 0
    ensures focus.Some? ==> focus.value == index - 1
  {
    if key == "Backspace" && BoxText(otp, index) == "" && index > 0 then Some(index - 1) else None
  }

  class InputOtp {
    /** The `otp` state. */
    var otp: string
    const maxLength: int
    const hasOnChange: bool
    /** The `disabled` prop: every box is rendered with `editable={false}`. */
    const disabled: bool

    /** `useState(value || '')`; `None` is an absent prop, and an absent
        `maxLength` or `disabled` takes its default, 6 or false. */
    constructor (maxLength: Option<int>, value: Option<string>, hasOnChange: bool, disabled: Option<bool>)
      ensures otp == (if value.Some? then value.value else "")
      ensures this.maxLength == (if maxLength.Some? then maxLength.value else 6)
      ensures this.hasOnChange == hasOnChange
      ensures this.disabled == (disabled == Some(true))
    {
      otp := if value.Some? then value.value else "";
      this.maxLength := if maxLength.Some? then maxLength.value else 6;
      this.hasOnChange := hasOnChange;
      this.disabled := disabled == Some(true);
    }

    /** The effect on a new `value` prop: any defined value replaces the state. */
    method ValueChanged(value: Option<string>)
      modifies this
      ensures otp == (if value.Some? then value.value else old(otp))
    {
      if value.Some? {
        otp := value.value;
      }
    }

    /** `handleChangeText(text, index)`: the state becomes the edited string,
        `onChange` (when given) receives that same string, and the returned
        focus is the box focused afterwards. */
    method HandleChangeText(text: string, index: nat) returns (emitted: Option<string>, focus: Option<int>)
      modifies this
      ensures otp == ChangeText(old(otp), index, text)
      ensures emitted == (if hasOnChange then Some(otp) else None)
      ensures focus == FocusAfterChange(text, index, maxLength)
    {
      var newOtp := Split(otp);
      newOtp := Assign(newOtp, index, text);
      var updatedOtp := Join(newOtp);
      otp := updatedOtp;
      emitted := if hasOnChange then Some(updatedOtp) else None;
      focus := FocusAfterChange(text, index, maxLength);
    }

    /** Typing into box `index`: a disabled input's boxes are not editable,
        so nothing happens; otherwise only the last character typed is passed
        on, and the string grows by at most one character per edit. */
    method TypeInBox(typed: string, index: nat) returns (emitted: Option<string>, focus: Option<int>)
      modifies this
      ensures disabled ==> otp == old(otp) && emitted.None? && focus.None?
      ensures !disabled ==> otp == ChangeText(old(otp), index, LastChar(typed))
      ensures |otp| <= |old(otp)| + 1
      ensures !disabled ==> emitted == (if hasOnChange then Some(otp) else None)
    {
      if disabled {
        emitted, focus := None, None;
        return;
      }
      var text := LastChar(typed);
      emitted, focus := HandleChangeText(text, index);
    }

    /** `renderInputs`: one box per position `0 .. maxLength - 1`, each
        showing its character or nothing, and editable unless disabled. */
    method RenderInputs() returns (boxes: seq<string>, editable: bool)
      ensures editable <==> !disabled
      ensures |boxes| == if maxLength > 0 then maxLength else 0
      ensures forall i :: 0 <= i < |boxes| ==> boxes[i] == BoxText(otp, i)
    {
      editable := !disabled;
      boxes := [];
      var i := 0;
      while i < maxLength
        invariant 0 <= i && |boxes| == i
        invariant i <= (if maxLength > 0 then maxLength else 0)
        invariant forall k :: 0 <= k < i ==> boxes[k] == BoxText(otp, k)
      {
        boxes := boxes + [BoxText(otp, i)];
        i := i + 1;
      }
    }
  }
}

=== FILE: menubar.dfy ===
/** The kit's `Menubar`: one `activeMenu` slot (null when no menu is open),
    set by the menu triggers, cleared by a close request, an overlay press
    or an item selection. */
module Menubar {
  import opened Common

  /** What a trigger, content or item reads from its context: the active
      menu, whether `setActiveMenu` is there, and the enclosing menu's value. */
  datatype MenuContext = MenuContext(activeMenu: JsValue, hasSetter: bool, menuValue: JsValue)

  /** `isActive` of the trigger and `isOpen` of the content. */
  predicate IsActive(ctx: MenuContext)
  {
    ctx.activeMenu == ctx.menuValue
  }

  /** The trigger's `handlePress`: null for the active menu, else its value. */
  function TriggerPress(ctx: MenuContext): (r: Call<JsValue>)
    ensures r.Throws? <==> !ctx.hasSetter
    ensures r.Calls? && IsActive(ctx) ==> r.value == Null
    ensures r.Calls? && !IsActive(ctx) ==> r.value == ctx.menuValue
  {
    if !ctx.hasSetter then Throws
    else Calls(if IsActive(ctx) then Null else ctx.menuValue)
  }

  /** A close request of the content's modal, or a press on its overlay. */
  function CloseRequest(ctx: MenuContext): (r: Call<JsValue>)
    ensures r.Throws? <==> !ctx.hasSetter
    ensures r.Calls? ==> r.value == Null
  {
    if ctx.hasSetter then Calls(Null) else Throws
  }

  /** What a press on an item does: nothing, or `onSelect` (when given)
      followed by the call that closes the menu. */
  datatype ItemOutcome = Ignored | Handled(ranOnSelect: bool, close: Call<JsValue>)

  /** `MenubarItem.handleSelect`. */
  function ItemSelect(ctx: MenuContext, disabled: bool, hasOnSelect: bool): (r: ItemOutcome)
    ensures r.Ignored? <==> disabled
    ensures r.Handled? ==> r.ranOnSelect == hasOnSelect && r.close == CloseRequest(ctx)
  {
    if disabled then Ignored else Handled(hasOnSelect, CloseRequest(ctx))
  }

  /** The context a menu's trigger, content and items are meant to read: the
      bar's state, with the menu's value added. */
  function MenuContextOf(parent: MenuContext, menuValue: JsValue): (ctx: MenuContext)
    ensures ctx.activeMenu == parent.activeMenu && ctx.hasSetter == parent.hasSetter
    ensures ctx.menuValue == menuValue
  {
    parent.(menuValue := menuValue)
  }

  /** The context `MenubarMenu` provides as written: only the menu value. */
  function MenuContextAsWritten(parent: MenuContext, menuValue: JsValue): MenuContext
  {
    MenuContext(Undefined, false, menuValue)
  }

  /** As written, a menu is shown as active exactly when it has no value,
      whatever the bar's state; its trigger and close requests throw, and an
      enabled item runs `onSelect` and then throws. Reading the bar's own
      context, the same presses reach `setActiveMenu`. */
  lemma MenuContextShadowsParent(parent: MenuContext, menuValue: JsValue, hasOnSelect: bool)
    requires parent.hasSetter
    ensures IsActive(MenuContextAsWritten(parent, menuValue)) <==> menuValue == Undefined
    ensures TriggerPress(MenuContextAsWritten(parent, menuValue)).Throws?
    ensures CloseRequest(MenuContextAsWritten(parent, menuValue)).Throws?
    ensures ItemSelect(MenuContextAsWritten(parent, menuValue), false, hasOnSelect) == Handled(hasOnSelect, Throws)
    ensures TriggerPress(MenuContextOf(parent, menuValue)).Calls?
    ensures ItemSelect(MenuContextOf(parent, menuValue), false, hasOnSelect) == Handled(hasOnSelect, Calls(Null))
  {
  }

  /** The `Menubar` root and its `activeMenu` state. Trigger presses, close
      requests, item selection and visibility are the CORRECTED ones, through
      `MenuContextOf`. As written, everything inside a `MenubarMenu` reads
      only `{ menuValue }` and the setter calls throw
      (`MenuContextShadowsParent`). */
  class MenubarRoot {
    var activeMenu: JsValue

    /** `useState(null)`. */
    constructor ()
      ensures activeMenu == Null
    {
      activeMenu := Null;
    }

    function RootContext(): MenuContext
      reads this
    {
      MenuContext(activeMenu, true, Undefined)
    }

    /** Whether the content of menu `menuValue` is visible. */
    function ContentVisible(menuValue: JsValue): (visible: bool)
      reads this
      ensures visible <==> activeMenu == menuValue
    {
      IsActive(MenuContextOf(RootContext(), menuValue))
    }

    /** A press on the trigger of menu `menuValue`. */
    method PressTrigger(menuValue: JsValue)
      modifies this
      ensures old(activeMenu) == menuValue ==> activeMenu == Null
      ensures old(activeMenu) != menuValue ==> activeMenu == menuValue
    {
      activeMenu := TriggerPress(MenuContextOf(RootContext(), menuValue)).value;
    }

    /** A close request or an overlay press on the content of a menu. */
    method RequestClose(menuValue: JsValue)
      modifies this
      ensures activeMenu == Null
    {
      activeMenu := CloseRequest(MenuContextOf(RootContext(), menuValue)).value;
    }

    /** A press on an item of menu `menuValue`; `selected` reports `onSelect`. */
    method SelectItem(menuValue: JsValue, disabled: bool, hasOnSelect: bool) returns (selected: bool)
      modifies this
      ensures selected <==> !disabled && hasOnSelect
      ensures disabled ==> activeMenu == old(activeMenu)
      ensures !disabled ==> activeMenu == Null
    {
      var outcome := ItemSelect(MenuContextOf(RootContext(), menuValue), disabled, hasOnSelect);
      selected := false;
      if outcome.Handled? {
        selected := outcome.ranOnSelect;
        activeMenu := outcome.close.value;
      }
    }
  }

  /** At most one menu is open: two menus with different values are never
      visible together, whatever was pressed before. */
  lemma AtMostOneOpen(bar: MenubarRoot, a: JsValue, b: JsValue)
    requires a != b
    ensures !(bar.ContentVisible(a) && bar.ContentVisible(b))
  {
  }

  /** Opening "file" and then "edit" switches menus; pressing "edit" again
      closes it; an item of an open menu closes it too. */
  method SwitchAndClose() returns (fileOpen: bool, editOpen: bool, fileAfterEdit: bool,
                                   editAfterSecond: bool, afterItem: JsValue)
    ensures fileOpen && editOpen && !fileAfterEdit && !editAfterSecond
    ensures afterItem == Null
  {
    var bar := new MenubarRoot();
    bar.PressTrigger(Str("file"));
    fileOpen := bar.ContentVisible(Str("file"));
    bar.PressTrigger(Str("edit"));
    editOpen := bar.ContentVisible(Str("edit"));
    fileAfterEdit := bar.ContentVisible(Str("file"));
    bar.PressTrigger(Str("edit"));
    editAfterSecond := bar.ContentVisible(Str("edit"));
    bar.PressTrigger(Str("file"));
    var _ := bar.SelectItem(Str("file"), false, true);
    afterItem := bar.activeMenu;
  }
}

=== FILE: navigation_menu.dfy ===
/** The kit's `NavigationMenu`: the root's value (controlled by `value` or
    held internally, '' at first), the trigger that opens or closes its
    item, and the content that renders only for the open item. */
module NavigationMenu {
  import opened Common

  /** What a trigger or content reads from its context: the menu value, whether
      the change handler is there, and the value of the enclosing item. */
  datatype NavContext = NavContext(value: JsValue, hasHandler: bool, itemValue: JsValue)

  /** `isActive` of the trigger and `isOpen` of the content: `value === itemValue`. */
  predicate IsActive(ctx: NavContext)
  {
    ctx.value == ctx.itemValue
  }

  /** The trigger's `handlePress`: '' for the active item, else the item value. */
  function Press(ctx: NavContext): (r: Call<JsValue>)
    ensures r.Throws? <==> !ctx.hasHandler
    ensures r.Calls? ==> (r.value == Str("") <==> IsActive(ctx) || ctx.itemValue == Str(""))
  {
    if !ctx.hasHandler then Throws
    else if IsActive(ctx) then Calls(Str(""))
    else Calls(ctx.itemValue)
  }

  /** The context an item's trigger and content are meant to read: the
      menu's own state, with the item's value added. */
  function ItemContext(parent: NavContext, itemValue: JsValue): (ctx: NavContext)
    ensures ctx.value == parent.value && ctx.hasHandler == parent.hasHandler
    ensures ctx.itemValue == itemValue
  {
    parent.(itemValue := itemValue)
  }

  /** The context `NavigationMenuItem` provides as written: only the item
      value, so the value and the change handler read as `undefined`. */
  function ItemContextAsWritten(parent: NavContext, itemValue: JsValue): NavContext
  {
    NavContext(Undefined, false, itemValue)
  }

  /** As written, an item's trigger and content are active exactly when the
      item has no value, whatever the menu's state, and every press throws;
      reading the menu's own context, the same press reaches the handler. */
  lemma ItemContextShadowsParent(parent: NavContext, itemValue: JsValue)
    requires parent.hasHandler
    ensures IsActive(ItemContextAsWritten(parent, itemValue)) <==> itemValue == Undefined
    ensures Press(ItemContextAsWritten(parent, itemValue)).Throws?
    ensures Press(ItemContext(parent, itemValue)).Calls?
  {
  }

  /** Two different items are never open together. */
  lemma AtMostOneOpen(parent: NavContext, a: JsValue, b: JsValue)
    requires a != b
    ensures !(IsActive(ItemContext(parent, a)) && IsActive(ItemContext(parent, b)))
  {
  }

  /** Pressing an item's trigger (the emitted value becoming the menu value)
      flips that item between open and closed and leaves every other item
      closed; the empty string stands for "no item". */
  lemma PressToggles(parent: NavContext, item: string, other: JsValue)
    requires parent.hasHandler && item != "" && other != Str(item) && other != Str("")
    ensures var next := parent.(value := Press(ItemContext(parent, Str(item))).value);
      && (IsActive(ItemContext(next, Str(item))) <==> !IsActive(ItemContext(parent, Str(item))))
      && !IsActive(ItemContext(next, other))
  {
  }

  /** The `NavigationMenu` root. Its trigger press is the CORRECTED one,
      through `ItemContext`. As written, a trigger inside a
      `NavigationMenuItem` reads only `{ itemValue }` and throws
      (`ItemContextShadowsParent`). */
  class NavigationMenuRoot {
    var internalValue: JsValue
    const controlled: JsValue
    const hasOnValueChange: bool

    /** `useState('')`. */
    constructor (value: JsValue, hasOnValueChange: bool)
      ensures internalValue == Str("")
      ensures controlled == value && this.hasOnValueChange == hasOnValueChange
    {
      internalValue := Str("");
      controlled := value;
      this.hasOnValueChange := hasOnValueChange;
    }

    /** `currentValue`: the `value` prop whenever it is not `undefined`. */
    function CurrentValue(): (v: JsValue)
      reads this
      ensures controlled != Undefined ==> v == controlled
      ensures controlled == Undefined ==> v == internalValue
    {
      if controlled != Undefined then controlled else internalValue
    }

    /** The context the root provides; its change handler always exists. */
    function RootContext(): NavContext
      reads this
    {
      NavContext(CurrentValue(), true, Undefined)
    }

    /** `handleValueChange`: delegates to `onValueChange` when given, else
        stores the value; never both. */
    method HandleValueChange(newValue: JsValue) returns (emitted: Option<JsValue>)
      modifies this
      ensures hasOnValueChange ==> emitted == Some(newValue) && internalValue == old(internalValue)
      ensures !hasOnValueChange ==> emitted.None? && internalValue == newValue
    {
      if hasOnValueChange {
        emitted := Some(newValue);
      } else {
        emitted := None;
        internalValue := newValue;
      }
    }

    /** A press on the trigger of item `itemValue`, reading the menu's state. */
    method PressTrigger(itemValue: JsValue) returns (emitted: Option<JsValue>)
      modifies this
      ensures var next := Press(ItemContext(old(RootContext()), itemValue)).value;
        if hasOnValueChange then emitted == Some(next) && internalValue == old(internalValue)
        else emitted.None? && internalValue == next
    {
      var press := Press(ItemContext(RootContext(), itemValue));
      emitted := HandleValueChange(press.value);
    }

    /** Whether the content of item `itemValue` renders. */
    function ContentVisible(itemValue: JsValue): bool
      reads this
    {
      IsActive(ItemContext(RootContext(), itemValue))
    }
  }

  /** An uncontrolled menu: nothing open at first; opening "a" and then "b"
      moves the open item; pressing "b" again closes everything. */
  method OpenSwitchClose() returns (atFirst: bool, aThenA: bool, bThenA: bool, bThenB: bool, closedB: bool)
    ensures !atFirst && aThenA && !bThenA && bThenB && !closedB
  {
    var menu := new NavigationMenuRoot(Undefined, false);
    atFirst := menu.ContentVisible(Str("a"));
    var _ := menu.PressTrigger(Str("a"));
    aThenA := menu.ContentVisible(Str("a"));
    var _ := menu.PressTrigger(Str("b"));
    bThenA := menu.ContentVisible(Str("a"));
    bThenB := menu.ContentVisible(Str("b"));
    var _ := menu.PressTrigger(Str("b"));
    closedB := menu.ContentVisible(Str("b"));
  }
}

=== FILE: pagination.dfy ===
/** The kit's `Pagination`: the list of page buttons and ellipses built around
    the current page, and the guard that decides whether a press is forwarded
    to `onPageChange`. Page numbers are JavaScript numbers taken as integers. */
module Pagination {
  import opened Common

  /** An entry of `pageNumbers`: a page number or one of the two ellipsis keys. */
  datatype PageEntry = Page(n: int) | Dots1 | Dots2

  function Max(a: int, b: int): int { if a < b then b else a }

  function Min(a: int, b: int): int { if a < b then a else b }

  /** The integers `lo..hi`, empty when `lo > hi`. */
  function Window(lo: int, hi: int): seq<int>
  {
    seq(if lo <= hi then hi - lo + 1 else 0, k => lo + k)
  }

  function Pages(s: seq<int>): seq<PageEntry>
  {
    seq(|s|, k requires 0 <= k < |s| => Page(s[k]))
  }

  /** The part before the window: page 1, then `dots1` when the window starts
      more than one page after it. */
  function Head(currentPage: int, delta: int): seq<PageEntry>
  {
    if currentPage - delta > 2 then [Page(1), Dots1] else [Page(1)]
  }

  /** The part after the window: `dots2` when the window ends more than one
      page before the last, then the last page. */
  function Tail(totalPages: int, currentPage: int, delta: int): seq<PageEntry>
  {
    if currentPage + delta < totalPages - 1 then [Dots2, Page(totalPages)] else [Page(totalPages)]
  }

  /** The sibling window `max(2, c - d) .. min(T - 1, c + d)`. */
  function Middle(totalPages: int, currentPage: int, delta: int): seq<PageEntry>
  {
    Pages(Window(Max(2, currentPage - delta), Min(totalPages - 1, currentPage + delta)))
  }

  /** What `generatePageNumbers` returns. */
  function Generated(totalPages: int, currentPage: int, delta: int): (r: seq<PageEntry>)
    ensures |r| >= 2 && r[0] == Page(1) && r[|r| - 1] == Page(totalPages)
  {
    Head(currentPage, delta) + Middle(totalPages, currentPage, delta) + Tail(totalPages, currentPage, delta)
  }

  /** `pageNumbers`: a single page 1 unless there is more than one page. */
  function PageNumbers(totalPages: int, currentPage: int, siblingCount: int): (r: seq<PageEntry>)
    ensures |r| >= 1 && r[0] == Page(1)
    ensures totalPages <= 1 ==> |r| == 1
  {
    if totalPages > 1 then Generated(totalPages, currentPage, siblingCount) else [Page(1)]
  }

  /** `generatePageNumbers`: the window is collected by a counting loop and
      then framed by the head and the tail. */
  method GeneratePageNumbers(totalPages: int, currentPage: int, siblingCount: int)
    returns (rangeWithDots: seq<PageEntry>)
    ensures rangeWithDots == Generated(totalPages, currentPage, siblingCount)
  {
    var delta := siblingCount;
    var range: seq<int> := [];
    var lo := Max(2, currentPage - delta);
    var hi := Min(totalPages - 1, currentPage + delta);
    var i := lo;
    while i <= hi
      invariant lo <= i <= Max(lo, hi + 1)
      invariant |range| == i - lo
      invariant forall k :: 0 <= k < |range| ==> range[k] == lo + k
      decreases hi - i
    {
      range := range + [i];
      i := i + 1;
    }
    assert |range| == |Window(lo, hi)|;
    assert range == Window(lo, hi);

    if currentPage - delta > 2 {
      rangeWithDots := [Page(1), Dots1];
    } else {
      rangeWithDots := [Page(1)];
    }
    rangeWithDots := rangeWithDots + Pages(range);
    if currentPage + delta < totalPages - 1 {
      rangeWithDots := rangeWithDots + [Dots2, Page(totalPages)];
    } else {
      rangeWithDots := rangeWithDots + [Page(totalPages)];
    }
  }

  /** The page numbers among the entries are strictly increasing. */
  predicate Ascending(r: seq<PageEntry>)
  {
    forall i, j :: 0 <= i < j < |r| && r[i].Page? && r[j].Page? ==> r[i].n < r[j].n
  }

  /** Every page number of `a` is smaller than every page number of `b`. */
  predicate Below(a: seq<PageEntry>, b: seq<PageEntry>)
  {
    forall i, j :: 0 <= i < |a| && 0 <= j < |b| && a[i].Page? && b[j].Page? ==> a[i].n < b[j].n
  }

  lemma AscendingConcat(a: seq<PageEntry>, b: seq<PageEntry>)
    requires Ascending(a) && Ascending(b) && Below(a, b)
    ensures Ascending(a + b)
  {
    var r := a + b;
    forall i, j | 0 <= i < j < |r| && r[i].Page? && r[j].Page?
      ensures r[i].n < r[j].n
    {
      if j < |a| {
        assert r[i] == a[i] && r[j] == a[j];
      } else if i < |a| {
        assert r[i] == a[i] && r[j] == b[j - |a|];
      } else {
        assert r[i] == b[i - |a|] && r[j] == b[j - |a|];
      }
    }
  }

  lemma BelowConcat(a: seq<PageEntry>, b: seq<PageEntry>, c: seq<PageEntry>)
    requires Below(a, c) && Below(b, c)
    ensures Below(a + b, c)
  {
    var r := a + b;
    forall i, j | 0 <= i < |r| && 0 <= j < |c| && r[i].Page? && c[j].Page?
      ensures r[i].n < c[j].n
    {
      if i < |a| {
        assert r[i] == a[i];
      } else {
        assert r[i] == b[i - |a|];
      }
    }
  }

  /** Every page number of `r` lies in `lo..hi`. */
  predicate InRange(r: seq<PageEntry>, lo: int, hi: int)
  {
    forall i :: 0 <= i < |r| && r[i].Page? ==> lo <= r[i].n <= hi
  }

  lemma InRangeConcat(a: seq<PageEntry>, b: seq<PageEntry>, lo: int, hi: int)
    requires InRange(a, lo, hi) && InRange(b, lo, hi)
    ensures InRange(a + b, lo, hi)
  {
    var r := a + b;
    forall i | 0 <= i < |r| && r[i].Page?
      ensures lo <= r[i].n <= hi
    {
      if i < |a| {
        assert r[i] == a[i];
      } else {
        assert r[i] == b[i - |a|];
      }
    }
  }

  /** Which pages the window lists: exactly `max(2, c - d) .. min(T - 1, c + d)`,
      in increasing order. */
  lemma MiddlePages(totalPages: int, currentPage: int, delta: int, p: int)
    ensures Page(p) in Middle(totalPages, currentPage, delta) <==>
              Max(2, currentPage - delta) <= p <= Min(totalPages - 1, currentPage + delta)
    ensures Dots1 !in Middle(totalPages, currentPage, delta)
    ensures Dots2 !in Middle(totalPages, currentPage, delta)
    ensures Ascending(Middle(totalPages, currentPage, delta))
    ensures InRange(Middle(totalPages, currentPage, delta), 2, totalPages - 1)
  {
    var lo, hi := Max(2, currentPage - delta), Min(totalPages - 1, currentPage + delta);
    var m := Middle(totalPages, currentPage, delta);
    if lo <= p <= hi {
      assert m[p - lo] == Page(p);
    }
  }

  /** The list framed by its head and tail. */
  lemma Parts(totalPages: int, currentPage: int, d: int)
    requires totalPages > 1
    ensures var h, m, t := Head(currentPage, d), Middle(totalPages, currentPage, d), Tail(totalPages, currentPage, d);
      && PageNumbers(totalPages, currentPage, d) == h + m + t
      && InRange(h, 1, 1) && InRange(t, totalPages, totalPages)
      && InRange(m, 2, totalPages - 1) && Ascending(h) && Ascending(m) && Ascending(t)
  {
    MiddlePages(totalPages, currentPage, d, 0);
  }

  /** More than one page: the list runs from page 1 to the last page, and its
      page numbers strictly increase and lie between the two. */
  lemma PageListOrdered(totalPages: int, currentPage: int, siblingCount: int)
    requires totalPages > 1
    ensures var r := PageNumbers(totalPages, currentPage, siblingCount);
      && |r| >= 2 && r[0] == Page(1) && r[|r| - 1] == Page(totalPages)
      && Ascending(r)
      && InRange(r, 1, totalPages)
  {
    var d := siblingCount;
    var h, m, t := Head(currentPage, d), Middle(totalPages, currentPage, d), Tail(totalPages, currentPage, d);
    Parts(totalPages, currentPage, d);
    assert Below(h, m) && Below(h, t) && Below(m, t);
    AscendingConcat(h, m);
    BelowConcat(h, m, t);
    AscendingConcat(h + m, t);
    assert InRange(h, 1, totalPages) && InRange(m, 1, totalPages) && InRange(t, 1, totalPages);
    InRangeConcat(h, m, 1, totalPages);
    InRangeConcat(h + m, t, 1, totalPages);
  }

  /** More than one page: apart from the two ends the list holds exactly the
      sibling window. */
  lemma PageListMembers(totalPages: int, currentPage: int, siblingCount: int, p: int)
    requires totalPages > 1
    ensures Page(p) in PageNumbers(totalPages, currentPage, siblingCount) <==>
              p == 1 || p == totalPages ||
              Max(2, currentPage - siblingCount) <= p <= Min(totalPages - 1, currentPage + siblingCount)
  {
    var d := siblingCount;
    var h, m, t := Head(currentPage, d), Middle(totalPages, currentPage, d), Tail(totalPages, currentPage, d);
    Parts(totalPages, currentPage, d);
    MiddlePages(totalPages, currentPage, d, p);
    assert Page(p) in h + m + t <==> Page(p) in h || Page(p) in m || Page(p) in t;
  }

  /** More than one page: `dots1` appears iff the window starts after page 3,
      and then only at position 1; `dots2` appears iff the window ends before
      page T - 2, and then only second to last. */
  lemma EllipsisPlacement(totalPages: int, currentPage: int, siblingCount: int)
    requires totalPages > 1
    ensures var r := PageNumbers(totalPages, currentPage, siblingCount);
      && (Dots1 in r <==> currentPage - siblingCount > 2)
      && (Dots1 in r ==> r[1] == Dots1 && forall i :: 0 <= i < |r| && i != 1 ==> r[i] != Dots1)
      && (Dots2 in r <==> currentPage + siblingCount < totalPages - 1)
      && (Dots2 in r ==> r[|r| - 2] == Dots2 && forall i :: 0 <= i < |r| && i != |r| - 2 ==> r[i] != Dots2)
  {
    var d := siblingCount;
    var h, m, t := Head(currentPage, d), Middle(totalPages, currentPage, d), Tail(totalPages, currentPage, d);
    var r := PageNumbers(totalPages, currentPage, d);
    Parts(totalPages, currentPage, d);
    MiddlePages(totalPages, currentPage, d, 0);
    assert r == h + m + t;
    forall i | 0 <= i < |r|
      ensures i != 1 ==> r[i] != Dots1
      ensures i != |r| - 2 ==> r[i] != Dots2
    {
      if i < |h| {
        assert r[i] == h[i];
      } else if i < |h| + |m| {
        assert r[i] == m[i - |h|] && m[i - |h|] in m;
      } else {
        assert r[i] == t[i - |h| - |m|];
      }
    }
    assert Dots1 in r <==> Dots1 in h || Dots1 in m || Dots1 in t;
    assert Dots2 in r <==> Dots2 in h || Dots2 in m || Dots2 in t;
    if currentPage - d > 2 {
      assert r[1] == h[1];
    }
    if currentPage + d < totalPages - 1 {
      assert r[|r| - 2] == t[0];
    }
  }

  /** With a current page among the pages and a non-negative sibling count,
      the current page is listed and the list has at most 2d + 5 entries. */
  lemma CurrentPageListed(totalPages: int, currentPage: int, siblingCount: int)
    requires 1 <= currentPage <= totalPages && siblingCount >= 0
    ensures Page(currentPage) in PageNumbers(totalPages, currentPage, siblingCount)
    ensures |PageNumbers(totalPages, currentPage, siblingCount)| <= 2 * siblingCount + 5
  {
    if totalPages > 1 {
      PageListMembers(totalPages, currentPage, siblingCount, currentPage);
    }
  }

  /** A single page, or none: the list is just page 1. */
  lemma SinglePage(totalPages: int, currentPage: int, siblingCount: int)
    requires totalPages <= 1
    ensures PageNumbers(totalPages, currentPage, siblingCount) == [Page(1)]
  {
  }

  /** `handlePageChange`: the page handed to `onPageChange`, if any. */
  function HandlePageChange(totalPages: int, currentPage: int, page: int): (emitted: Option<int>)
    ensures emitted.Some? ==> emitted.value == page
  {
    if page >= 1 && page <= totalPages && page != currentPage then Some(page) else None
  }

  /** Previous is disabled on the first page, Next on the last. */
  predicate PrevDisabled(currentPage: int)
    ensures PrevDisabled(currentPage) ==> currentPage - 1 < 1
  {
    currentPage == 1
  }

  predicate NextDisabled(totalPages: int, currentPage: int)
    ensures NextDisabled(totalPages, currentPage) ==> currentPage + 1 > totalPages
  {
    currentPage == totalPages
  }

  /** A press on Previous: ignored while disabled, else a request for the page before. */
  function PressPrev(totalPages: int, currentPage: int): (r: Option<int>)
    ensures r.Some? ==> r.value == currentPage - 1 && 1 <= r.value <= totalPages
  {
    if PrevDisabled(currentPage) then None else HandlePageChange(totalPages, currentPage, currentPage - 1)
  }

  /** A press on Next: ignored while disabled, else a request for the page after. */
  function PressNext(totalPages: int, currentPage: int): (r: Option<int>)
    ensures r.Some? ==> r.value == currentPage + 1 && 1 <= r.value <= totalPages
  {
    if NextDisabled(totalPages, currentPage) then None else HandlePageChange(totalPages, currentPage, currentPage + 1)
  }

  /** A press is forwarded exactly for another page within `1..T`; on a
      current page within range, Previous and Next move by one page and are
      silent exactly when disabled, and every listed page button other than
      the current one forwards its own number. */
  lemma PageChangeRules(totalPages: int, currentPage: int, page: int, siblingCount: int)
    ensures HandlePageChange(totalPages, currentPage, page).Some? <==>
              1 <= page <= totalPages && page != currentPage
    ensures 1 <= currentPage <= totalPages ==>
              (PressPrev(totalPages, currentPage) == Some(currentPage - 1) <==> !PrevDisabled(currentPage)) &&
              (PressPrev(totalPages, currentPage).None? <==> PrevDisabled(currentPage))
    ensures 1 <= currentPage <= totalPages ==>
              (PressNext(totalPages, currentPage) == Some(currentPage + 1) <==> !NextDisabled(totalPages, currentPage)) &&
              (PressNext(totalPages, currentPage).None? <==> NextDisabled(totalPages, currentPage))
    ensures totalPages >= 1 && Page(page) in PageNumbers(totalPages, currentPage, siblingCount) ==>
              (HandlePageChange(totalPages, currentPage, page) == Some(page) <==> page != currentPage)
  {
    if totalPages > 1 {
      PageListOrdered(totalPages, currentPage, siblingCount);
      if Page(page) in PageNumbers(totalPages, currentPage, siblingCount) {
        var r := PageNumbers(totalPages, currentPage, siblingCount);
        var i :| 0 <= i < |r| && r[i] == Page(page);
        assert 1 <= r[i].n <= totalPages;
      }
    }
  }
}

=== FILE: professional_identity.dfy ===
/** `ProfessionalIdentityScreen`: the fixed list of professional licences,
    the header statistics counted over it, and what each card shows. */
module ProfessionalIdentity {
  import opened Common

  /** One licence card. `lastUpdated` is `None` for `null`. */
  datatype Profession = Profession(id: string, title: string, verified: bool, lastUpdated: Option<string>)

  /** The screen's hard-coded list: nothing is verified or dated yet. */
  function Professions(): seq<Profession>
  {
    [ Profession("doctor", "Doctor License", false, None),
      Profession("nurse", "Nurse License", false, None),
      Profession("icai", "CA Certificate", false, None) ]
  }

  /** `professions.filter(prof => prof.verified === wanted).length`. */
  function CountVerified(ps: seq<Profession>, wanted: bool): (n: nat)
    ensures n <= |ps|
  {
    if ps == [] then 0
    else (if ps[0].verified == wanted then 1 else 0) + CountVerified(ps[1..], wanted)
  }

  datatype Stats = Stats(total: nat, verified: nat, pending: nat)

  /** The header statistics. */
  function ComputeStats(ps: seq<Profession>): (s: Stats)
    ensures s.total == |ps|
    ensures s.verified <= s.total && s.pending <= s.total
  {
    Stats(|ps|, CountVerified(ps, true), CountVerified(ps, false))
  }

  /** Every entry is counted exactly once: verified plus pending is the total. */
  lemma {:induction false} StatsAddUp(ps: seq<Profession>)
    ensures ComputeStats(ps).verified + ComputeStats(ps).pending == ComputeStats(ps).total
  {
    if ps != [] {
      StatsAddUp(ps[1..]);
    }
  }

  /** Counting distributes over concatenation. */
  lemma {:induction false} CountAppend(a: seq<Profession>, b: seq<Profession>, wanted: bool)
    ensures CountVerified(a + b, wanted) == CountVerified(a, wanted) + CountVerified(b, wanted)
  {
    if a == [] {
      assert a + b == b;
    } else {
      assert (a + b)[1..] == a[1..] + b;
      CountAppend(a[1..], b, wanted);
    }
  }

  /** Verifying one more licence moves it from pending to verified and
      leaves the total alone. */
  lemma VerifyingMovesOne(before: seq<Profession>, p: Profession, after: seq<Profession>)
    requires !p.verified
    ensures var s0 := ComputeStats(before + [p] + after);
      var s1 := ComputeStats(before + [p.(verified := true)] + after);
      s1.total == s0.total && s1.verified == s0.verified + 1 && s1.pending + 1 == s0.pending
  {
    CountAppend(before + [p], after, true);
    CountAppend(before + [p], after, false);
    CountAppend(before, [p], true);
    CountAppend(before, [p], false);
    CountAppend(before + [p.(verified := true)], after, true);
    CountAppend(before + [p.(verified := true)], after, false);
    CountAppend(before, [p.(verified := true)], true);
    CountAppend(before, [p.(verified := true)], false);
  }

  /** On the fixture the header reads 3 in total, 0 verified, 3 pending. */
  lemma FixtureStats()
    ensures ComputeStats(Professions()) == Stats(3, 0, 3)
  {
  }

  /** The status line of a card. */
  function StatusText(p: Profession): (text: string)
    ensures text == "Verified" <==> p.verified
    ensures !p.verified ==> text == "Not Verified"
  {
    if p.verified then "Verified" else "Not Verified"
  }

  /** The "Updated:" line, shown only for a truthy `lastUpdated`. */
  function LastUpdatedLine(p: Profession): (line: Option<string>)
    ensures line.Some? <==> p.lastUpdated.Some? && p.lastUpdated.value != ""
    ensures line.Some? ==> line.value == "Updated: " + p.lastUpdated.value
  {
    if p.lastUpdated.Some? && p.lastUpdated.value != "" then Some("Updated: " + p.lastUpdated.value) else None
  }

  /** Pressing a card hands its id to `onNavigate`, so the three fixture
      cards lead to three different places, and none of
      them shows an "Updated:" line or reads as verified. */
  lemma FixtureCards()
    ensures forall i, j :: 0 <= i < j < |Professions()| ==> Professions()[i].id != Professions()[j].id
    ensures forall i :: 0 <= i < |Professions()| ==>
              LastUpdatedLine(Professions()[i]).None? && StatusText(Professions()[i]) == "Not Verified"
  {
  }
}

=== FILE: radio_group.dfy ===
/** The kit's `RadioGroup`: a stateless group; each item is checked when the
    group value equals its own, and a press hands its value to
    `onValueChange`. */
module RadioGroup {
  import opened Common

  /** `isChecked`. */
  predicate IsChecked(groupValue: JsValue, value: JsValue)
    ensures IsChecked(groupValue, value) ==> HandlePress(false, false, true, value) == Some(groupValue)
  {
    groupValue == value
  }

  /** `isDisabled`. */
  predicate IsDisabled(groupDisabled: bool, itemDisabled: bool)
    ensures groupDisabled ==> IsDisabled(groupDisabled, itemDisabled)
  {
    groupDisabled || itemDisabled
  }

  /** `handlePress`: the value handed to `onValueChange`, if any. */
  function HandlePress(groupDisabled: bool, itemDisabled: bool, hasOnValueChange: bool, value: JsValue): (r: Option<JsValue>)
    ensures r.Some? <==> !groupDisabled && !itemDisabled && hasOnValueChange
    ensures r.Some? ==> r.value == value
  {
    if !IsDisabled(groupDisabled, itemDisabled) && hasOnValueChange then Some(value) else None
  }

  /** Once the group takes on what a press emits, the pressed item is
      checked and every item with another value is not; pressing the checked
      item emits its value again, so there is no way to clear the group. */
  lemma PressChecks(groupValue: JsValue, value: JsValue, other: JsValue)
    requires other != value
    ensures var r := HandlePress(false, false, true, value);
      && IsChecked(r.value, value) && !IsChecked(r.value, other)
    ensures IsChecked(groupValue, value) ==> HandlePress(false, false, true, value) == Some(groupValue)
  {
  }
}

=== FILE: select.dfy ===
/** The kit's `Select`: the root holds only the open flag; the selected
    value is the `value` prop, and items hand their value to
    `onValueChange`. Also the texts the trigger and `SelectValue` show. */
module Select {
  import opened Common

  /** JavaScript truthiness of a string slot: a non-empty string. */
  predicate Truthy(v: JsValue)
  {
    v.Str? && v.s != ""
  }

  /** The trigger's text, `children || placeholder || 'Select...'`; the
      selected value plays no part in it. */
  function TriggerText(children: JsValue, placeholder: JsValue): (text: string)
    ensures text != ""
    ensures Truthy(children) ==> text == children.s
    ensures !Truthy(children) && Truthy(placeholder) ==> text == placeholder.s
    ensures !Truthy(children) && !Truthy(placeholder) ==> text == "Select..."
  {
    if Truthy(children) then children.s
    else if Truthy(placeholder) then placeholder.s
    else "Select..."
  }

  /** The text of `SelectValue`, `value || placeholder`, which may itself be
      empty or absent. */
  function ValueText(value: JsValue, placeholder: JsValue): (shown: JsValue)
    ensures Truthy(value) ==> shown == value
    ensures !Truthy(value) ==> shown == placeholder
  {
    if Truthy(value) then value else placeholder
  }

  /** The `Select` root: its open flag and the props its parts read. */
  class SelectRoot {
    var isOpen: bool
    const value: JsValue
    const disabled: bool
    const hasOnValueChange: bool

    /** `useState(false)`. */
    constructor (value: JsValue, disabled: bool, hasOnValueChange: bool)
      ensures !isOpen
      ensures this.value == value && this.disabled == disabled && this.hasOnValueChange == hasOnValueChange
    {
      isOpen := false;
      this.value := value;
      this.disabled := disabled;
      this.hasOnValueChange := hasOnValueChange;
    }

    /** An item is marked selected iff the `value` prop equals its value. */
    function IsItemSelected(itemValue: JsValue): bool
      reads this
    {
      value == itemValue
    }

    /** `SelectTrigger.handlePress`: opens the list unless disabled. */
    method PressTrigger()
      modifies this
      ensures isOpen == (old(isOpen) || !disabled)
    {
      if !disabled {
        isOpen := true;
      }
    }

    /** A close request of the list's modal, or a press on its overlay. */
    method Dismiss()
      modifies this
      ensures !isOpen
    {
      isOpen := false;
    }

    /** `SelectItem.handleSelect`: a disabled item does nothing; otherwise
        its value goes to `onValueChange` (when given) and the list closes. */
    method SelectItem(itemValue: JsValue, itemDisabled: bool) returns (emitted: Option<JsValue>)
      modifies this
      ensures emitted.Some? <==> !itemDisabled && hasOnValueChange
      ensures emitted.Some? ==> emitted.value == itemValue
      ensures itemDisabled ==> isOpen == old(isOpen)
      ensures !itemDisabled ==> !isOpen
    {
      emitted := None;
      if !itemDisabled {
        if hasOnValueChange {
          emitted := Some(itemValue);
        }
        isOpen := false;
      }
    }
  }

  /** A disabled select never opens from its trigger; an enabled one opens,
      and choosing an item reports it and closes. The item's mark follows
      the prop, not the choice: the root keeps no selected value. */
  method OpenAndChoose() returns (disabledOpen: bool, enabledOpen: bool, emitted: Option<JsValue>,
                                  closed: bool, markedAfter: bool)
    ensures !disabledOpen && enabledOpen && closed
    ensures emitted == Some(Str("apple")) && !markedAfter
  {
    var off := new SelectRoot(Undefined, true, true);
    off.PressTrigger();
    disabledOpen := off.isOpen;
    var on := new SelectRoot(Str("pear"), false, true);
    on.PressTrigger();
    enabledOpen := on.isOpen;
    emitted := on.SelectItem(Str("apple"), false);
    closed := !on.isOpen;
    markedAfter := on.IsItemSelected(Str("apple"));
  }
}

=== FILE: sidebar.dfy ===
/** The kit's `SidebarProvider` and `useSidebar`: an open flag (controlled by
    `open` or internal, starting at `defaultOpen`), the values derived from
    it for the context, and the toggle that asks for the opposite. */
module Sidebar {
  import opened Common

  /** The context value the provider hands down. */
  datatype SidebarState = SidebarState(state: string, open: bool, isMobile: bool, openMobile: bool)

  /** What `useSidebar` reads: the provider's value, the default `{}` outside
      any provider, or a falsy value, which no code here provides. */
  datatype SidebarContext = Provided(value: SidebarState) | EmptyObject | Falsy

  /** `useSidebar`: throws only for a falsy context and otherwise returns it. */
  function UseSidebar(ctx: SidebarContext): (r: Call<SidebarContext>)
    ensures r.Throws? <==> ctx.Falsy?
    ensures r.Calls? ==> r.value == ctx
  {
    if ctx.Falsy? then Throws else Calls(ctx)
  }

  /** Outside a provider the hook hands back the empty default instead of
      throwing, so its guard never fires for any context this code creates. */
  lemma UseSidebarOutsideProvider(state: SidebarState)
    ensures UseSidebar(EmptyObject) == Calls(EmptyObject)
    ensures UseSidebar(Provided(state)) == Calls(Provided(state))
  {
  }

  /** The `SidebarProvider` and its state. */
  class SidebarProvider {
    var internalOpen: bool
    const isMobile: bool
    const controlled: Option<bool>
    const hasOnOpenChange: bool

    ghost predicate Valid()
      reads this
    {
      !isMobile
    }

    /** `useState(defaultOpen)` (true when the prop is absent) and
        `useState(false)`, whose setter is never called. */
    constructor (defaultOpen: Option<bool>, open: Option<bool>, hasOnOpenChange: bool)
      ensures Valid()
      ensures internalOpen == (defaultOpen != Some(false))
      ensures controlled == open && this.hasOnOpenChange == hasOnOpenChange
    {
      internalOpen := defaultOpen != Some(false);
      isMobile := false;
      controlled := open;
      this.hasOnOpenChange := hasOnOpenChange;
    }

    /** `isOpen`: the `open` prop whenever it is defined. */
    function IsOpen(): bool
      reads this
    {
      if controlled.Some? then controlled.value else internalOpen
    }

    /** The provided context value. */
    function Value(): (v: SidebarState)
      reads this
      ensures v.open == IsOpen()
      ensures v.state == "expanded" <==> v.open
      ensures v.state == "expanded" || v.state == "collapsed"
      ensures Valid() ==> !v.openMobile
    {
      SidebarState(if IsOpen() then "expanded" else "collapsed", IsOpen(), isMobile, IsOpen() && isMobile)
    }

    /** `handleOpenChange` (also exposed as `setOpenMobile`). */
    method HandleOpenChange(newOpen: bool) returns (emitted: Option<bool>)
      modifies this
      ensures hasOnOpenChange ==> emitted == Some(newOpen) && internalOpen == old(internalOpen)
      ensures !hasOnOpenChange ==> emitted.None? && internalOpen == newOpen
    {
      if hasOnOpenChange {
        emitted := Some(newOpen);
      } else {
        emitted := None;
        internalOpen := newOpen;
      }
    }

    /** `toggleSidebar`: asks for the opposite of the shown state. */
    method ToggleSidebar() returns (emitted: Option<bool>)
      requires Valid()
      modifies this
      ensures Valid()
      ensures hasOnOpenChange ==> emitted == Some(!old(IsOpen())) && internalOpen == old(internalOpen)
      ensures !hasOnOpenChange ==> emitted.None? && internalOpen == !old(IsOpen())
      ensures !hasOnOpenChange && controlled.None? ==> Value().state != old(Value()).state
    {
      emitted := HandleOpenChange(!IsOpen());
    }
  }

  /** A provider with no props starts expanded; toggling collapses it and
      toggling again expands it; it is never open on mobile. */
  method ToggleTwice() returns (initial: string, afterOne: string, afterTwo: string, mobile: bool)
    ensures initial == "expanded" && afterOne == "collapsed" && afterTwo == "expanded"
    ensures !mobile
  {
    var p := new SidebarProvider(None, None, false);
    initial := p.Value().state;
    var _ := p.ToggleSidebar();
    afterOne := p.Value().state;
    var _ := p.ToggleSidebar();
    afterTwo := p.Value().state;
    mobile := p.Value().openMobile;
  }
}

=== FILE: sonner.dfy ===
/** The kit's toast system: a provider holding the list of visible toasts,
    a module-wide id counter shared by every provider, the timers that remove
    toasts again, and the `toast()` option builder with its typed helpers. */
module Sonner {
  import opened Common

  /** A toast options object. Each field is `None` when the key is absent. */
  datatype ToastOptions = ToastOptions(
    id: Option<int>, title: Option<string>, description: Option<string>,
    kind: Option<string>, duration: Option<int>)

  const NoOptions := ToastOptions(None, None, None, None, None)

  /** `{ ...base, ...over }`: every key present in `over` wins. */
  function Spread(base: ToastOptions, over: ToastOptions): (r: ToastOptions)
    ensures over.id.Some? ==> r.id == over.id
    ensures over.id.None? ==> r.id == base.id
  {
    ToastOptions(
      if over.id.Some? then over.id else base.id,
      if over.title.Some? then over.title else base.title,
      if over.description.Some? then over.description else base.description,
      if over.kind.Some? then over.kind else base.kind,
      if over.duration.Some? then over.duration else base.duration)
  }

  /** A toast in the provider's list: `{ id, ...toast }`. */
  function Stored(generated: int, t: ToastOptions): (r: ToastOptions)
    ensures r.id.Some?
    ensures r.id == (if t.id.Some? then t.id else Some(generated))
    ensures r.(id := t.id) == t
  {
    Spread(NoOptions.(id := Some(generated)), t)
  }

  /** `toast.duration || 4000`: the delay of the removal timer. */
  function Delay(duration: Option<int>): (ms: int)
    ensures duration.Some? && duration.value != 0 ==> ms == duration.value
    ensures duration.None? ==> ms == 4000
  {
    if duration.None? || duration == Some(0) then 4000 else duration.value
  }

  /** A pending removal timer: `removeToast(id)` after `delay` milliseconds. */
  datatype Removal = Removal(id: int, delay: int)

  /** `prev.filter(toast => toast.id !== id)`. */
  function WithoutId(toasts: seq<ToastOptions>, id: int): (r: seq<ToastOptions>)
    ensures |r| <= |toasts|
    ensures forall t :: t in r ==> t in toasts && t.id != Some(id)
  {
    if toasts == [] then []
    else if toasts[0].id == Some(id) then WithoutId(toasts[1..], id)
    else [toasts[0]] + WithoutId(toasts[1..], id)
  }

  /** Removal keeps every toast with another id. */
  lemma {:induction false} WithoutIdKeeps(toasts: seq<ToastOptions>, id: int, t: ToastOptions)
    ensures t in WithoutId(toasts, id) <==> t in toasts && t.id != Some(id)
  {
    if toasts != [] {
      WithoutIdKeeps(toasts[1..], id, t);
      assert toasts == [toasts[0]] + toasts[1..];
    }
  }

  /** Removal distributes over concatenation, so the survivors keep their order. */
  lemma {:induction false} WithoutIdAppend(a: seq<ToastOptions>, b: seq<ToastOptions>, id: int)
    ensures WithoutId(a + b, id) == WithoutId(a, id) + WithoutId(b, id)
  {
    if a == [] {
      assert a + b == b;
    } else {
      assert (a + b)[1..] == a[1..] + b;
      WithoutIdAppend(a[1..], b, id);
    }
  }

  /** Removing an id no toast carries changes nothing. */
  lemma {:induction false} WithoutIdAbsent(toasts: seq<ToastOptions>, id: int)
    requires forall t :: t in toasts ==> t.id != Some(id)
    ensures WithoutId(toasts, id) == toasts
  {
    if toasts != [] {
      WithoutIdAbsent(toasts[1..], id);
    }
  }

  /** The module-level `toastId` counter, shared by all providers. */
  class ToastCounter {
    var next: nat

    constructor ()
      ensures next == 0
    {
      next := 0;
    }
  }

  /** `ToastProvider`: the `toasts` state and the removal timers it scheduled. */
  class ToastProvider {
    var toasts: seq<ToastOptions>
    var scheduled: seq<Removal>

    constructor ()
      ensures toasts == [] && scheduled == []
    {
      toasts := [];
      scheduled := [];
    }

    /** Every scheduled removal targets an id the counter has already issued. */
    ghost predicate Valid(counter: ToastCounter)
      reads this, counter
    {
      forall k :: 0 <= k < |scheduled| ==> scheduled[k].id < counter.next
    }

    /** `addToast`: takes the next id from the counter, appends the toast and,
        unless its duration is 0, schedules its removal by the generated id.
        The generated id is returned even when the options carry their own. */
    method AddToast(counter: ToastCounter, t: ToastOptions) returns (id: int)
      requires Valid(counter)
      modifies this, counter
      ensures Valid(counter)
      ensures id == old(counter.next) && counter.next == id + 1
      ensures toasts == old(toasts) + [Stored(id, t)]
      ensures scheduled == old(scheduled) + (if t.duration != Some(0) then [Removal(id, Delay(t.duration))] else [])
      ensures forall k :: 0 <= k < |old(scheduled)| ==> old(scheduled)[k].id != id
    {
      id := counter.next;
      counter.next := counter.next + 1;
      toasts := toasts + [Stored(id, t)];
      if t.duration != Some(0) {
        scheduled := scheduled + [Removal(id, Delay(t.duration))];
      }
    }

    /** `removeToast`: every toast with that id goes, the others stay in order. */
    method RemoveToast(id: int)
      modifies this
      ensures toasts == WithoutId(old(toasts), id) && scheduled == old(scheduled)
    {
      toasts := WithoutId(toasts, id);
    }

    /** `clearToasts`: the list becomes empty; scheduled timers stay pending. */
    method ClearToasts()
      modifies this
      ensures toasts == [] && scheduled == old(scheduled)
    {
      toasts := [];
    }

    /** The `k`-th pending removal timer fires. */
    method RemovalFires(counter: ToastCounter, k: nat)
      requires Valid(counter) && k < |scheduled|
      modifies this
      ensures Valid(counter)
      ensures toasts == WithoutId(old(toasts), old(scheduled)[k].id)
      ensures scheduled == old(scheduled)[..k] + old(scheduled)[k + 1..]
    {
      var r := scheduled[k];
      scheduled := scheduled[..k] + scheduled[k + 1..];
      RemoveToast(r.id);
    }
  }

  /** Two toasts in a row get strictly increasing ids, and the second is
      appended after the first. */
  method AddTwice(provider: ToastProvider, counter: ToastCounter, a: ToastOptions, b: ToastOptions)
    returns (first: int, second: int)
    requires provider.Valid(counter)
    modifies provider, counter
    ensures first < second
    ensures provider.toasts == old(provider.toasts) + [Stored(first, a), Stored(second, b)]
  {
    first := provider.AddToast(counter, a);
    second := provider.AddToast(counter, b);
  }

  /** A toast whose options carry an id other than the generated one is not
      removed by its own timer: the timer removes by the generated id. */
  lemma OverriddenIdSurvivesTimer(toasts: seq<ToastOptions>, generated: int, t: ToastOptions)
    requires t.id.Some? && t.id != Some(generated)
    ensures Stored(generated, t) in WithoutId(toasts + [Stored(generated, t)], generated)
  {
    WithoutIdKeeps(toasts + [Stored(generated, t)], generated, Stored(generated, t));
  }

  /** A toast with its generated id is removed by its own timer, and no
      other toast is touched when no other toast carries that id. */
  lemma OwnTimerRemoves(toasts: seq<ToastOptions>, generated: int, t: ToastOptions)
    requires t.id.None?
    requires forall u :: u in toasts ==> u.id != Some(generated)
    ensures WithoutId(toasts + [Stored(generated, t)], generated) == toasts
  {
    WithoutIdAppend(toasts, [Stored(generated, t)], generated);
    WithoutIdAbsent(toasts, generated);
  }

  /** The `message` argument of `toast()`: a string or an options object. */
  datatype Message = Text(s: string) | Object(options: ToastOptions)

  /** `toast(message, options)`. */
  function MakeToast(message: Message, options: ToastOptions): (t: ToastOptions)
    ensures message.Text? ==> t.title.Some?
    ensures message.Text? ==> t.kind == options.kind && t.id == options.id && t.duration == options.duration
  {
    match message
    case Text(s) => Spread(NoOptions.(title := Some(s)), options)
    case Object(o) => o
  }

  /** `toast.success` and its siblings: the type is forced into the options. */
  function Typed(kind: string, message: Message, options: ToastOptions): (t: ToastOptions)
    ensures message.Text? ==> t.kind == Some(kind)
  {
    MakeToast(message, options.(kind := Some(kind)))
  }

  /** A string message becomes the title unless the options carry their own;
      the other keys come from the options. An object message is returned as
      it is and the options are ignored. */
  lemma MakeToastRules(message: Message, options: ToastOptions)
    ensures message.Text? ==>
              MakeToast(message, options).title == (if options.title.Some? then options.title else Some(message.s)) &&
              MakeToast(message, options).(title := options.title) == options
    ensures message.Object? ==> MakeToast(message, options) == message.options
  {
  }

  /** The typed helpers set the type of a string message, whatever the
      options said; for an object message the forced type is lost. */
  lemma TypedHelpers(kind: string, message: Message, options: ToastOptions)
    ensures message.Text? ==> Typed(kind, message, options).kind == Some(kind)
    ensures message.Object? ==> Typed(kind, message, options).kind == message.options.kind
  {
  }

  /** `getBackgroundColor`: a colour per known type, white otherwise. */
  function BackgroundColor(kind: Option<string>): (color: string)
    ensures color == "#ffffff" <==>
              kind !in {Some("success"), Some("error"), Some("warning"), Some("info")}
  {
    if kind == Some("success") then "#F0FDF4"
    else if kind == Some("error") then "#FEF2F2"
    else if kind == Some("warning") then "#FFFBEB"
    else if kind == Some("info") then "#EFF6FF"
    else "#ffffff"
  }

  /** `getIcon`: the icon colour per known type, no icon otherwise. */
  function IconColor(kind: Option<string>): (color: Option<string>)
    ensures color.None? <==> BackgroundColor(kind) == "#ffffff"
  {
    if kind == Some("success") then Some("#10B981")
    else if kind == Some("error") then Some("#EF4444")
    else if kind == Some("warning") then Some("#F59E0B")
    else if kind == Some("info") then Some("#3B82F6")
    else None
  }
}

=== FILE: tabs.dfy ===
/** The kit's `Tabs`: the selected tab is the `value` prop unless it is
    null or undefined, else the internal value that starts at `defaultValue`;
    a trigger always hands its value on, and a content panel renders only
    for the selected value. */
module Tabs {
  import opened Common

  /** `value ?? internalValue`: both `null` and `undefined` fall back. */
  function Coalesce(value: JsValue, internal: JsValue): (r: JsValue)
    ensures value.Str? ==> r == value
    ensures value == Null || value == Undefined ==> r == internal
  {
    if value.Str? then value else internal
  }

  /** The `Tabs` root. */
  class TabsRoot {
    var internalValue: JsValue
    const controlled: JsValue
    const hasOnValueChange: bool

    /** `useState(defaultValue)`. */
    constructor (defaultValue: JsValue, value: JsValue, hasOnValueChange: bool)
      ensures internalValue == defaultValue
      ensures controlled == value && this.hasOnValueChange == hasOnValueChange
    {
      internalValue := defaultValue;
      controlled := value;
      this.hasOnValueChange := hasOnValueChange;
    }

    function CurrentValue(): JsValue
      reads this
    {
      Coalesce(controlled, internalValue)
    }

    /** `isSelected` of a trigger, and whether a content panel renders. */
    function IsSelected(value: JsValue): (selected: bool)
      reads this
      ensures controlled.Str? ==> (selected <==> value == controlled)
      ensures !controlled.Str? ==> (selected <==> value == internalValue)
    {
      CurrentValue() == value
    }

    /** `handleValueChange`: delegates to `onValueChange` or stores the value,
        never both. */
    method HandleValueChange(newValue: JsValue) returns (emitted: Option<JsValue>)
      modifies this
      ensures hasOnValueChange ==> emitted == Some(newValue) && internalValue == old(internalValue)
      ensures !hasOnValueChange ==> emitted.None? && internalValue == newValue
    {
      if hasOnValueChange {
        emitted := Some(newValue);
      } else {
        emitted := None;
        internalValue := newValue;
      }
    }

    /** A trigger press hands on the trigger's value, selected or not. */
    method PressTrigger(value: JsValue) returns (emitted: Option<JsValue>)
      modifies this
      ensures hasOnValueChange ==> emitted == Some(value) && internalValue == old(internalValue)
      ensures !hasOnValueChange ==> emitted.None? && internalValue == value
      ensures !hasOnValueChange && !controlled.Str? ==> IsSelected(value)
    {
      emitted := HandleValueChange(value);
    }
  }

  /** Only the selected panel renders: two different tab values are never
      both selected. */
  lemma OnePanelVisible(tabs: TabsRoot, a: JsValue, b: JsValue)
    requires a != b
    ensures !(tabs.IsSelected(a) && tabs.IsSelected(b))
  {
  }

  /** Uncontrolled tabs start on `defaultValue` and follow the presses;
      pressing the selected tab keeps it selected; a `null` prop behaves as
      no prop at all. */
  method SwitchTabs() returns (startAccount: bool, thenPassword: bool, thenAccount: bool,
                               againPassword: bool, nullProp: bool)
    ensures startAccount && thenPassword && !thenAccount && againPassword && nullProp
  {
    var tabs := new TabsRoot(Str("account"), Undefined, false);
    startAccount := tabs.IsSelected(Str("account"));
    var _ := tabs.PressTrigger(Str("password"));
    thenPassword := tabs.IsSelected(Str("password"));
    thenAccount := tabs.IsSelected(Str("account"));
    var _ := tabs.PressTrigger(Str("password"));
    againPassword := tabs.IsSelected(Str("password"));
    var nulled := new TabsRoot(Str("account"), Null, false);
    nullProp := nulled.IsSelected(Str("account"));
  }

  /** A controlled `value` decides the selection; presses only reach the
      handler, even a press on the selected tab. */
  method ControlledTabs() returns (emitted: Option<JsValue>, stillAccount: bool)
    ensures emitted == Some(Str("account")) && stillAccount
  {
    var tabs := new TabsRoot(Str("password"), Str("account"), true);
    emitted := tabs.PressTrigger(Str("account"));
    stillAccount := tabs.IsSelected(Str("account"));
  }
}

=== FILE: toggle.dfy ===
/** The kit's `Toggle`: a pressed flag that is the `pressed` prop when it is
    defined and an internal flag (false at first) otherwise, a press handler
    that flips it or reports the flip, and the size table. */
module Toggle {
  import opened Common

  /** The box of a size: horizontal and vertical padding and minimum height. */
  datatype SizeStyle = SizeStyle(paddingHorizontal: int, paddingVertical: int, minHeight: int)

  /** `getSizeStyles`: 'sm' and 'lg' have their own box; every other size,
      unknown ones included, gets the default box. */
  function SizeStyles(size: string): (r: SizeStyle)
    ensures size != "sm" && size != "lg" ==> r == SizeStyle(12, 8, 36)
    ensures size == "sm" ==> r == SizeStyle(8, 6, 32)
    ensures size == "lg" ==> r == SizeStyle(16, 12, 44)
  {
    match size
    case "sm" => SizeStyle(8, 6, 32)
    case "lg" => SizeStyle(16, 12, 44)
    case _ => SizeStyle(12, 8, 36)
  }

  /** The label's font size. */
  function FontSize(size: string): (r: int)
    ensures size != "sm" && size != "lg" ==> r == 14
    ensures size == "sm" ==> r == 12
    ensures size == "lg" ==> r == 16
  {
    if size == "sm" then 12 else if size == "lg" then 16 else 14
  }

  /** Bigger sizes get a bigger box and a bigger font, and the order of the
      three boxes matches the order of the font sizes. */
  lemma SizesAreOrdered(size: string)
    ensures SizeStyles("sm").minHeight < SizeStyles(size).minHeight <==> FontSize("sm") < FontSize(size)
    ensures SizeStyles(size).minHeight < SizeStyles("lg").minHeight <==> FontSize(size) < FontSize("lg")
  {
  }

  /** The `Toggle` and its internal pressed flag. */
  class ToggleButton {
    var internalPressed: bool
    const controlled: Option<bool>
    const disabled: bool
    const hasOnPressedChange: bool

    /** `useState(false)`. */
    constructor (pressed: Option<bool>, disabled: bool, hasOnPressedChange: bool)
      ensures !internalPressed
      ensures controlled == pressed && this.disabled == disabled && this.hasOnPressedChange == hasOnPressedChange
    {
      internalPressed := false;
      controlled := pressed;
      this.disabled := disabled;
      this.hasOnPressedChange := hasOnPressedChange;
    }

    /** `isPressed`: the `pressed` prop whenever it is defined. */
    function IsPressed(): bool
      reads this
    {
      if controlled.Some? then controlled.value else internalPressed
    }

    /** `handlePress`: nothing when disabled; otherwise the negation of the
        shown state goes to `onPressedChange`, or into the internal flag. */
    method HandlePress() returns (emitted: Option<bool>)
      modifies this
      ensures disabled ==> emitted.None? && internalPressed == old(internalPressed)
      ensures !disabled && hasOnPressedChange ==>
                emitted == Some(!old(IsPressed())) && internalPressed == old(internalPressed)
      ensures !disabled && !hasOnPressedChange ==> emitted.None? && internalPressed == !old(IsPressed())
    {
      if disabled {
        emitted := None;
        return;
      }
      if hasOnPressedChange {
        emitted := Some(!IsPressed());
      } else {
        emitted := None;
        internalPressed := !IsPressed();
      }
    }
  }

  /** An uncontrolled toggle flips on each press and a disabled one never
      does; a controlled one without a handler writes the negated prop into
      its hidden flag and keeps showing the prop. */
  method PressTwice() returns (first: bool, second: bool, disabledState: bool, controlledShown: bool, hidden: bool)
    ensures first && !second && !disabledState
    ensures controlledShown && !hidden
  {
    var t := new ToggleButton(None, false, false);
    var _ := t.HandlePress();
    first := t.IsPressed();
    var _ := t.HandlePress();
    second := t.IsPressed();
    var d := new ToggleButton(None, true, false);
    var _ := d.HandlePress();
    disabledState := d.IsPressed();
    var c := new ToggleButton(Some(true), false, false);
    var _ := c.HandlePress();
    controlledShown := c.IsPressed();
    hidden := c.internalPressed;
  }
}

=== FILE: toggle_group.dfy ===
/** The kit's `ToggleGroup`: a stateless group whose items compute the next
    group value and hand it to `onValueChange`. `type === 'single'` selects
    single mode; every other type string behaves as multiple mode. */
module ToggleGroup {
  import opened Common

  /** The group's `value` prop: `undefined` (`Unset`), a string, or an array. */
  datatype GroupValue = Unset | Text(s: string) | Arr(items: seq<string>)

  /** `isDisabled`. */
  predicate IsDisabled(groupDisabled: bool, itemDisabled: bool)
  {
    groupDisabled || itemDisabled
  }

  /** `isPressed`: equality in single mode, array membership otherwise. */
  predicate IsPressed(single: bool, groupValue: GroupValue, value: string)
    ensures IsPressed(single, groupValue, value) ==> if single then groupValue.Text? else groupValue.Arr?
  {
    if single then groupValue == Text(value)
    else groupValue.Arr? && value in groupValue.items
  }

  /** `handlePress`: the value handed to `onValueChange`, or `None` when the
      press does nothing. */
  function HandlePress(groupDisabled: bool, itemDisabled: bool, single: bool,
                       groupValue: GroupValue, hasHandler: bool, value: string): (r: Option<GroupValue>)
    ensures r.None? <==> IsDisabled(groupDisabled, itemDisabled) || !hasHandler
  {
    if IsDisabled(groupDisabled, itemDisabled) || !hasHandler then None
    else if single then Some(if IsPressed(single, groupValue, value) then Unset else Text(value))
    else
      var current := if groupValue.Arr? then groupValue.items else [];
      if IsPressed(single, groupValue, value) then Some(Arr(Without(current, value)))
      else Some(Arr(current + [value]))
  }

  /** An enabled press with a handler flips the pressed item. In multiple
      mode no other item changes and the emitted value is always an array
      (a non-array group value counts as empty); in single mode every other
      item ends unpressed. */
  lemma PressToggles(single: bool, groupValue: GroupValue, value: string, other: string)
    requires other != value
    ensures var r := HandlePress(false, false, single, groupValue, true, value);
      && r.Some?
      && (IsPressed(single, r.value, value) <==> !IsPressed(single, groupValue, value))
      && (!single ==> r.value.Arr? && (IsPressed(single, r.value, other) <==> IsPressed(single, groupValue, other)))
      && (single ==> !IsPressed(single, r.value, other))
  {
    if !single {
      var current := if groupValue.Arr? then groupValue.items else [];
      WithoutMembers(current, value, value);
      WithoutMembers(current, value, other);
    }
  }

  /** Single mode: a pressed item emits `undefined`, an unpressed one its value. */
  lemma SingleModeEmits(groupValue: GroupValue, value: string)
    ensures HandlePress(false, false, true, groupValue, true, value) ==
              Some(if groupValue == Text(value) then Unset else Text(value))
  {
  }

  /** Multiple mode with a value that is not an array starts from the empty list. */
  lemma NonArrayCountsAsEmpty(groupValue: GroupValue, value: string)
    requires !groupValue.Arr?
    ensures HandlePress(false, false, false, groupValue, true, value) == Some(Arr([value]))
  {
    assert [] + [value] == [value];
  }
}

=== FILE: trai.dfy ===
/** The TRAI (mobile number) verification screen: number -> OTP -> verified
    telecom record -> upload -> complete, with the same state machine as the
    Aadhaar screen. */
module Trai {
  import opened Common
  import opened Workflow
  import Button

  /** The fixture telecom record. */
  datatype TraiRecord = TraiRecord(
    mobileNumber: string, operator: string, circle: string, connectionType: string,
    registeredName: string, activationDate: string, status: string, ported: string)

  /** The record the OTP timer stores: constants, plus the entered number
      behind the country prefix, from which it can be read back. */
  function TraiFixture(number: string): (r: TraiRecord)
    ensures |r.mobileNumber| == |number| + 4
    ensures r.mobileNumber[..4] == "+91-" && r.mobileNumber[4..] == number
  {
    TraiRecord("+91-" + number, "Airtel", "Maharashtra", "Prepaid", "John Doe",
               "15/01/2020", "Active", "No")
  }

  /** The check at the top of `handleMobileSubmit`. */
  function CheckMobileNumber(number: string): (alert: Option<Alert>)
    ensures alert.None? <==> |number| == 10
  {
    if |number| != 10 then Some(Alert("Error", "Please enter a valid 10-digit mobile number"))
    else None
  }

  /** The check at the top of `handleOtpSubmit`. */
  function CheckOtp(otp: string): (alert: Option<Alert>)
    ensures alert.None? <==> |otp| == 6
  {
    if |otp| != 6 then Some(Alert("Error", "Please enter a valid 6-digit OTP")) else None
  }

  /** A pending `setTimeout` callback, with what its closure captured. */
  datatype Timer = NoTimer | SubmitTimer | OtpTimer(number: string) | UploadTimer

  /** All state fields of the screen at once. */
  datatype Snapshot = Snapshot(
    step: Step, mobileNumber: string, otp: string, isLoading: bool,
    verifiedData: Option<TraiRecord>, pending: Timer, completions: nat)

  class TraiScreen {
    var step: Step
    var mobileNumber: string
    var otp: string
    var isLoading: bool
    var verifiedData: Option<TraiRecord>
    /** The callback scheduled and not yet run. */
    var pending: Timer
    /** How many times `onValidationComplete` has been called. */
    var completions: nat
    const fromVerificationRequest: bool
    const hasCallback: bool

    ghost function State(): Snapshot
      reads this
    {
      Snapshot(step, mobileNumber, otp, isLoading, verifiedData, pending, completions)
    }

    /** The invariant of every reachable state: the spinner runs exactly while a
        verification timer is pending; a record is present iff the step is past
        `otp`; in the verification-request context the flow stops at
        `verified`; the callback ran once if and only if the flow is complete. */
    ghost predicate Valid()
      reads this
    {
      && (isLoading <==> pending.SubmitTimer? || pending.OtpTimer?)
      && (pending.SubmitTimer? ==> step == Input)
      && (pending.OtpTimer? ==> step == Otp && pending.number == mobileNumber)
      && (pending.UploadTimer? <==> step == Upload)
      && (verifiedData.Some? <==> PastOtp(step))
      && (verifiedData.Some? ==> verifiedData.value == TraiFixture(mobileNumber))
      && (fromVerificationRequest ==> step != Upload && step != Complete)
      && completions == (if step == Complete && hasCallback then 1 else 0)
    }

    constructor (context: Option<ScreenContext>, onValidationComplete: bool)
      ensures Valid()
      ensures State() == Snapshot(Input, "", "", false, None, NoTimer, 0)
      ensures fromVerificationRequest == IsFromVerificationRequest(context)
      ensures hasCallback == onValidationComplete
    {
      step, mobileNumber, otp, isLoading := Input, "", "", false;
      verifiedData, pending, completions := None, NoTimer, 0;
      fromVerificationRequest := IsFromVerificationRequest(context);
      hasCallback := onValidationComplete;
    }

    /** `onChangeText` of the number field, which only the input step renders. */
    method EditMobileNumber(text: string)
      requires Valid() && step == Input
      modifies this
      ensures Valid()
      ensures State() == old(State()).(mobileNumber := text)
    {
      mobileNumber := text;
    }

    /** `onChangeText` of the OTP field, which only the OTP step renders. */
    method EditOtp(text: string)
      requires Valid() && step == Otp
      modifies this
      ensures Valid()
      ensures State() == old(State()).(otp := text)
    {
      otp := text;
    }

    /** `handleMobileSubmit`. Its only caller is the "Send OTP" button, which
        is rendered at the input step and disabled while loading. */
    method HandleMobileSubmit() returns (alert: Option<Alert>)
      requires Valid() && step == Input && !isLoading
      modifies this
      ensures Valid()
      ensures alert == CheckMobileNumber(mobileNumber)
      ensures alert.Some? ==> State() == old(State())
      ensures alert.None? ==> State() == old(State()).(isLoading := true, pending := SubmitTimer)
    {
      alert := CheckMobileNumber(mobileNumber);
      if alert.Some? {
        return;
      }
      isLoading := true;
      pending := SubmitTimer;
    }

    /** A press on "Send OTP": the button is disabled while loading or while
        the number is not ten characters long, so no alert can be raised. */
    method PressSendOtp()
      requires Valid() && step == Input
      modifies this
      ensures Valid()
      ensures if Button.IsDisabled(|old(mobileNumber)| != 10, old(isLoading))
              then State() == old(State())
              else State() == old(State()).(isLoading := true, pending := SubmitTimer)
    {
      if !Button.IsDisabled(|mobileNumber| != 10, isLoading) {
        var alert := HandleMobileSubmit();
        assert alert.None?;
      }
    }

    /** `handleOtpSubmit`. Its only caller is the "Verify OTP" button. */
    method HandleOtpSubmit() returns (alert: Option<Alert>)
      requires Valid() && step == Otp && !isLoading
      modifies this
      ensures Valid()
      ensures alert == CheckOtp(otp)
      ensures alert.Some? ==> State() == old(State())
      ensures alert.None? ==> State() == old(State()).(isLoading := true, pending := OtpTimer(mobileNumber))
    {
      alert := CheckOtp(otp);
      if alert.Some? {
        return;
      }
      isLoading := true;
      pending := OtpTimer(mobileNumber);
    }

    /** A press on "Verify OTP", disabled while loading or unless six characters are entered. */
    method PressVerifyOtp()
      requires Valid() && step == Otp
      modifies this
      ensures Valid()
      ensures if Button.IsDisabled(|old(otp)| != 6, old(isLoading))
              then State() == old(State())
              else State() == old(State()).(isLoading := true, pending := OtpTimer(mobileNumber))
    {
      if !Button.IsDisabled(|otp| != 6, isLoading) {
        var alert := HandleOtpSubmit();
        assert alert.None?;
      }
    }

    /** `handleUploadDocument`, behind the upload button of the verified step. */
    method HandleUploadDocument()
      requires Valid() && step == Verified && !fromVerificationRequest
      modifies this
      ensures Valid()
      ensures State() == old(State()).(step := Upload, pending := UploadTimer)
    {
      step := Upload;
      pending := UploadTimer;
    }

    /** A press where the upload button would be: it is not rendered in the
        verification-request context. */
    method PressUpload()
      requires Valid() && step == Verified
      modifies this
      ensures Valid()
      ensures if fromVerificationRequest then State() == old(State())
              else State() == old(State()).(step := Upload, pending := UploadTimer)
    {
      if !fromVerificationRequest {
        HandleUploadDocument();
      }
    }

    /** The pending `setTimeout` callback runs. */
    method TimerFires()
      requires Valid()
      modifies this
      ensures Valid()
      ensures Rank(old(step)) <= Rank(step)
      ensures old(pending).NoTimer? ==> State() == old(State())
      ensures old(pending).SubmitTimer? ==>
                State() == old(State()).(isLoading := false, step := Otp, pending := NoTimer)
      ensures old(pending).OtpTimer? ==>
                State() == old(State()).(verifiedData := Some(TraiFixture(old(pending).number)),
                                         isLoading := false, step := Verified, pending := NoTimer)
      ensures old(pending).UploadTimer? ==>
                State() == old(State()).(step := Complete, pending := NoTimer,
                                         completions := if hasCallback then 1 else 0)
    {
      match pending
      case NoTimer =>
      case SubmitTimer =>
        isLoading := false;
        step := Otp;
        pending := NoTimer;
      case OtpTimer(number) =>
        verifiedData := Some(TraiFixture(number));
        isLoading := false;
        step := Verified;
        pending := NoTimer;
      case UploadTimer =>
        step := Complete;
        if hasCallback {
          completions := completions + 1;
        }
        pending := NoTimer;
    }
  }

  /** Entering 9876543210, then an OTP, and letting both timers run ends at
      `verified` with the prefixed number. */
  method Scenario() returns (record: TraiRecord)
    ensures record.mobileNumber == "+91-9876543210"
  {
    var screen := new TraiScreen(None, true);
    screen.EditMobileNumber("9876543210");
    screen.PressSendOtp();
    screen.TimerFires();
    screen.EditOtp("123456");
    screen.PressVerifyOtp();
    screen.TimerFires();
    record := screen.verifiedData.value;
  }
}

=== FILE: workflow.dfy ===
/** What the five credential screens share: the step names and their order,
    the step switch that picks what to render, the three-marker progress
    indicator, the `context.returnTo` test and the blocking alert. */
module Workflow {
  import opened Common

  /** `verificationStep`. The direct flows (ICAI, Doctor, DL) never use `Otp`. */
  datatype Step = Input | Otp | Verified | Upload | Complete

  /** Position of a step along the flow; no handler or timer lowers it. */
  function Rank(s: Step): nat
  {
    match s
    case Input => 0
    case Otp => 1
    case Verified => 2
    case Upload => 3
    case Complete => 4
  }

  /** The steps at which a verified record is shown: every step after `otp`. */
  predicate PastOtp(s: Step)
  {
    s == Verified || s == Upload || s == Complete
  }

  /** `Alert.alert(title, message)`: the error outcome of a rejected submit. */
  datatype Alert = Alert(title: string, message: string)

  /** The `context` prop; only its `returnTo` key is read. */
  datatype ScreenContext = ScreenContext(returnTo: Option<string>)

  const VerificationRequests: string := "verification-requests"

  /** `context?.returnTo === 'verification-requests'`. */
  predicate IsFromVerificationRequest(context: Option<ScreenContext>)
  {
    context.Some? && context.value.returnTo == Some(VerificationRequests)
  }

  /** The string each step is stored as. */
  function StepName(s: Step): string
  {
    match s
    case Input => "input"
    case Otp => "otp"
    case Verified => "verified"
    case Upload => "upload"
    case Complete => "complete"
  }

  /** `renderCurrentStep` of the OTP flows (Aadhaar, TRAI): the step whose view
      is rendered for a stored step name; unknown names render the input view. */
  function RenderOtpFlow(name: string): (s: Step)
    ensures s == Input || StepName(s) == name
  {
    if name == "input" then Input
    else if name == "otp" then Otp
    else if name == "verified" then Verified
    else if name == "upload" then Upload
    else if name == "complete" then Complete
    else Input
  }

  /** `renderCurrentStep` of the direct flows (ICAI, Doctor, DL): there is no
      `otp` case, so that name falls to the default and renders the input view. */
  function RenderDirectFlow(name: string): (s: Step)
    ensures s != Otp
    ensures s == Input || StepName(s) == name
  {
    if name == "input" then Input
    else if name == "verified" then Verified
    else if name == "upload" then Upload
    else if name == "complete" then Complete
    else Input
  }

  /** Every stored step renders its own view; in the direct flows `otp`
      renders the input view; any other name renders the input view. */
  lemma RenderStepSwitch(s: Step, name: string)
    ensures RenderOtpFlow(StepName(s)) == s
    ensures RenderDirectFlow(StepName(s)) == (if s == Otp then Input else s)
    ensures (forall t :: StepName(t) != name) ==>
              RenderOtpFlow(name) == Input && RenderDirectFlow(name) == Input
  {
    if forall t :: StepName(t) != name {
      assert StepName(Otp) != name && StepName(Verified) != name;
      assert StepName(Upload) != name && StepName(Complete) != name;
    }
  }

  /** The progress indicator: marker 1 is lit once the step is past `input`,
      marker 2 from `verified` on, marker 3 at `complete`. */
  datatype Markers = Markers(first: bool, second: bool, third: bool)

  function ProgressMarkers(s: Step): (m: Markers)
    ensures m.first <==> Rank(s) >= 1
    ensures m.second <==> Rank(s) >= 2
    ensures m.third <==> Rank(s) == 4
  {
    Markers(s != Input, PastOtp(s), s == Complete)
  }

  /** Number of lit markers. */
  function LitCount(m: Markers): nat
  {
    (if m.first then 1 else 0) + (if m.second then 1 else 0) + (if m.third then 1 else 0)
  }

  /** The lit markers always form a prefix, and moving forward never unlights one. */
  lemma MarkersFormPrefix(s: Step, t: Step)
    ensures ProgressMarkers(s).third ==> ProgressMarkers(s).second
    ensures ProgressMarkers(s).second ==> ProgressMarkers(s).first
    ensures Rank(s) <= Rank(t) ==> LitCount(ProgressMarkers(s)) <= LitCount(ProgressMarkers(t))
    ensures LitCount(ProgressMarkers(s)) == 0 <==> s == Input
    ensures LitCount(ProgressMarkers(s)) == 3 <==> s == Complete
  {
  }
}
